=== FILE: README.md ===
# lilypond-ci in Dafny

A model of the logic at the heart of lilypond-ci, the continuous-integration
helpers for GNU LilyPond. It covers five parts.

- **The page comparator `cmd/compare`.** It takes two directories of rendered
  regression-test pages (EPS or PNG), pairs them by name and renders the EPS
  pages to PNG. It compares every pair pixel by pixel, then ranks the pages
  by how much they differ.
- **The summed-area table** that `cmd/compare/convolve_test.go` pins down.
- **The Go CI driver `test.go`**: which platforms, modes and stages it
  accepts, and the names it derives for a test run.
- **The Python driver `test-lily.py`**: the same decisions, made by its own
  rules.
- **`cmd/download-gitlab-website`**: which job's website artifact it fetches,
  and where each zip entry is unpacked.

Each Dafny module follows one part of the source:

| module | file | source |
|---|---|---|
| `Wrappers` | wrappers.dfy | `Option`/`Result`, standing in for Go's `error` and Python's `error()` exits |
| `Text` | text.dfy | the string library the code relies on: `strings.Index`, `strings.Split`/`Join`, `strconv.Atoi`, `%d`, character-class replacement |
| `Pixels` | pixels.dfy | `absdiff`, `sqDiffUInt8`, `sqDiffRGBA` |
| `ImageDiff` | image_compare.dfy | `ImageCompare` over arrays, `compareOne`'s write-if-different decision |
| `SummedArea` | summed_area.dfy | `signedImage.Set`, `newIntegralImage`, `Val` |
| `Eps` | eps.dfy | `EPSBBoxEmpty`, the placeholder substitution of `convertEPSBatch`, the round-robin split of `convertEPSParallel` |
| `Pairing` | pairing.dfy | `digitRE`, `filepath.Ext`/`Join`, the table `compareDir` builds |
| `Ranking` | ranking.dfy | the sort and the cut of `Trim` |
| `Scheduler` | scheduler.dfy | `renderPNG`, `comparePNG`, `Trim` and `compareDir` as methods of `compareResult` |
| `Naming` | naming.dfy | seed image, driver script, rietveld issue branch and result name, shared by both drivers |
| `CiDriver` | ci_driver.dfy | `test.go` |
| `LilyDriver` | lily_driver.dfy | `test-lily.py` |
| `ArtifactFetch` | artifact_fetch.dfy | `cmd/download-gitlab-website/main.go` |

## How the source is represented

- **Images.** An image is an `array2<Color>` indexed `[x, y]` and anchored at
  the origin. Reading outside it yields the zero colour, as `RGBAAt` does. The
  comparator is a method that fills a fresh diff array with nested loops. It
  is proved against the functions `TotalError` and `CellMark`, which give
  each point's contribution under a `Reading` of the pair.
- **Maps.** The `compareResult` object is a class holding `byName` as a
  `map<string, FileResult>`. Go's `*fileResult` pointers become map values.
  Loops over a Go map pick keys with `:|`, so every result is stated for
  every iteration order.
- **Worker pools.** They run one chunk or one page after another.
  Ghostscript, ImageMagick and the PNG decoder become parameters: `convert`
  gives a chunk's conversion error and `compare` gives a page's outcome.
- **Bytes.** File contents, EPS headers and zip entry names are byte strings:
  a `string` here holds one `char` per byte, so the 1024-byte header limit
  counts characters.
- **Directories.** A directory is its listing, the entry names in the order
  `ReadDir` returns them. An EPS file system is a map from path to contents.
- **Drivers.** Each driver's exits (`log.Fatal`, `error()`, `sys.exit`) are
  error values: `CiDriver.Fatal` and `LilyDriver.Exit`.

## Behaviour worth knowing

- **`Trim` keeps up to `max + 1` pages.** It cuts at the first index `i > max`,
  while the `-max` flag's help reads "output top-N differences"
  (cmd/compare/main.go:539). The model follows the code.
- **The two drivers strip the result name differently.** `test.go` removes
  the prefix through the last ':' with `^.*:`, which reaches the first line
  only. `test-lily.py` uses `.*:` without an anchor, which strips every line.
  - The names agree when the URL and branch hold no newline
    (`Naming.ResultNamesAgree`).
  - They differ otherwise (`Naming.ResultNamesDiffer`).
- **`test-lily.py` records a valid single `--platform` value nowhere.** The
  `add` sits after `error()` in the branch for an unknown platform. A run
  therefore tests `fedora-guile2` unless `all` was given
  (`LilyDriver.SinglePlatformIgnored`, `LilyDriver.UbuntuTestsGuile2`).
- **`digitRE`'s `.` is not escaped.** `x-12Xeps` counts as a page
  (`Pairing.PageName`).
- **A three-field bounding box can pass.** The `||` in EPSBBoxEmpty reads
  dims[3] only when dims[0] < dims[2], so "5 0 3" is reported degenerate
  without a fourth field (`Eps.ThreeFieldLine`).
- **`compareDir`'s slot rule.** On each side, the first `.png` page filed
  under a name fills its slot for good. Without a `.png` page, the last page
  wins (`Pairing.FirstPngWins`, `Pairing.LastPageWins`).

## Model

| member | source | states |
|---|---|---|
| Pixels.AbsDiff | cmd/compare/main.go:27-32 | the distance of two bytes is at most 255, is zero exactly when they are equal, and closes the gap between them |
| Pixels.AbsDiffSymmetric | cmd/compare/main.go:27-32 | absdiff does not depend on the order of its arguments |
| Pixels.SqDiffUInt8 | cmd/compare/main.go:34-37 | returns the squared distance with the distance; the square is at most 255² and zero exactly when the bytes agree |
| Pixels.SqDiffRGBA | cmd/compare/main.go:39-46 | the squared error is at most 3·255² and is zero exactly when red, green and blue agree |
| Pixels.SqDiffRGBAMeaning | cmd/compare/main.go:39-46 | the squared error is the sum of the three channels' squares, fits a uint32 and is zero exactly when red, green and blue agree; the second result is the floor of the mean channel distance |
| Pixels.SqDiffRGBAIgnoresAlpha | cmd/compare/main.go:44-45 | changing either alpha changes neither result |
| Pixels.SqDiffRGBASymmetric | cmd/compare/main.go:39-46 | both results are symmetric in the two colours |
| Pixels.ErrorWithoutMark | cmd/compare/main.go:45 | a total channel distance of 1 or 2 adds squared error while its mean truncates to 0, so the pixel is not marked |
| Pixels.ZeroAgainstWhite | cmd/compare/main.go:64 | black against the white canvas gives the largest error, 3·255², and mean 255 |
| ImageDiff.Layout | cmd/compare/main.go:49-63 | the union's and intersection's Max corners are the maxima and minima of the bounds for non-empty images; the wider and taller choices fall to img2 on ties |
| ImageDiff.Scan | cmd/compare/main.go:48-94 | the diff raster is fresh and sized to the union's Max; accumError is the error of every visited point; every pixel holds its point's mark |
| ImageDiff.ScanUpperRows | cmd/compare/main.go:66-83 | the rows above the intersection height add their error and paint their marks |
| ImageDiff.ScanUpperRow | cmd/compare/main.go:66-83 | one turn of the upper-row loop: the intersection part, then the right strip, leaving the error total at GridError(y + 1) and the raster painted through row y |
| ImageDiff.RowDone | cmd/compare/main.go:66-83 | a row painted across the raster's full width counts as painted, so the next row starts at x = 0 |
| ImageDiff.ScanIntersectionRow | cmd/compare/main.go:67-74 | inside the intersection, img1 is compared with img2 point by point |
| ImageDiff.ScanRightStrip | cmd/compare/main.go:75-82 | right of the intersection, the wider image is compared with white up to the union width, finishing the row |
| ImageDiff.StripCell | cmd/compare/main.go:76-81 | one point of that strip adds its error and mark |
| ImageDiff.ScanLowerRows | cmd/compare/main.go:84-94 | the rows at or past the intersection height add their error and marks |
| ImageDiff.ScanLowerRow | cmd/compare/main.go:85-93 | one such row is scanned across the taller image's width against white |
| ImageDiff.LowerCell | cmd/compare/main.go:87-92 | one point of such a row adds its error and mark |
| ImageDiff.LowerRowDone | cmd/compare/main.go:85-86 | the rest of a lower row past the taller image's width is never visited and adds nothing |
| ImageDiff.RowTailUnvisited | cmd/compare/main.go:85-86 | points of a lower row past maxYImg's width contribute no error |
| ImageDiff.PaintPoint | cmd/compare/main.go:70-73 | a visited point is painted red with its mean as alpha exactly when the mean is positive; no other pixel changes |
| ImageDiff.VisitedPoint | cmd/compare/main.go:68-73 | a visited point adds sqDiffRGBA's squared error and, when the mean is positive, the red mark |
| ImageDiff.MarkShape | cmd/compare/main.go:53 | every diff pixel is all zero or R=0xff, G=B=0, A=mean>0; it is marked exactly when its mean is positive, and a marked point always carries error |
| ImageDiff.StripProbe | cmd/compare/main.go:75-76 | right of the intersection, above its height, the wider image (img2 on ties) meets white |
| ImageDiff.LowerProbe | cmd/compare/main.go:84-87 | at or past the intersection height, within the taller image's width, the chosen image meets white |
| ImageDiff.ImageCompare | cmd/compare/main.go:48-97 | the corrected comparator: accumError and the diff raster are those of reading the lower rows from the taller image |
| ImageDiff.ImageCompareAsWritten | cmd/compare/main.go:48-97 | the comparator as written: the lower rows read maxXImg across maxYImg's width |
| ImageDiff.GridAtLeastCell | cmd/compare/main.go:65-94 | accumError is at least the error of any single point of the union |
| ImageDiff.GridZero | cmd/compare/main.go:65-94 | accumError is zero when no point of the union adds error |
| ImageDiff.GridCongruent | cmd/compare/main.go:65-94 | two readings that agree point by point accumulate the same error |
| ImageDiff.SameBoundsOnlyIntersection | cmd/compare/main.go:66-94 | with equal bounds only the intersection is visited, img1 against img2 |
| ImageDiff.SamePageNoDifference | cmd/compare/main.go:66-74 | comparing a page with an exact copy adds no error and marks no pixel |
| ImageDiff.SwapCell | cmd/compare/main.go:68 | with equal bounds, swapping the pages changes no point's error or mark |
| ImageDiff.SwapSameBounds | cmd/compare/main.go:66-74 | swapping two pages with equal bounds changes neither accumError nor the diff raster |
| ImageDiff.TallerReadingIsWhiteCanvas | cmd/compare/main.go:54-93 | for non-empty pages, reading the lower rows from the taller image gives each point of the union the error and mark of both pages laid on white |
| ImageDiff.ImageCompareIsWhiteCanvas | cmd/compare/main.go:54-93 | the corrected comparator's accumError is the white-canvas error of the whole union |
| ImageDiff.AsWrittenChargesBlankRows | cmd/compare/main.go:84-93 | two blank pages, the first wider and the second taller, get full black-against-white error as written and none when corrected |
| ImageDiff.CompareOne | cmd/compare/main.go:650-667 | compareOne as written, over ImageCompareAsWritten: a diff image is handed back for writing exactly when accumError is positive, and never for identical pages; it is the union-sized raster whose every pixel is its point's mark under the as-written reading |
| ImageDiff.CompareOneCorrected | cmd/compare/main.go:650-667 | compareOne over the corrected comparator: accumError is the white-canvas error of the union, a diff is handed back exactly when it is positive, and two blank non-empty pages give none; the diff is the union-sized raster of the corrected reading's marks |
| ImageDiff.BlankPagesNoDifference | cmd/compare/main.go:54-93 | two all-white pages have no white-canvas error, whatever their sizes |
| SummedArea.PrefixSumStep | cmd/compare/convolve_test.go:23 | the prefix sum obeys S(x,y) = D(x,y) + S(x-1,y) + S(x,y-1) - S(x-1,y-1) |
| SummedArea.PrefixClampX | cmd/compare/convolve_test.go:27 | columns right of the raster add nothing to a prefix sum |
| SummedArea.PrefixClampY | cmd/compare/convolve_test.go:31 | rows below the raster add nothing to a prefix sum |
| SummedArea.ColumnOutside | cmd/compare/convolve_test.go:26 | a column left or right of the raster sums to 0 |
| SummedArea.ColumnClamp | cmd/compare/convolve_test.go:29-31 | rows below the raster add nothing to a column sum |
| SummedArea.PrefixEmpty | cmd/compare/convolve_test.go:12 | a raster with no samples has every prefix sum 0 |
| SummedArea.SignedImage.constructor | cmd/compare/convolve_test.go:12 | a new signed image has the given size and is zero everywhere |
| SummedArea.SignedImage.Set | cmd/compare/convolve_test.go:18-21 | stores the value at one point inside the raster and changes no other point |
| SummedArea.FillPoint | cmd/compare/convolve_test.go:23 | storing one entry of the table extends the filled prefix in row-major order |
| SummedArea.BuildSums | cmd/compare/convolve_test.go:23 | every entry of the table is the inclusive prefix sum of the signed image |
| SummedArea.IntegralImage.constructor | cmd/compare/convolve_test.go:23 | the integral image has the signed image's size and holds its prefix sums |
| SummedArea.ValIsPrefixSum | cmd/compare/convolve_test.go:24-31 | Val at any point is the inclusive prefix sum there: 0 at a negative coordinate, clamped past the raster |
| SummedArea.IntegralImage.Val | cmd/compare/convolve_test.go:24-31 | the table lookup the test queries, clamped past the raster; stated by ValIsPrefixSum |
| SummedArea.SumImageScenario | cmd/compare/convolve_test.go:8-39 | after the four Set calls the grid is 1 2 / 3 4, and Val at the seven tested points is 1, 0, 3, 10, 10, 10, 4 |
| Text.IndexOf | cmd/compare/main.go:181 | strings.Index gives the first occurrence of the pattern, or none when there is none |
| Text.Split | cmd/compare/main.go:189 | strings.Split returns at least one piece, and no piece holds the separator |
| Text.JoinSplit | cmd/download-gitlab-website/main.go:170-175 | joining the pieces of a split (Text.Split, Text.Join, as strings.Split and strings.Join) gives the string back |
| Text.SplitJoin | test.go:75 | splitting a join of separator-free pieces gives the pieces back |
| Text.Atoi | cmd/compare/main.go:190 | strconv.Atoi accepts exactly an optional sign and one or more decimal digits whose value fits an int64 (down to -2^63); the value is that of the digits, negated after '-' |
| Text.AtoiExamples | cmd/compare/main.go:190 | leading zeros, '+' and "-0" are accepted; "", "-" and a trailing space are rejected |
| Text.AtoiIntToString | cmd/compare/main.go:190 | Atoi reads back every int64 %d (Text.IntToString) prints |
| Text.NatToStringValue | test.go:75 | %d (Text.IntToString) of a natural number is its decimal digits |
| Text.ReplaceChars | test.go:120 | the replacement keeps the length, keeps every other character, and leaves none of the replaced ones |
| Eps.Header | cmd/compare/main.go:172-178 | the header is the first min(len, 1024) bytes of the file: a prefix of exactly that length |
| Eps.HeaderBBoxEmpty | cmd/compare/main.go:172-197 | on an opened file the read fails exactly when the file is empty; the other error paths are stated by NoBoundingBoxIff, NoLineEndIff and LineVerdict |
| Eps.LineVerdict | cmd/compare/main.go:189-197 | for any numerals Atoi accepts: a verdict needs every field to parse and at least three fields, and its value is dims[0] >= dims[2] or (with a fourth field) dims[1] >= dims[3]; too few fields, where the Go code panics, happens exactly when every field parses and there are fewer than three, or three with dims[0] < dims[2] |
| Eps.EPSBBoxEmpty | cmd/compare/main.go:166-197 | opening fails exactly when the file is missing |
| Eps.ParseDims | cmd/compare/main.go:188-195 | every field parses and the dims are their values, or the first field Atoi rejects is reported |
| Eps.NoLineEndIff | cmd/compare/main.go:180-187 | the line-end panic happens exactly when the marker is found but no newline follows its first occurrence within the header |
| Eps.NoBoundingBoxIff | cmd/compare/main.go:180-184 | the header is reported without a bounding box exactly when it is non-empty and the marker occurs nowhere in it |
| Eps.MarkedLine | cmd/compare/main.go:180-187 | wherever the marker first occurs, after any header lines, the verdict is that of the rest of the marker's line when that line ends within the header (Eps.MarkedLineLocated finds the marker and the line end) |
| Eps.WellFormedLine | cmd/compare/main.go:189-197 | four or more int64 fields printed with single spaces give exactly dims[0] >= dims[2] or dims[1] >= dims[3] |
| Eps.ThreeFieldLine | cmd/compare/main.go:189-197 | a three-field line gives true when llx >= urx, since the short-circuit `or` stops before reading dims[3], and panics otherwise |
| Eps.WellFormedHeader | cmd/compare/main.go:178-197 | a header whose first marker is followed by a well-formed box line, after any header lines, gives the degeneracy verdict of its numbers |
| Eps.FirstLineMarker | cmd/compare/main.go:180-181 | after a first line without a newline the marker, which starts with one, first occurs right after that line |
| Eps.PlaceholderNotEmpty | cmd/compare/main.go:250-253 | the placeholder file's box 0 0 1 1 is not degenerate |
| Eps.ParseDimsFirstBad | cmd/compare/main.go:189-193 | parsing stops at the first field Atoi rejects and reports that field |
| Eps.DoubledSpaceRejected | cmd/compare/main.go:189-193 | a doubled space leaves an empty field, which makes the header an error |
| Eps.LineWithBadField | cmd/compare/main.go:189-193 | a line whose fields hold no space fails at its first field Atoi rejects |
| Eps.FieldsReadBack | cmd/compare/main.go:189-190 | every printed number is free of spaces and reads back through Atoi |
| Eps.PlanBatch | cmd/compare/main.go:262-272 | the batch succeeds exactly when every input's bounding-box test does; a degenerate input is replaced by the placeholder and any other one kept; a failure reports an input's error |
| Eps.ChunkSizeClosedForm | cmd/compare/main.go:132-136 | after i keys, chunk c holds i / n keys, plus one for the first i % n chunks |
| Eps.ChunkSizesBalanced | cmd/compare/main.go:132-136 | round-robin chunk sizes never differ by more than one |
| Eps.DealtProperties | cmd/compare/main.go:128-136 | dealing distinct keys agrees with the input, covers the keys dealt, never repeats a key and follows the round robin |
| Eps.Partition | cmd/compare/main.go:122-136 | the ncpu chunks are disjoint, agree with the input, cover all of it, and have round-robin sizes |
| Eps.PartitionBalanced | cmd/compare/main.go:128-136 | any two chunks differ in size by at most one |
| Eps.FirstError | cmd/compare/main.go:151-162 | an error is returned exactly when some chunk fails, and it is the error of a non-empty chunk |
| Eps.ConvertEPS | cmd/compare/main.go:199-217 | a chunk's conversion: an empty chunk runs no Ghostscript and never fails, because convertEPSBatch returns nil for an empty map; a non-empty chunk has the supplied outcome |
| Eps.NothingToConvertNoError | cmd/compare/main.go:122-163 | with no EPS input every chunk is empty and none fails |
| Eps.ConvertParallel | cmd/compare/main.go:122-163 | the split's guarantees; an error is reported exactly when a chunk fails, and it is a non-empty chunk's error; with no EPS input there is none |
| Pairing.PngPathSuffix | cmd/compare/main.go:339 | the png test is strings.HasSuffix(p, ".png") |
| Pairing.DigitREFinds | cmd/compare/main.go:99 | the page test digitRE.FindString(name) != "", read off the end of the name; its meaning is stated by DigitREFindsMatches |
| Pairing.DigitREFindsMatches | cmd/compare/main.go:99 | the backward scan finds digitRE exactly when '-', digits, any non-newline character and eps or png end the name |
| Pairing.PageName | cmd/compare/main.go:99 | every name ending in '-', digits, any non-newline character and eps or png is a page, a dot or not |
| Pairing.NoDigitNoPage | cmd/compare/main.go:99 | without a digit before the wildcard character there is no page |
| Pairing.ExtMeaning | cmd/compare/main.go:331 | filepath.Ext is a suffix of the name, empty exactly when the last element has no '.', otherwise from its last '.' |
| Pairing.Ext | cmd/compare/main.go:331 | filepath.Ext as a backward scan; its meaning is stated by ExtMeaning |
| Pairing.StemExt | cmd/compare/main.go:331 | the stem (Pairing.Stem, the name with filepath.Ext cut off) and the extension make up the name |
| Pairing.StemOfDotted | cmd/compare/main.go:331 | "page-12.eps" and "page-12.png" are filed under "page-12" |
| Pairing.WithIn | cmd/compare/main.go:340 | replacing In[i] changes only that slot |
| Pairing.JoinPathEnds | cmd/compare/main.go:340 | a joined path ends with the name; under "" or "." it is the name, otherwise the directory, one separator and the name |
| Pairing.JoinPath | cmd/compare/main.go:340 | filepath.Join of a clean directory and an entry name; stated by JoinPathEnds |
| Pairing.JoinPathCurrentDir | cmd/compare/main.go:340 | "." joined with "a-1.png" is "a-1.png", "out" joined with it is "out/a-1.png" |
| Pairing.JoinPathPng | cmd/compare/main.go:339-340 | the png test on a joined path is the test on the entry name |
| Pairing.Collect | cmd/compare/main.go:324-342 | the loop over one listing leaves the table that the reference fold Pairing.Fill (one Pairing.Record step per entry) describes |
| Pairing.RecordEntry | cmd/compare/main.go:325-341 | one entry is filed as its fold step says |
| Pairing.RecordKeys | cmd/compare/main.go:326-337 | one entry adds exactly the stem of a page to the names |
| Pairing.FillKeys | cmd/compare/main.go:324-342 | the names in the table are the ones it had plus the stems of the pages |
| Pairing.FillMeaning | cmd/compare/main.go:324-342 | the fold Pairing.Fill leaves every entry holding on its side the slot Pairing.Slot gives for the listing, everything else unchanged |
| Pairing.CompareDirTable | cmd/compare/main.go:314-348 | a missing directory is reported, the first one first; otherwise there is one entry per page name, holding on each side the slot its listing leaves |
| Pairing.StemsMembers | cmd/compare/main.go:326-337 | a name is in the table exactly when some page of a listing is filed under it |
| Pairing.SlotOutsideStems | cmd/compare/main.go:333-336 | a name no page is filed under has an empty slot |
| Pairing.PngSticks | cmd/compare/main.go:339-341 | once a slot holds a .png path, later entries leave it alone |
| Pairing.SlotNotPng | cmd/compare/main.go:339-341 | without a .png page under a name, its slot never holds a .png path |
| Pairing.FirstPngWins | cmd/compare/main.go:339-341 | the first .png page filed under a name fills the slot for good |
| Pairing.LastPageWins | cmd/compare/main.go:339-341 | without a .png page, the last page filed under a name fills the slot |
| Ranking.SortByDist | cmd/compare/main.go:386 | the result is a permutation of the input sorted by descending distance |
| Ranking.InsertByDist | cmd/compare/main.go:386 | inserting into a descending list keeps it descending and adds exactly the element |
| Ranking.InsertSorted | cmd/compare/main.go:386 | putting an element where it fits keeps a list descending |
| Ranking.Cut | cmd/compare/main.go:387-392 | the kept pages are a prefix with no zero distance, at most max+1 of them when max > 0, cut at the first zero or at index max+1 |
| Ranking.CutKeepsTop | cmd/compare/main.go:386-392 | a dropped page with positive distance means max > 0, max+1 pages were kept, and each kept page is at least as far apart |
| Scheduler.EpsPathSuffix | cmd/compare/main.go:357 | the EPS test Scheduler.EpsPath is strings.HasSuffix(p, ".eps") |
| Scheduler.RenderNameIsPng | cmd/compare/main.go:358 | outDir/Name.i.png is a .png path and not an .eps one |
| Scheduler.RenderName | cmd/compare/main.go:358 | the PNG renderPNG writes for side i: outDir joined with <name>.<i>.png; RenderNameIsPng states it is no EPS path |
| Scheduler.DiffName | cmd/compare/main.go:504 | the diff image comparePNG names: outDir joined with <name>.diff.png |
| Scheduler.DiffNameIsPng | cmd/compare/main.go:504 | the diff image's path is a .png path and not an .eps one |
| Scheduler.RenameSide | cmd/compare/main.go:355-362 | every EPS input of side i becomes outDir/Name.i.png, and fnMap maps exactly those inputs to their new names |
| Scheduler.RenameOne | cmd/compare/main.go:356-361 | one turn of the renaming loop keeps its invariant and makes progress |
| Scheduler.RenamingDone | cmd/compare/main.go:355-362 | when no entry is left, the table is the renamed side and fnMap its conversion map |
| Scheduler.RenderedOnce | cmd/compare/main.go:357-360 | rendering one side of an entry leaves no EPS input there and changes nothing else |
| Scheduler.RenderedTwice | cmd/compare/main.go:354-362 | through both sides, each input is rendered once and the entry is otherwise unchanged |
| Scheduler.RenderedBothSides | cmd/compare/main.go:354-362 | after renderPNG no input is an EPS path; an EPS input is now outDir/Name.i.png, any other is kept |
| Scheduler.RenderSide | cmd/compare/main.go:355-367 | one side is renamed, chunked for ncpu workers, and fails exactly when a chunk does |
| Scheduler.RenderSides | cmd/compare/main.go:354-368 | side 0 then side 1; the first failed conversion stops it, before side 1 is renamed |
| Scheduler.RenderNext | cmd/compare/main.go:354-367 | one more side is rendered, on the table the earlier sides left |
| Scheduler.CompareResult.RenderPNG | cmd/compare/main.go:350-372 | byName is renamed side by side; the error is reported exactly when a conversion of the last side reached fails; with no EPS input there is no error and byName is unchanged; results are unchanged |
| Scheduler.NothingToConvert | cmd/compare/main.go:355-367 | a side with no EPS input has an empty conversion map, and no chunk of it fails |
| Scheduler.NoEpsUnrenamed | cmd/compare/main.go:355-362 | renaming a side of a table without EPS inputs leaves the table as it is |
| Scheduler.NothingToRender | cmd/compare/main.go:350-372 | with no EPS input neither side renames anything and no conversion fails |
| Scheduler.CompareAll | cmd/compare/main.go:500-518 | every two-sided entry gets out = outDir/Name.diff.png and compareOne's outcome; the others are left alone |
| Scheduler.ComparedMeaning | cmd/compare/main.go:503-514 | an entry is compared exactly when both inputs are set, with its diff path and outcome recorded |
| Scheduler.FirstFailure | cmd/compare/main.go:527-532 | an error is returned exactly when some entry has one, and it is one of them |
| Scheduler.CompareResult.ComparePNG | cmd/compare/main.go:497-533 | byName is the compared table, and the error is reported exactly when an entry failed |
| Scheduler.ListValues | cmd/compare/main.go:381-384 | the list holds one value per key: exactly the table's values |
| Scheduler.CompareResult.Trim | cmd/compare/main.go:380-393 | the results are a prefix of the table sorted by descending distance, with no zero distance and at most max+1 pages; a dropped page with positive distance was capped by pages at least as far apart |
| Scheduler.CompareResult.constructor | cmd/compare/main.go:344-347 | a new result holds the table and the two directories, with no results yet |
| Scheduler.CompareDir | cmd/compare/main.go:314-348 | a missing directory is reported; otherwise a fresh result holding compareDir's table |
| Naming.SeedImageNames | test.go:95-99 | the seed image starts with lilypond-seed- exactly in incremental mode, lilypond-base- otherwise, and ends with the platform |
| Naming.SeedImage | test.go:96-99 | lilypond-seed-<platform> in incremental mode, lilypond-base-<platform> otherwise; stated by SeedImageNames |
| Naming.DriverScript | test.go:95 | test-<mode>.sh, from which the mode reads back |
| Naming.DriverScriptInjective | test.go:95 | different modes run different scripts |
| Naming.IssueRoundTrip | test.go:75 | issue<change>_<patchset> splits at '_' into the two numbers, which Atoi reads back |
| Naming.IssueName | test.go:75 | issue<change>_<patchset>; its round trip is stated by IssueRoundTrip |
| Naming.IntToStringDigits | test.go:75 | %d prints only digits and '-' |
| Naming.LineEnd | test.go:119 | finds the first newline from a position, or the end |
| Naming.LastColon | test.go:119 | finds the last ':' before a position, or none |
| Naming.ResultName | test.go:119-120 | test.go's result name holds no ':', '/' or ' ' |
| Naming.ResultNamePy | test-lily.py:125 | test-lily.py's result name holds no ':', '/' or ' ' |
| Naming.GoStripOneLine | test.go:119 | on one line the removal keeps what follows the last ':', or the whole line without one |
| Naming.GoStrip | test.go:119 | the `^.*:` removal takes a prefix off the name: the result is a suffix of it |
| Naming.PyStrip | test-lily.py:125 | the `.*:` removal never lengthens the name |
| Naming.StripsAgree | test-lily.py:125 | on input without a newline both drivers strip alike |
| Naming.ResultNamesAgree | test-lily.py:125 | without a newline in URL or branch both drivers name results alike |
| Naming.ResultNamesDiffer | test.go:119 | with a newline the names differ: "a\nb:c" with branch "d" |
| CiDriver.Known | test.go:35-42 | known is true exactly when the string occurs in the list |
| CiDriver.Alias | test.go:197-199 | the aliased item names a platform exactly when the item does or is guile2; a platform name is kept |
| CiDriver.ParsePlatforms | test.go:191-204 | fatal exactly when an item before any "all" names no platform, quoting the whole flag; "all" gives every platform; otherwise the aliased items in order |
| CiDriver.RejectedAt | test.go:200-201 | an unknown item before any "all" makes the flag fatal |
| CiDriver.AllAccepted | test.go:193-195 | items after the first "all" are never checked |
| CiDriver.NoneRejected | test.go:192-204 | a list of known items is accepted |
| CiDriver.RietveldBranch | test.go:71-75 | a change without patchsets is an error; otherwise the branch is issue<change>_<last patchset> and reads back as both numbers |
| CiDriver.PatchRietveldChange | test.go:70-75 | the change fails exactly when it has no patchsets, with the no-patchsets error |
| CiDriver.Validate | test.go:224-243 | main's checks in order, mode, stage, then the arguments or the rietveld change; stated by ValidateAccepts |
| CiDriver.ValidateAccepts | test.go:224-243 | a test goes ahead exactly when mode and stage are known and two arguments or a change with patchsets are given; the first failing check names the error |
| CiDriver.TestOne | test.go:94-120 | the seed image and script follow mode and platform; the checkout is mounted at /local on the given branch; the result name is derived from the local directory when the URL exists on disk and is not lilypond, from the URL otherwise, and holds no ':', '/' or ' ' |
| CiDriver.TestOnePerPlatform | test.go:95-99 | the seed image is per platform and mode; script, result name and branch are shared by the platforms of a run |
| LilyDriver.Options.constructor | test-lily.py:45 | a new Options object has no platforms, stage or mode |
| LilyDriver.Options.Parse | test-lily.py:49-73 | the option loop leaves the fields its fold over the options gives, or stops with the exit of the first bad option or --help |
| LilyDriver.Step | test-lily.py:52-72 | one option keeps each field or sets it validly, "all" adding every platform; --help exits |
| LilyDriver.ParseFrom | test-lily.py:49-73 | the option loop from an index on, stopping at the first exit; stated by ParseFromMeaning |
| LilyDriver.Options.ApplyDefaults | test-lily.py:139-145 | main's defaults fill the empty fields in place |
| LilyDriver.ParseFromMeaning | test-lily.py:49-73 | parsing adds all three platforms or none, and leaves a valid or unchanged mode and stage |
| LilyDriver.SinglePlatformIgnored | test-lily.py:58-65 | after defaults a run tests fedora-guile2 alone or all three platforms, never one other platform |
| LilyDriver.UbuntuTestsGuile2 | test-lily.py:58-65 | --platform=ubuntu ends up testing fedora-guile2 |
| LilyDriver.IncrAlias | test-lily.py:53 | --mode=incr selects incremental mode |
| LilyDriver.DefaultsMeaning | test-lily.py:139-145 | after defaults every field is set, and a field that was set is unchanged |
| LilyDriver.Defaulted | test-lily.py:139-145 | main's defaults on the fields; stated by DefaultsMeaning |
| LilyDriver.TestOnePy | test-lily.py:76-125 | an error exactly when the argument count is not two or a rietveld change has no patchsets; seed image and script follow mode and platform; a rietveld change runs from /rietveld on issue<change>_<last patchset> and is named after it, any other URL from /local on BRANCH, named after URL and BRANCH; the name is sanitised |
| LilyDriver.RietveldRunPy | test-lily.py:103-125 | a rietveld change with patchsets runs from /rietveld on its issue branch, and the result is named rietveld_ and the branch |
| LilyDriver.PlainResultName | test-lily.py:125 | a URL and branch without ':', '/', ' ' or newline name the result <url>_<branch> |
| LilyDriver.DriversAgree | test-lily.py:76-125 | for a URL other than rietveld or lilypond, with no newline, both drivers derive the same run |
| ArtifactFetch.LastJobID | cmd/download-gitlab-website/main.go:69-77 | the stored JobID, or 0 when artifact.json is missing or does not unmarshal |
| ArtifactFetch.SelectJob | cmd/download-gitlab-website/main.go:87-113 | no items bails; the first website job not newer than the last one ends the run; otherwise the first newer website job with website.zip, or job 0 when there is none |
| ArtifactFetch.NotNothingNewer | cmd/download-gitlab-website/main.go:98-102 | while the website jobs scanned are newer, the run does not end |
| ArtifactFetch.FirstNewerWebsiteChosen | cmd/download-gitlab-website/main.go:104-109 | at most one website job with website.zip can follow only newer jobs without it |
| ArtifactFetch.StrippedMeaning | cmd/download-gitlab-website/main.go:169-175 | a kept path is the entry name after its first stripCount components and one '/', and has the remaining components |
| ArtifactFetch.Stripped | cmd/download-gitlab-website/main.go:164-175 | where an entry is unpacked, if anywhere; stated by StrippedMeaning |
| ArtifactFetch.JoinAppend | cmd/download-gitlab-website/main.go:175 | joining two lists of components puts one '/' between their joins |
| ArtifactFetch.UnpackPlan | cmd/download-gitlab-website/main.go:164-175 | the plan is the kept entries in zip order, each once, at its stripped path: every kept file entry with more than stripCount components, and nothing else |
| ArtifactFetch.Kept | cmd/download-gitlab-website/main.go:164-175 | the files unpack writes, in zip order, never more than the entries |
| ArtifactFetch.KeptAppend | cmd/download-gitlab-website/main.go:164-175 | the plan of two runs of entries is the first plan followed by the second |

## Left out

- File and process I/O is not modelled: reading directories, files and headers, TempFile, MkdirAll, Link and Rename, Ghostscript, ImageMagick, docker, git, curl, HTTP and the gitlab client, zip reading. Their results are parameters: listings, file maps, `convert`, `compare` and `patchsets`.
- The goroutine worker pools of convertEPSParallel and comparePNG, and test.go's log goroutine, run sequentially. Map iteration order is a free choice.
- Floating point is not modelled. That covers the distance sqrt(accumError)/area, ParseFloat in compareOneIM, and timing and `%f` output. Distances are abstract reals.
- ImageDiff.ImageCompare: returns the integer accumError instead of the float distance. accumError is unbounded, so int64 wrap-around is not modelled; it would need more than 10^13 pixels.
- ImageDiff.CompareOne: works on decoded images. Decoding, `asRGBA` and writing the PNG are not modelled. Its positive-distance test becomes accumError > 0.
- Eps.Header: assumes the one `f.Read` at cmd/compare/main.go:173 returns min(size, 1024) bytes, as it does for a regular file. A shorter read, allowed by the io.Reader contract, is not modelled.
- Eps.FirstError: states only that the error returned is one of the chunk errors. Which one the Go code returns depends on which worker finishes first.
- Scheduler.FirstFailure: states only that the error returned is one of the entries' errors. Which one depends on map iteration order.
- Scheduler.CompareResult.RenderPNG: a chunk's conversion (convertEPS) is the caller-supplied `convert`. The Ghostscript driver script it writes is not modelled, because its order follows map iteration.
- The unused `sz` in convertEPSParallel is not modelled, and neither is an `ncpu` (-gs_jobs) of 0 or less: 0 divides by zero in Go, and a negative value panics in `make` with a negative length.
- Pairing.CompareDirTable: filepath.Clean of the two input directories (cmd/compare/main.go:315-316) is not modelled. The directories are taken as already clean, and every path in the table is JoinPath of a clean directory.
- Pairing.JoinPath: models filepath.Join for a clean directory only. filepath.Join also cleans its result, so for an unclean directory such as "./out", "out/" or "a/../out" Go yields the cleaned path while the model keeps the directory as given.
- Pairing.JoinPathEnds: states the shape of JoinPath, so it says nothing of the cleaned path Go produces under an unclean directory.
- Scheduler.RenameSide: a renamed input is JoinPath(outDir, Name.i.png) with the output directory as given on the command line (cmd/compare/main.go:548), which nothing cleans. For an unclean outDir Go's filepath.Join (cmd/compare/main.go:358) yields the cleaned path instead.
- Scheduler.RenderedBothSides: the rendered path is outDir/Name.i.png as Go writes it only for a clean outDir; for an unclean one Go's path is the cleaned form.
- Scheduler.CompareAll: the diff path is outDir/Name.diff.png as Go writes it (cmd/compare/main.go:504) only for a clean outDir; for an unclean one Go's path is the cleaned form.
- Scheduler.CompareResult.ComparePNG: the number of comparison workers is not a parameter. With -cmp_jobs of 0 or less and at least one page present on both sides, no worker starts and the main goroutine blocks on `<-done` (cmd/compare/main.go:510-520); with no other goroutine left the Go runtime aborts with "all goroutines are asleep - deadlock!". The model compares every such page all the same.
- The implementation of newSignedImage, newIntegralImage and Val is not part of this model. They are built from the behaviour the test pins, and AvgAbs is left out.
- The diff pyramid of the summed-area code is not modelled. The comparator in main.go does not use it.
- Report output is not modelled: LinkFiles, DumpTXT, DumpHTML and the HTML template.
- readDir, the -local share-directory probing, and cmd/benchmark with benchmark.py are not modelled.
- CiDriver.ParsePlatforms: the fatal message is the value UnknownPlatform(flag), not the formatted `%q` text.
- test.go's --reseed and --rebase docker commands, and the choice between them and --test, are not modelled. Neither is the timeout.
- CiDriver.TestOne: `localDir` stands for os.Stat plus filepath.Abs of the URL. The git fetch it triggers is not modelled.
- LilyDriver.TestOnePy: `localPath` stands for os.path.exists plus abspath. getopt's own errors for unknown options are not modelled.
- ArtifactFetch.SelectJob: JobFinishedAt and the unpacked time stored in artifact.json are not modelled.
- ArtifactFetch.UnpackPlan: paths are relative to the temporary directory and kept as joined. filepath.Join(tmp, …) (cmd/download-gitlab-website/main.go:175) also cleans "." and ".." components and doubled separators, which the plan does not.
- ArtifactFetch.UnpackPlan: a negative stripCount, which panics in Go, cannot occur because the count is a `nat`. Writing the files and renaming the directory into place are not modelled.

## Findings

| source | as written | input that shows it | evidently intended | confidence | as-written member | corrected member |
|---|---|---|---|---|---|---|
| cmd/compare/main.go:84-93 | Rows at or past the intersection height run over maxYImg's width, but read maxXImg. Where the wider image is shorter, those reads fall outside it and come back as the zero colour (black). | img1 all white, 10 wide and 2 tall; img2 all white, 3 wide and 8 tall. Row 2, column 0 reads img1 outside its bounds and adds 3·255² of error, so two blank pages differ. | The rows below the intersection read the taller image, so each page is compared as laid on a white canvas. | not executed | ImageDiff.ImageCompareAsWritten, ImageDiff.CompareOne, ImageDiff.AsWrittenChargesBlankRows | ImageDiff.ImageCompare, ImageDiff.CompareOneCorrected, ImageDiff.ImageCompareIsWhiteCanvas, ImageDiff.BlankPagesNoDifference |

`ImageDiff.CompareOne` follows compareOne as written, over the as-written
comparator; `ImageDiff.CompareOneCorrected` is the same decision over the
corrected one.

=== FILE: artifact_fetch.dfy ===
/**
 * cmd/download-gitlab-website/main.go: which job's website artifact to
 * download, given the job recorded by the previous run, and where each zip
 * entry lands once its leading directories are stripped.
 */
module ArtifactFetch {
  import opened Wrappers
  import opened Text

  /** A successful job of the project, with the file names of its artifacts. */
  datatype Job = Job(id: int, stage: string, artifacts: seq<string>)

  /** How the selection ends: nothing listed, nothing newer, or a download of that job ID. */
  datatype Selection = NoItems | NothingNewer | Download(jobID: int)

  /**
   * lastJobID: the JobID of artifact.json, or 0 when the file cannot be read
   * (`stored` is None) or does not unmarshal (`stored` is Some(None)).  A
   * document without a JobID field unmarshals to 0 as well.
   */
  function LastJobID(stored: Option<Option<int>>): (id: int)
    ensures stored.Some? && stored.value.Some? ==> id == stored.value.value
    ensures stored.None? || stored.value.None? ==> id == 0
  {
    match stored
    case None => 0
    case Some(parsed) =>
      match parsed
      case None => 0
      case Some(jobID) => jobID
  }

  predicate IsWebsite(j: Job) {
    j.stage == "website"
  }

  predicate HasZip(j: Job) {
    "website.zip" in j.artifacts
  }

  /** Every website job before index `n` is newer than `last` and has no website.zip. */
  ghost predicate Passed(jobs: seq<Job>, last: int, n: int) {
    forall i | 0 <= i < n && i < |jobs| :: IsWebsite(jobs[i]) ==> jobs[i].id > last && !HasZip(jobs[i])
  }

  /**
   * The selection loop of main.  An empty listing bails out.  The jobs are
   * scanned in list order, skipping those of other stages; the first website
   * job not newer than `last` ends the run, and the first newer one with a
   * website.zip artifact is chosen.  If none is, the job ID stays 0 and is
   * downloaded all the same.
   */
  method SelectJob(jobs: seq<Job>, last: int, totalItems: int) returns (s: Selection)
    ensures totalItems == 0 <==> s == NoItems
    ensures totalItems != 0 ==>
      (s == NothingNewer <==> exists j | 0 <= j < |jobs| :: Passed(jobs, last, j) && IsWebsite(jobs[j]) && jobs[j].id <= last)
    ensures s.Download? ==>
      (Passed(jobs, last, |jobs|) && s.jobID == 0) ||
      exists j | 0 <= j < |jobs| :: Passed(jobs, last, j) && IsWebsite(jobs[j]) && HasZip(jobs[j]) && jobs[j].id > last && s.jobID == jobs[j].id
    ensures totalItems != 0 && Passed(jobs, last, |jobs|) ==> s == Download(0)
  {
    if totalItems == 0 {
      return NoItems;
    }
    var jobID := 0;
    var i := 0;
    while i < |jobs|
      invariant 0 <= i <= |jobs|
      invariant Passed(jobs, last, i)
    {
      var j := jobs[i];
      if j.stage != "website" {
        i := i + 1;
        continue;
      }
      if j.id <= last {
        return NothingNewer;
      }
      var k := 0;
      while k < |j.artifacts|
        invariant 0 <= k <= |j.artifacts|
        invariant "website.zip" !in j.artifacts[..k]
      {
        if j.artifacts[k] == "website.zip" {
          NotNothingNewer(jobs, last, i);
          return Download(j.id);
        }
        k := k + 1;
      }
      assert j.artifacts[..k] == j.artifacts;
      i := i + 1;
    }
    NotNothingNewer(jobs, last, |jobs|);
    return Download(jobID);
  }

  /** While the website jobs up to `n` are all newer and the one at `n` is too, none of them ends the run. */
  lemma NotNothingNewer(jobs: seq<Job>, last: int, n: int)
    requires 0 <= n <= |jobs| && Passed(jobs, last, n)
    requires n < |jobs| ==> IsWebsite(jobs[n]) && jobs[n].id > last && HasZip(jobs[n])
    ensures !exists j | 0 <= j < |jobs| :: Passed(jobs, last, j) && IsWebsite(jobs[j]) && jobs[j].id <= last
  {
    forall j | 0 <= j < |jobs| && Passed(jobs, last, j) && IsWebsite(jobs[j])
      ensures jobs[j].id > last
    {
    }
  }

  /**
   * The job SelectJob downloads is determined: only one website job with a
   * website.zip can have every website job before it newer than `last` and
   * without the artifact.
   */
  lemma FirstNewerWebsiteChosen(jobs: seq<Job>, last: int, j: nat)
    requires j < |jobs| && Passed(jobs, last, j)
    requires IsWebsite(jobs[j]) && jobs[j].id > last && HasZip(jobs[j])
    ensures forall i | 0 <= i < |jobs| :: Passed(jobs, last, i) && IsWebsite(jobs[i]) && HasZip(jobs[i]) ==> i == j
  {
    forall i | 0 <= i < |jobs| && Passed(jobs, last, i) && IsWebsite(jobs[i]) && HasZip(jobs[i])
      ensures i == j
    {
    }
  }

  // ---------------------------------------------------------------------------
  // unpack

  /** A zip entry: its name and whether it is a directory. */
  datatype Entry = Entry(name: string, isDir: bool)

  /**
   * Where unpack writes an entry, relative to the temporary directory: the
   * name without its first `strip` '/'-separated components, or nothing for
   * a directory or a name with no more than `strip` components.  A ".."
   * component is kept like any other.
   */
  function Stripped(e: Entry, strip: nat): Option<string> {
    var components := Split(e.name, '/');
    if e.isDir || |components| <= strip then None
    else Some(Join(components[strip..], '/'))
  }

  /**
   * A kept path is the tail of the entry name: the name is the stripped
   * components, a '/', then the path; the path has the remaining components.
   */
  lemma StrippedMeaning(e: Entry, strip: nat)
    requires Stripped(e, strip).Some?
    ensures var path := Stripped(e, strip).value;
      var components := Split(e.name, '/');
      (strip == 0 ==> path == e.name) &&
      (strip > 0 ==> e.name == Join(components[..strip], '/') + "/" + path) &&
      Split(path, '/') == components[strip..]
  {
    var components := Split(e.name, '/');
    var path := Join(components[strip..], '/');
    JoinSplit(e.name, '/');
    assert components == components[..strip] + components[strip..];
    if strip > 0 {
      JoinAppend(components[..strip], components[strip..]);
    }
    SplitJoin(components[strip..], '/');
  }

  /** Joining two non-empty lists of pieces puts one separator between their joins. */
  lemma {:induction false} JoinAppend(a: seq<string>, b: seq<string>)
    requires |a| > 0 && |b| > 0
    ensures Join(a + b, '/') == Join(a, '/') + "/" + Join(b, '/')
    decreases |a|
  {
    if |a| == 1 {
      assert (a + b)[1..] == b;
    } else {
      JoinAppend(a[1..], b);
      assert (a + b)[1..] == a[1..] + b;
    }
  }

  /**
   * The files unpack writes, in zip order: every entry Stripped keeps, with
   * its path.  A later pair with the same path overwrites the earlier file.
   */
  function Kept(entries: seq<Entry>, strip: nat): (r: seq<(string, string)>)
    ensures |r| <= |entries|
    decreases |entries|
  {
    if |entries| == 0 then []
    else
      var e := entries[|entries| - 1];
      Kept(entries[..|entries| - 1], strip) + if Stripped(e, strip).Some? then [(e.name, Stripped(e, strip).value)] else []
  }

  /** Unpacking one part of the archive after another writes the files of each part in turn. */
  lemma {:induction false} KeptAppend(a: seq<Entry>, b: seq<Entry>, strip: nat)
    ensures Kept(a + b, strip) == Kept(a, strip) + Kept(b, strip)
    decreases |b|
  {
    if |b| > 0 {
      var b' := b[..|b| - 1];
      KeptAppend(a, b', strip);
      assert (a + b)[..|a + b| - 1] == a + b';
    } else {
      assert a + b == a;
    }
  }

  /** The entry loop of unpack: each kept entry with the path it is written to, in zip order. */
  method UnpackPlan(entries: seq<Entry>, strip: nat) returns (plan: seq<(string, string)>)
    ensures plan == Kept(entries, strip)
    ensures forall p | p in plan :: exists e | e in entries :: !e.isDir && Stripped(e, strip) == Some(p.1) && e.name == p.0
    ensures forall e | e in entries && Stripped(e, strip).Some? :: (e.name, Stripped(e, strip).value) in plan
    ensures |plan| <= |entries|
  {
    plan := [];
    var i := 0;
    while i < |entries|
      invariant 0 <= i <= |entries| && |plan| <= i
      invariant plan == Kept(entries[..i], strip)
      invariant forall p | p in plan :: exists e | e in entries[..i] :: !e.isDir && Stripped(e, strip) == Some(p.1) && e.name == p.0
      invariant forall e | e in entries[..i] && Stripped(e, strip).Some? :: (e.name, Stripped(e, strip).value) in plan
    {
      var zf := entries[i];
      if zf.isDir {
        assert entries[..i + 1] == entries[..i] + [zf] && entries[..i + 1][..i] == entries[..i];
        i := i + 1;
        continue;
      }
      var components := Split(zf.name, '/');
      if |components| <= strip {
        assert entries[..i + 1] == entries[..i] + [zf] && entries[..i + 1][..i] == entries[..i];
        i := i + 1;
        continue;
      }
      components := components[strip..];
      var dst := Join(components, '/');
      plan := plan + [(zf.name, dst)];
      assert entries[..i + 1] == entries[..i] + [zf] && entries[..i + 1][..i] == entries[..i];
      i := i + 1;
    }
    assert entries[..|entries|] == entries;
  }
}

=== FILE: ci_driver.dfy ===
/**
 * test.go, the Go CI driver: the platform list given with --platform, the
 * checks on --mode, --stage and the positional arguments, the branch of a
 * rietveld change, and what testOne derives for each platform.
 */
module CiDriver {
  import opened Wrappers
  import opened Text
  import opened Naming

  const AllPlatforms: seq<string> := ["ubuntu", "fedora", "fedora-guile2"]
  const AllModes: seq<string> := ["incremental", "full", "separate"]
  const AllStages: seq<string> := ["build", "check", "doc"]

  /** What ends the driver with log.Fatal, by cause. */
  datatype Fatal =
    | UnknownPlatform(flag: string)
    | UnknownMode(mode: string)
    | UnknownStage(stage: string)
    | Usage
    | NoPatchsets

  /** known: `s` is one of `ss`. */
  function Known(ss: seq<string>, s: string): (r: bool)
    ensures r <==> s in ss
    decreases |ss|
  {
    if |ss| == 0 then false else if ss[0] == s then true else Known(ss[1..], s)
  }

  /** The one platform alias: guile2 stands for fedora-guile2. */
  function Alias(p: string): (r: string)
    ensures r in AllPlatforms <==> p in AllPlatforms || p == "guile2"
    ensures p in AllPlatforms ==> r == p
  {
    if p == "guile2" then "fedora-guile2" else p
  }

  /** Item `j` is rejected: it is not "all", no earlier item is, and it names no platform. */
  ghost predicate BadItem(items: seq<string>, j: int) {
    0 <= j < |items| && items[j] != "all" && Alias(items[j]) !in AllPlatforms &&
    forall i | 0 <= i < j :: items[i] != "all"
  }

  /**
   * The platform loop of main over the comma-separated --platform value:
   * "all" stands for every platform whatever came before or after it;
   * otherwise the items, aliased, in the order given.  An item naming no
   * platform is fatal, and the message quotes the whole flag value.
   */
  method ParsePlatforms(flag: string) returns (r: Result<seq<string>, Fatal>)
    ensures r.Err? <==> Rejected(Split(flag, ','))
    ensures r.Err? ==> r.error == UnknownPlatform(flag)
    ensures var items := Split(flag, ',');
      r.Ok? && "all" in items ==> r.value == AllPlatforms
    ensures var items := Split(flag, ',');
      r.Ok? && "all" !in items ==> |r.value| == |items| && forall j | 0 <= j < |items| :: r.value[j] == Alias(items[j])
    ensures r.Ok? ==> forall p | p in r.value :: p in AllPlatforms
  {
    var items := Split(flag, ',');
    var platforms: seq<string> := [];
    var i := 0;
    while i < |items|
      invariant 0 <= i <= |items|
      invariant forall j | 0 <= j < i :: items[j] != "all" && Alias(items[j]) in AllPlatforms
      invariant |platforms| == i && forall j | 0 <= j < i :: platforms[j] == Alias(items[j])
    {
      var p := items[i];
      if p == "all" {
        AllAccepted(items, i);
        return Ok(AllPlatforms);
      }
      if p == "guile2" {
        p := "fedora-guile2";
      }
      if !Known(AllPlatforms, p) {
        RejectedAt(items, i);
        return Err(UnknownPlatform(flag));
      }
      platforms := platforms + [p];
      i := i + 1;
    }
    NoneRejected(items);
    return Ok(platforms);
  }

  /** The value is refused: some item is. */
  ghost predicate Rejected(items: seq<string>) {
    exists j :: BadItem(items, j)
  }

  lemma RejectedAt(items: seq<string>, j: int)
    requires 0 <= j < |items| && items[j] != "all" && Alias(items[j]) !in AllPlatforms
    requires forall i | 0 <= i < j :: items[i] != "all"
    ensures Rejected(items)
  {
    assert BadItem(items, j);
  }

  /** An "all" with no "all" before it is reached only past accepted items, so nothing is refused. */
  lemma AllAccepted(items: seq<string>, k: int)
    requires 0 <= k < |items| && items[k] == "all"
    requires forall j | 0 <= j < k :: items[j] != "all" && Alias(items[j]) in AllPlatforms
    ensures !Rejected(items)
  {
    forall j | 0 <= j
      ensures !BadItem(items, j)
    {
      if j > k {
        assert items[k] == "all";
      }
    }
  }

  /** Items that are all accepted leave nothing refused. */
  lemma NoneRejected(items: seq<string>)
    requires forall j | 0 <= j < |items| :: items[j] != "all" && Alias(items[j]) in AllPlatforms
    ensures !Rejected(items)
  {
  }

  /**
   * The checks main makes before testing, in order: the mode, the stage,
   * then two positional arguments URL and BRANCH unless a rietveld change
   * is given.  A change number (non-zero) is tested as the lilypond checkout
   * on the branch of its last patchset, `patchsets` being the change's
   * patchset list as fetched.  flag.Arg reads "" past the arguments.
   */
  function Validate(mode: string, stage: string, rietveld: int, args: seq<string>, patchsets: seq<int>): Result<(string, string), Fatal> {
    if !Known(AllModes, mode) then Err(UnknownMode(mode))
    else if !Known(AllStages, stage) then Err(UnknownStage(stage))
    else if rietveld == 0 && |args| != 2 then Err(Usage)
    else if rietveld != 0 then
      match PatchRietveldChange(rietveld, patchsets)
      case Err(e) => Err(e)
      case Ok(issue) => Ok(("lilypond", issue))
    else Ok((args[0], args[1]))
  }

  /** patchRietveldChange's choice of branch: issue<change>_<last patchset>; a change without patchsets fails. */
  function PatchRietveldChange(changeNum: int, patchsets: seq<int>): (r: Result<string, Fatal>)
    ensures r.Err? <==> |patchsets| == 0
    ensures r.Err? ==> r.error == NoPatchsets
  {
    if |patchsets| == 0 then Err(NoPatchsets)
    else Ok(IssueName(IntToString(changeNum), patchsets[|patchsets| - 1]))
  }

  /** The branch names the change and its last patchset, and reads back as both numbers. */
  lemma RietveldBranch(changeNum: int, patchsets: seq<int>)
    requires Int64Min <= changeNum <= Int64Max
    requires forall i | 0 <= i < |patchsets| :: Int64Min <= patchsets[i] <= Int64Max
    ensures PatchRietveldChange(changeNum, patchsets).Err? <==> |patchsets| == 0
    ensures PatchRietveldChange(changeNum, patchsets).Ok? ==>
      var s := PatchRietveldChange(changeNum, patchsets).value;
      StartsWith(s, "issue") && Split(s[5..], '_') == [IntToString(changeNum), IntToString(patchsets[|patchsets| - 1])] &&
      Atoi(Split(s[5..], '_')[0]) == Some(changeNum) && Atoi(Split(s[5..], '_')[1]) == Some(patchsets[|patchsets| - 1])
  {
    if |patchsets| > 0 {
      IssueRoundTrip(changeNum, patchsets[|patchsets| - 1]);
    }
  }

  /**
   * A test goes ahead exactly when mode and stage are known and either two
   * arguments are given without a change or a change with patchsets is;
   * the first failing check names the error.
   */
  lemma ValidateAccepts(mode: string, stage: string, rietveld: int, args: seq<string>, patchsets: seq<int>)
    ensures Validate(mode, stage, rietveld, args, patchsets).Ok? <==>
      mode in AllModes && stage in AllStages &&
      (if rietveld == 0 then |args| == 2 else |patchsets| > 0)
    ensures mode !in AllModes ==> Validate(mode, stage, rietveld, args, patchsets) == Err(UnknownMode(mode))
    ensures mode in AllModes && stage !in AllStages ==> Validate(mode, stage, rietveld, args, patchsets) == Err(UnknownStage(stage))
    ensures Validate(mode, stage, rietveld, args, patchsets).Ok? ==>
      Validate(mode, stage, rietveld, args, patchsets).value ==
        if rietveld == 0 then (args[0], args[1])
        else ("lilypond", IssueName(IntToString(rietveld), patchsets[|patchsets| - 1]))
  {
  }

  /**
   * What testOne derives for one platform.  `localDir` is the absolute path
   * of `url` when it names a local directory; such a URL other than
   * "lilypond" is fetched from that path, and the result name is built from
   * the path.
   */
  function TestOne(platform: string, mode: string, url: string, branch: string, localDir: Option<string>): (run: TestRun)
    ensures ':' !in run.resultName && '/' !in run.resultName && ' ' !in run.resultName
    ensures run.seedImage == SeedImage(mode, platform) && run.driverScript == DriverScript(mode)
    ensures run.containerURL == "/local" && run.branch == branch
    ensures localDir.Some? && url != "lilypond" ==> run.resultName == ResultName(localDir.value, branch)
    ensures localDir.None? || url == "lilypond" ==> run.resultName == ResultName(url, branch)
  {
    var url' := if localDir.Some? && url != "lilypond" then localDir.value else url;
    TestRun(SeedImage(mode, platform), DriverScript(mode), ResultName(url', branch), "/local", branch)
  }

  /**
   * The seed image of a run is the platform's seed image in incremental
   * mode and its base image otherwise; every platform of a run shares the
   * script, the branch and the result name.
   */
  lemma TestOnePerPlatform(p: string, q: string, mode: string, url: string, branch: string, localDir: Option<string>)
    ensures StartsWith(TestOne(p, mode, url, branch, localDir).seedImage, "lilypond-seed-") <==> mode == "incremental"
    ensures EndsWith(TestOne(p, mode, url, branch, localDir).seedImage, p)
    ensures var a, b := TestOne(p, mode, url, branch, localDir), TestOne(q, mode, url, branch, localDir);
      a.driverScript == b.driverScript && a.resultName == b.resultName && a.branch == b.branch
  {
    SeedImageNames(mode, p);
  }
}

=== FILE: eps.dfy ===
/**
 * EPS handling of cmd/compare/main.go: the bounding-box test EPSBBoxEmpty,
 * the placeholder substitution convertEPSBatch performs before handing the
 * files to Ghostscript, and the round-robin split of convertEPSParallel.
 * The file system is a map from path to contents; Ghostscript itself is
 * an outcome supplied by the caller.
 */
module Eps {
  import opened Wrappers
  import opened Text

  /** The line that introduces the bounding box. */
  const Marker: string := "\n%%BoundingBox: "

  /** EPSBBoxEmpty reads only the first 1024 bytes of a file. */
  const HeaderLimit: nat := 1024

  /**
   * The stand-in file rendered in place of a degenerate page:
   * "%!PS-Adobe-3.0 EPSF-3.0", "%%BoundingBox: 0 0 1 1", "%%EndComments", one per line.
   */
  const PlaceholderFirstLine: string := "%!PS-Adobe-3.0 EPSF-3.0"
  const PlaceholderBox: string := "0 0 1 1"
  const PlaceholderRest: string := "%%EndComments\n"
  const Placeholder: string := PlaceholderFirstLine + Marker + PlaceholderBox + "\n" + PlaceholderRest

  datatype BBoxError =
    | OpenFailed              // os.Open fails: no such file
    | ReadFailed              // the first Read returns nothing (io.EOF on an empty file)
    | NoBoundingBox           // the marker is not in the header
    | NoLineEnd               // no newline after the marker: the Go code panics on a slice at -1
    | BadField(field: string) // strconv.Atoi rejects a field, empty fields included
    | TooFewFields            // dims[2] or dims[3] is read past the fields: the Go code panics

  /** The bytes EPSBBoxEmpty looks at. */
  function Header(content: string): (h: string)
    ensures |h| <= HeaderLimit && h <= content
    ensures |h| == if |content| <= HeaderLimit then |content| else HeaderLimit
  {
    if |content| <= HeaderLimit then content else content[..HeaderLimit]
  }

  /** The dims loop: every field through Atoi, stopping at the first that fails. */
  function ParseDims(fields: seq<string>): (r: Result<seq<int>, BBoxError>)
    ensures r.Ok? ==> |r.value| == |fields| && forall i | 0 <= i < |fields| :: Atoi(fields[i]) == Some(r.value[i])
    ensures r.Err? ==> exists i | 0 <= i < |fields| ::
      Atoi(fields[i]).None? && r.error == BadField(fields[i]) && forall j | 0 <= j < i :: Atoi(fields[j]).Some?
  {
    if |fields| == 0 then Ok([])
    else match Atoi(fields[0])
      case None => Err(BadField(fields[0]))
      case Some(d) =>
        match ParseDims(fields[1..])
        case Err(e) => Err(e)
        case Ok(ds) => Ok([d] + ds)
  }

  /**
   * EPSBBoxEmpty on a file's contents: find the marker, take the rest of its
   * line, split it on single spaces, parse every field, and report whether the
   * box is degenerate (llx >= urx or lly >= ury).
   */
  function HeaderBBoxEmpty(content: string): (r: Result<bool, BBoxError>)
    ensures r == Err(ReadFailed) <==> |content| == 0
    ensures r != Err(OpenFailed)
  {
    var header := Header(content);
    if |header| == 0 then Err(ReadFailed)
    else match IndexOf(header, Marker)
      case None => Err(NoBoundingBox)
      case Some(idx) =>
        var rest := header[idx + |Marker|..];
        match IndexOf(rest, "\n")
        case None => Err(NoLineEnd)
        case Some(eol) => LineVerdict(rest[..eol])
  }

  /**
   * The verdict on the bounding-box line: split on single spaces, parse,
   * compare the corners.  The `||` short-circuits, so dims[3] is read only
   * when dims[0] < dims[2]: three fields suffice when the first comparison
   * already holds.
   */
  function LineVerdict(line: string): (r: Result<bool, BBoxError>)
    ensures r.Ok? ==> ParseDims(Split(line, ' ')).Ok? && |ParseDims(Split(line, ' ')).value| >= 3
    ensures r == Ok(false) ==> |ParseDims(Split(line, ' ')).value| >= 4
    ensures r.Err? && ParseDims(Split(line, ' ')).Ok? ==> r == Err(TooFewFields)
    ensures var p := ParseDims(Split(line, ' '));
      r.Ok? ==> (p.Ok? && |p.value| >= 3 &&
                 r.value == (p.value[0] >= p.value[2] || (|p.value| >= 4 && p.value[1] >= p.value[3])))
    ensures var p := ParseDims(Split(line, ' '));
      r == Err(TooFewFields) <==> p.Ok? && (|p.value| < 3 || (|p.value| == 3 && p.value[0] < p.value[2]))
  {
    match ParseDims(Split(line, ' '))
    case Err(e) => Err(e)
    case Ok(dims) =>
      if |dims| < 3 then Err(TooFewFields)
      else if dims[0] >= dims[2] then Ok(true)
      else if |dims| < 4 then Err(TooFewFields)
      else Ok(dims[1] >= dims[3])
  }

  /** EPSBBoxEmpty(fn) over a file system. */
  function EPSBBoxEmpty(files: map<string, string>, fn: string): (r: Result<bool, BBoxError>)
    ensures r == Err(OpenFailed) <==> fn !in files
  {
    if fn !in files then Err(OpenFailed) else HeaderBBoxEmpty(files[fn])
  }

  // ---------------------------------------------------------------------------
  // Properties of the bounding-box test

  /** The marker is missing exactly when a non-empty header lacks it. */
  lemma NoBoundingBoxIff(content: string)
    ensures HeaderBBoxEmpty(content) == Err(NoBoundingBox) <==>
      |Header(content)| > 0 && forall j | 0 <= j <= |Header(content)| :: !OccursAt(Header(content), Marker, j)
  {
    var header := Header(content);
    if |header| > 0 && IndexOf(header, Marker).Some? {
      var idx := IndexOf(header, Marker).value;
      assert OccursAt(header, Marker, idx);
    }
  }

  /**
   * The panic on the line end: the marker is found, but no newline follows it
   * within the header, so the line is sliced at -1.
   */
  lemma NoLineEndIff(content: string)
    ensures HeaderBBoxEmpty(content) == Err(NoLineEnd) <==>
      exists i :: IndexOf(Header(content), Marker) == Some(i) && IndexOf(Header(content)[i + |Marker|..], "\n") == None
  {
    var header := Header(content);
    match IndexOf(header, Marker)
    case None =>
    case Some(idx) =>
      assert IndexOf(header, Marker) == Some(idx);
  }

  /** The fields %d prints for a list of numbers. */
  function Fields(dims: seq<int>): (fs: seq<string>)
    ensures |fs| == |dims|
  {
    seq(|dims|, i requires 0 <= i < |dims| => IntToString(dims[i]))
  }

  lemma NatToStringChars(n: nat)
    ensures ' ' !in NatToString(n) && '\n' !in NatToString(n) && '-' !in NatToString(n)
  {
    var s := NatToString(n);
    assert forall i | 0 <= i < |s| :: IsDigit(s[i]);
  }

  lemma IntToStringChars(i: int)
    ensures ' ' !in IntToString(i) && '\n' !in IntToString(i)
  {
    if i < 0 {
      NatToStringChars(-i);
    } else {
      NatToStringChars(i);
    }
  }

  lemma {:induction false} JoinFieldsNoNewline(fs: seq<string>)
    requires forall i | 0 <= i < |fs| :: '\n' !in fs[i]
    ensures '\n' !in Join(fs, ' ')
    decreases |fs|
  {
    if |fs| > 1 {
      JoinFieldsNoNewline(fs[1..]);
    }
  }

  lemma {:induction false} ParseDimsFields(dims: seq<int>)
    requires forall i | 0 <= i < |dims| :: Int64Min <= dims[i] <= Int64Max
    ensures ParseDims(Fields(dims)) == Ok(dims)
    decreases |dims|
  {
    if |dims| > 0 {
      var fs := Fields(dims);
      FieldsTail(dims);
      AtoiIntToString(dims[0]);
      ParseDimsFields(dims[1..]);
      ParseDimsCons(fs, dims[0], dims[1..]);
      assert [dims[0]] + dims[1..] == dims;
    }
  }

  lemma FieldsTail(dims: seq<int>)
    requires |dims| > 0
    ensures Fields(dims)[0] == IntToString(dims[0]) && Fields(dims)[1..] == Fields(dims[1..])
  {
    assert Fields(dims)[1..] == Fields(dims[1..]);
  }

  /** A first field Atoi accepts, before fields that all parse, heads the dims. */
  lemma ParseDimsCons(fields: seq<string>, d: int, ds: seq<int>)
    requires |fields| > 0 && Atoi(fields[0]) == Some(d) && ParseDims(fields[1..]) == Ok(ds)
    ensures ParseDims(fields) == Ok([d] + ds)
  {
  }

  /**
   * When the marker first occurs after `first` (any header lines before the
   * bounding box) the verdict is that of the rest of the marker's line,
   * provided that line ends within the first 1024 bytes.
   */
  lemma MarkedLine(first: string, line: string, tail: string)
    requires IndexOf(first + Marker + line + "\n", Marker) == Some(|first|) && '\n' !in line
    requires |first + Marker + line + "\n"| <= HeaderLimit
    ensures HeaderBBoxEmpty(first + Marker + line + "\n" + tail) == LineVerdict(line)
  {
    MarkedLineLocated(first, line, tail);
  }

  /** Where MarkedLine's header puts the marker and the end of its line. */
  lemma MarkedLineLocated(first: string, line: string, tail: string)
    requires IndexOf(first + Marker + line + "\n", Marker) == Some(|first|) && '\n' !in line
    requires |first + Marker + line + "\n"| <= HeaderLimit
    ensures var header := Header(first + Marker + line + "\n" + tail);
      |header| > 0 && IndexOf(header, Marker) == Some(|first|) &&
      IndexOf(header[|first| + |Marker|..], "\n") == Some(|line|) &&
      header[|first| + |Marker|..][..|line|] == line
  {
    var head := first + Marker + line + "\n";
    var content := head + tail;
    var header := Header(content);
    assert header[..|head|] == head by {
      assert content[..|head|] == head;
    }
    // The marker first occurs where it does in `head`.
    assert OccursAt(header, Marker, |first|) by {
      assert header[|first|..|first| + |Marker|] == head[|first|..|first| + |Marker|];
    }
    forall j | 0 <= j < |first|
      ensures !OccursAt(header, Marker, j)
    {
      assert !OccursAt(head, Marker, j);
      assert header[j..j + |Marker|] == head[j..j + |Marker|];
    }
    IndexOfAt(header, Marker, |first|);
    // The line ends at the first newline after the marker.
    var rest := header[|first| + |Marker|..];
    assert rest[..|line| + 1] == line + "\n" by {
      assert head[|first| + |Marker|..] == line + "\n";
      assert rest[..|line| + 1] == header[..|head|][|first| + |Marker|..];
    }
    assert OccursAt(rest, "\n", |line|) by {
      assert rest[|line|..|line| + 1] == "\n";
    }
    forall j | 0 <= j < |line|
      ensures !OccursAt(rest, "\n", j)
    {
      assert rest[j] == line[j];
      NotOccursAtMismatch(rest, "\n", j);
    }
    IndexOfAt(rest, "\n", |line|);
    assert rest[..|line|] == line;
  }

  /** A first line without a newline cannot hold the marker, which starts with one. */
  lemma FirstLineMarker(first: string, line: string)
    requires '\n' !in first
    ensures IndexOf(first + Marker + line + "\n", Marker) == Some(|first|)
  {
    var head := first + Marker + line + "\n";
    assert OccursAt(head, Marker, |first|) by {
      assert head[|first|..|first| + |Marker|] == Marker;
    }
    forall j | 0 <= j < |first|
      ensures !OccursAt(head, Marker, j)
    {
      assert head[j] == first[j];
      NotOccursAtMismatch(head, Marker, j);
    }
    IndexOfAt(head, Marker, |first|);
  }

  /**
   * A line of at least four int64 numbers printed with single spaces parses
   * back to those numbers: the box is degenerate exactly when llx >= urx or
   * lly >= ury.
   */
  lemma WellFormedLine(dims: seq<int>)
    requires |dims| >= 4 && forall i | 0 <= i < |dims| :: Int64Min <= dims[i] <= Int64Max
    ensures LineVerdict(Join(Fields(dims), ' ')) == Ok(dims[0] >= dims[2] || dims[1] >= dims[3])
  {
    forall i | 0 <= i < |dims|
      ensures ' ' !in Fields(dims)[i]
    {
      IntToStringChars(dims[i]);
    }
    SplitJoin(Fields(dims), ' ');
    ParseDimsFields(dims);
  }

  /** A complete header: the lines before the box, marker, a well-formed box line, anything after. */
  lemma WellFormedHeader(first: string, dims: seq<int>, tail: string)
    requires IndexOf(first + Marker + Join(Fields(dims), ' ') + "\n", Marker) == Some(|first|)
    requires |dims| >= 4 && forall i | 0 <= i < |dims| :: Int64Min <= dims[i] <= Int64Max
    requires |first + Marker + Join(Fields(dims), ' ') + "\n"| <= HeaderLimit
    ensures HeaderBBoxEmpty(first + Marker + Join(Fields(dims), ' ') + "\n" + tail) ==
      Ok(dims[0] >= dims[2] || dims[1] >= dims[3])
  {
    forall i | 0 <= i < |dims|
      ensures '\n' !in Fields(dims)[i]
    {
      IntToStringChars(dims[i]);
    }
    JoinFieldsNoNewline(Fields(dims));
    MarkedLine(first, Join(Fields(dims), ' '), tail);
    WellFormedLine(dims);
  }

  /**
   * Three fields are enough when llx >= urx already: the box is degenerate
   * whatever would follow; with llx < urx the missing fourth field is the
   * Go code's panic.
   */
  lemma ThreeFieldLine(llx: int, lly: int, urx: int)
    requires Int64Min <= llx <= Int64Max && Int64Min <= lly <= Int64Max && Int64Min <= urx <= Int64Max
    ensures LineVerdict(Join(Fields([llx, lly, urx]), ' ')) == if llx >= urx then Ok(true) else Err(TooFewFields)
  {
    var dims := [llx, lly, urx];
    forall i | 0 <= i < |dims|
      ensures ' ' !in Fields(dims)[i]
    {
      IntToStringChars(dims[i]);
    }
    SplitJoin(Fields(dims), ' ');
    ParseDimsFields(dims);
  }

  lemma UnitBoxLine()
    ensures Join(Fields([0, 0, 1, 1]), ' ') == "0 0 1 1"
  {
    assert Fields([0, 0, 1, 1]) == ["0", "0", "1", "1"];
    assert Join(["1"], ' ') == "1";
    assert Join(["1", "1"], ' ') == "1 1";
    assert Join(["0", "1", "1"], ' ') == "0 1 1";
  }

  /** The placeholder parses to the non-degenerate box 0 0 1 1. */
  lemma PlaceholderNotEmpty()
    ensures HeaderBBoxEmpty(Placeholder) == Ok(false)
  {
    UnitBoxLine();
    FirstLineMarker(PlaceholderFirstLine, "0 0 1 1");
    WellFormedHeader(PlaceholderFirstLine, [0, 0, 1, 1], PlaceholderRest);
  }

  /** Parsing stops at the first field Atoi rejects and reports that field. */
  lemma {:induction false} ParseDimsFirstBad(fields: seq<string>, i: nat)
    requires i < |fields| && Atoi(fields[i]).None?
    requires forall j | 0 <= j < i :: Atoi(fields[j]).Some?
    ensures ParseDims(fields) == Err(BadField(fields[i]))
    decreases i
  {
    if i > 0 {
      ParseDimsFirstBad(fields[1..], i - 1);
    }
  }

  /**
   * A doubled space after well-formed numbers leaves an empty field, which
   * Atoi rejects: the header is an error, not a box.
   */
  lemma DoubledSpaceRejected(dims: seq<int>, more: seq<string>)
    requires forall i | 0 <= i < |dims| :: Int64Min <= dims[i] <= Int64Max
    requires forall i | 0 <= i < |more| :: ' ' !in more[i]
    ensures LineVerdict(Join(Fields(dims) + [""] + more, ' ')) == Err(BadField(""))
  {
    DoubledFields(dims, more);
    LineWithBadField(Fields(dims) + [""] + more, |dims|);
  }

  /** The fields of a line with a doubled space after the numbers: an empty one at |dims|, good ones before it. */
  lemma DoubledFields(dims: seq<int>, more: seq<string>)
    requires forall i | 0 <= i < |dims| :: Int64Min <= dims[i] <= Int64Max
    requires forall i | 0 <= i < |more| :: ' ' !in more[i]
    ensures var fields := Fields(dims) + [""] + more;
      |dims| < |fields| && fields[|dims|] == "" &&
      (forall k | 0 <= k < |fields| :: ' ' !in fields[k]) &&
      forall j | 0 <= j < |dims| :: Atoi(fields[j]).Some?
  {
    var fs := Fields(dims);
    FieldsReadBack(dims);
    var fields := fs + [""] + more;
    forall i | 0 <= i < |fields|
      ensures ' ' !in fields[i]
    {
      if i < |fs| {
        assert fields[i] == fs[i];
      } else if i > |fs| {
        assert fields[i] == more[i - |fs| - 1];
      }
    }
    forall j | 0 <= j < |fs|
      ensures Atoi(fields[j]).Some?
    {
      assert fields[j] == fs[j];
    }
  }

  /** A line whose fields hold no space fails at its first field Atoi rejects. */
  lemma LineWithBadField(fields: seq<string>, i: nat)
    requires forall k | 0 <= k < |fields| :: ' ' !in fields[k]
    requires i < |fields| && Atoi(fields[i]).None?
    requires forall j | 0 <= j < i :: Atoi(fields[j]).Some?
    ensures LineVerdict(Join(fields, ' ')) == Err(BadField(fields[i]))
  {
    SplitJoin(fields, ' ');
    ParseDimsFirstBad(fields, i);
  }

  /** Every printed field is free of spaces and reads back through Atoi. */
  lemma FieldsReadBack(dims: seq<int>)
    requires forall i | 0 <= i < |dims| :: Int64Min <= dims[i] <= Int64Max
    ensures forall i | 0 <= i < |dims| :: ' ' !in Fields(dims)[i] && Atoi(Fields(dims)[i]) == Some(dims[i])
  {
    forall i | 0 <= i < |dims|
      ensures ' ' !in Fields(dims)[i] && Atoi(Fields(dims)[i]) == Some(dims[i])
    {
      IntToStringChars(dims[i]);
      AtoiIntToString(dims[i]);
    }
  }

  // ---------------------------------------------------------------------------
  // convertEPSBatch: what each input is rendered from

  /** One Ghostscript job: the file it runs and the PNG it writes. */
  datatype Job = Job(source: string, output: string)

  /**
   * The driver loop of convertEPSBatch: every input goes through EPSBBoxEmpty;
   * the first failure aborts the batch; a degenerate input is replaced by the
   * placeholder file `emptyPS`.  Inputs are visited in an unspecified order.
   */
  method PlanBatch(epsFiles: map<string, string>, files: map<string, string>, emptyPS: string)
    returns (r: Result<map<string, Job>, BBoxError>)
    ensures r.Ok? <==> forall fn | fn in epsFiles :: EPSBBoxEmpty(files, fn).Ok?
    ensures r.Ok? ==> r.value.Keys == epsFiles.Keys
    ensures r.Ok? ==> forall fn | fn in epsFiles ::
      r.value[fn] == Job(if EPSBBoxEmpty(files, fn) == Ok(true) then emptyPS else fn, epsFiles[fn])
    ensures r.Err? ==> exists fn | fn in epsFiles :: EPSBBoxEmpty(files, fn) == Err(r.error)
  {
    var jobs: map<string, Job> := map[];
    var todo := epsFiles.Keys;
    while todo != {}
      invariant todo <= epsFiles.Keys
      invariant jobs.Keys == epsFiles.Keys - todo
      invariant forall fn | fn in jobs :: (EPSBBoxEmpty(files, fn).Ok? &&
        jobs[fn] == Job(if EPSBBoxEmpty(files, fn) == Ok(true) then emptyPS else fn, epsFiles[fn]))
      decreases todo
    {
      var inputFn :| inputFn in todo;
      var outFn := epsFiles[inputFn];
      match EPSBBoxEmpty(files, inputFn)
      case Err(e) =>
        return Err(e);
      case Ok(empty) =>
        jobs := jobs[inputFn := Job(if empty then emptyPS else inputFn, outFn)];
      todo := todo - {inputFn};
    }
    return Ok(jobs);
  }

  // ---------------------------------------------------------------------------
  // convertEPSParallel: the round-robin split

  /** How many of the key numbers 0 .. i-1 land in chunk `c` when key number j goes to chunk j % n. */
  function ChunkSize(i: nat, n: nat, c: nat): nat
    requires n > 0
  {
    if i == 0 then 0 else ChunkSize(i - 1, n, c) + if (i - 1) % n == c then 1 else 0
  }

  lemma MulGap(k: int, n: int)
    requires n > 0 && -n < k * n < n
    ensures k == 0
  {
  }

  /** Quotient and remainder are determined by a = q * n + r with 0 <= r < n. */
  lemma DivModUnique(a: nat, n: nat, q: nat, r: nat)
    requires n > 0 && r < n && a == q * n + r
    ensures a / n == q && a % n == r
  {
    var q', r' := a / n, a % n;
    assert a == q' * n + r';
    assert (q' - q) * n == q' * n - q * n;
    MulGap(q' - q, n);
  }

  /** Counting on by one: the remainder steps up, or wraps to 0 as the quotient steps up. */
  lemma DivModNext(a: nat, n: nat)
    requires n > 0
    ensures a % n + 1 < n ==> (a + 1) / n == a / n && (a + 1) % n == a % n + 1
    ensures a % n + 1 == n ==> (a + 1) / n == a / n + 1 && (a + 1) % n == 0
  {
    var q, r := a / n, a % n;
    assert a == q * n + r;
    if r + 1 < n {
      DivModUnique(a + 1, n, q, r + 1);
    } else {
      assert a + 1 == (q + 1) * n;
      DivModUnique(a + 1, n, q + 1, 0);
    }
  }

  /**
   * After i keys, chunk c < n holds i / n keys, plus one when c < i % n: the
   * first i % n chunks are one ahead.
   */
  lemma {:induction false} ChunkSizeClosedForm(i: nat, n: nat, c: nat)
    requires c < n
    ensures ChunkSize(i, n, c) == i / n + if c < i % n then 1 else 0
    decreases i
  {
    if i == 0 {
      DivModUnique(0, n, 0, 0);
    } else {
      ChunkSizeClosedForm(i - 1, n, c);
      DivModNext(i - 1, n);
    }
  }

  /** Chunk sizes never differ by more than one. */
  lemma ChunkSizesBalanced(i: nat, n: nat, c: nat, d: nat)
    requires c < n && d < n
    ensures ChunkSize(i, n, c) <= ChunkSize(i, n, d) + 1
  {
    ChunkSizeClosedForm(i, n, c);
    ChunkSizeClosedForm(i, n, d);
  }

  /** Every chunk entry is an entry of the input whose key has been handed out. */
  ghost predicate ChunksAgree(epsFiles: map<string, string>, chunks: seq<map<string, string>>, done: set<string>) {
    forall c | 0 <= c < |chunks| :: forall k | k in chunks[c] :: k in done && k in epsFiles && chunks[c][k] == epsFiles[k]
  }

  /** Every key handed out sits in some chunk. */
  ghost predicate ChunksCover(chunks: seq<map<string, string>>, done: set<string>) {
    forall k | k in done :: exists c | 0 <= c < |chunks| :: k in chunks[c]
  }

  /** No key sits in two chunks. */
  ghost predicate ChunksDisjoint(chunks: seq<map<string, string>>) {
    forall c, d | 0 <= c < d < |chunks| :: chunks[c].Keys !! chunks[d].Keys
  }

  /** Chunk c holds as many keys as the round robin gives it after i keys. */
  ghost predicate ChunkSizes(chunks: seq<map<string, string>>, i: nat) {
    |chunks| > 0 && forall c | 0 <= c < |chunks| :: |chunks[c]| == ChunkSize(i, |chunks|, c)
  }

  /** Handing the i-th key to chunk i % n grows that chunk by one, as the round robin says. */
  lemma HandOutSizes(chunks: seq<map<string, string>>, i: nat, c: nat, k: string, v: string)
    requires ChunkSizes(chunks, i) && c == i % |chunks| && k !in chunks[c]
    ensures ChunkSizes(chunks[c := chunks[c][k := v]], i + 1)
  {
  }

  /** Handing a new key to one chunk keeps the chunks agreeing with the input, disjoint and covering. */
  lemma HandOutKeys(epsFiles: map<string, string>, chunks: seq<map<string, string>>, done: set<string>, c: nat, k: string)
    requires c < |chunks| && k in epsFiles && k !in done
    requires ChunksAgree(epsFiles, chunks, done) && ChunksCover(chunks, done) && ChunksDisjoint(chunks)
    ensures var next := chunks[c := chunks[c][k := epsFiles[k]]];
      ChunksAgree(epsFiles, next, done + {k}) && ChunksCover(next, done + {k}) && ChunksDisjoint(next)
  {
    var next := chunks[c := chunks[c][k := epsFiles[k]]];
    forall k' | k' in done + {k}
      ensures exists d | 0 <= d < |next| :: k' in next[d]
    {
      if k' == k {
        assert k' in next[c];
      } else {
        var d :| 0 <= d < |chunks| && k' in chunks[d];
        assert k' in next[d];
      }
    }
  }

  /** The chunks after dealing the keys of `order`, one by one, key number j to chunk j % n. */
  ghost function Dealt(epsFiles: map<string, string>, order: seq<string>, n: nat): (chunks: seq<map<string, string>>)
    requires n > 0 && forall j | 0 <= j < |order| :: order[j] in epsFiles
    ensures |chunks| == n
    decreases |order|
  {
    if |order| == 0 then seq(n, _ => map[])
    else
      var prev := Dealt(epsFiles, order[..|order| - 1], n);
      var c := (|order| - 1) % n;
      var k := order[|order| - 1];
      prev[c := prev[c][k := epsFiles[k]]]
  }

  ghost predicate Distinct(order: seq<string>) {
    forall a, b | 0 <= a < b < |order| :: order[a] != order[b]
  }

  /** Dealing distinct keys of the input agrees with it, covers the keys dealt, never repeats a key, and follows the round robin. */
  lemma {:induction false} DealtProperties(epsFiles: map<string, string>, order: seq<string>, n: nat)
    requires n > 0 && (forall j | 0 <= j < |order| :: order[j] in epsFiles) && Distinct(order)
    ensures var chunks := Dealt(epsFiles, order, n); var done := set j | 0 <= j < |order| :: order[j];
      ChunksAgree(epsFiles, chunks, done) && ChunksCover(chunks, done) && ChunksDisjoint(chunks) &&
      ChunkSizes(chunks, |order|)
    decreases |order|
  {
    if |order| > 0 {
      var prefix := order[..|order| - 1];
      var k := order[|order| - 1];
      DealtProperties(epsFiles, prefix, n);
      var prev := Dealt(epsFiles, prefix, n);
      var done := set j | 0 <= j < |prefix| :: prefix[j];
      assert k !in done;
      assert (set j | 0 <= j < |order| :: order[j]) == done + {k};
      HandOutSizes(prev, |prefix|, |prefix| % n, k, epsFiles[k]);
      HandOutKeys(epsFiles, prev, done, |prefix| % n, k);
    }
  }

  /**
   * The split of convertEPSParallel (ncpu = 0 divides by zero in the Go code):
   * the i-th key visited goes to chunk i % ncpu, so the chunks are disjoint,
   * agree with the input, cover it, and their sizes follow the round robin.
   */
  method Partition(epsFiles: map<string, string>, ncpu: nat) returns (chunks: seq<map<string, string>>)
    requires ncpu > 0
    ensures |chunks| == ncpu
    ensures ChunksAgree(epsFiles, chunks, epsFiles.Keys) && ChunksCover(chunks, epsFiles.Keys)
    ensures ChunksDisjoint(chunks) && ChunkSizes(chunks, |epsFiles|)
  {
    chunks := seq(ncpu, _ => map[]);
    var i := 0;
    var todo := epsFiles.Keys;
    ghost var order: seq<string> := [];
    while todo != {}
      invariant todo <= epsFiles.Keys && i == |order|
      invariant forall j | 0 <= j < |order| :: order[j] in epsFiles && order[j] !in todo
      invariant forall k | k in epsFiles && k !in todo :: k in order
      invariant Distinct(order)
      invariant chunks == Dealt(epsFiles, order, ncpu)
      decreases todo
    {
      var k :| k in todo;
      chunks := chunks[i % ncpu := chunks[i % ncpu][k := epsFiles[k]]];
      i := i + 1;
      todo := todo - {k};
      ghost var before := order;
      order := order + [k];
      assert order[..|order| - 1] == before;
    }
    DealtProperties(epsFiles, order, ncpu);
    assert (set j | 0 <= j < |order| :: order[j]) == epsFiles.Keys;
    DistinctCard(order);
  }

  /** A sequence without repeats has as many elements as its set. */
  lemma {:induction false} DistinctCard(order: seq<string>)
    requires Distinct(order)
    ensures |set j | 0 <= j < |order| :: order[j]| == |order|
    decreases |order|
  {
    if |order| > 0 {
      var prefix := order[..|order| - 1];
      DistinctCard(prefix);
      assert (set j | 0 <= j < |order| :: order[j]) == (set j | 0 <= j < |prefix| :: prefix[j]) + {order[|order| - 1]};
    }
  }

  /** The chunks' sizes differ by at most one. */
  lemma PartitionBalanced(chunks: seq<map<string, string>>, i: nat, c: nat, d: nat)
    requires ChunkSizes(chunks, i) && c < |chunks| && d < |chunks|
    ensures |chunks[c]| <= |chunks[d]| + 1
  {
    ChunkSizesBalanced(i, |chunks|, c, d);
  }

  /**
   * convertEPS on one chunk: an empty chunk needs no Ghostscript run and
   * never fails; otherwise `gs` is the outcome of running Ghostscript on it.
   */
  function ConvertEPS(gs: map<string, string> -> Option<string>, chunk: map<string, string>): Option<string> {
    if |chunk| == 0 then None else gs(chunk)
  }

  /** No chunk of the conversion fails. */
  ghost predicate AllConverted(chunks: seq<map<string, string>>, gs: map<string, string> -> Option<string>) {
    forall c | 0 <= c < |chunks| :: ConvertEPS(gs, chunks[c]).None?
  }

  /** Some non-empty chunk of the conversion fails with `e`. */
  ghost predicate Failed(chunks: seq<map<string, string>>, gs: map<string, string> -> Option<string>, e: string) {
    exists c | 0 <= c < |chunks| :: |chunks[c]| > 0 && ConvertEPS(gs, chunks[c]) == Some(e)
  }

  /**
   * The collecting loop of convertEPSParallel, with the workers run one after
   * another: the result is one of the chunk errors, if any chunk fails.  Which
   * error the Go code returns depends on which worker finishes first.
   */
  method FirstError(chunks: seq<map<string, string>>, gs: map<string, string> -> Option<string>)
    returns (err: Option<string>)
    ensures err.None? <==> AllConverted(chunks, gs)
    ensures err.Some? ==> Failed(chunks, gs, err.value)
  {
    var c := 0;
    while c < |chunks|
      invariant 0 <= c <= |chunks|
      invariant forall d | 0 <= d < c :: ConvertEPS(gs, chunks[d]).None?
    {
      if ConvertEPS(gs, chunks[c]).Some? {
        return ConvertEPS(gs, chunks[c]);
      }
      c := c + 1;
    }
    return None;
  }

  /** The round-robin chunking convertEPSParallel makes of its input for `ncpu` workers. */
  ghost predicate Chunked(epsFiles: map<string, string>, chunks: seq<map<string, string>>, ncpu: nat) {
    |chunks| == ncpu &&
    ChunksAgree(epsFiles, chunks, epsFiles.Keys) && ChunksCover(chunks, epsFiles.Keys) &&
    ChunksDisjoint(chunks) && ChunkSizes(chunks, |epsFiles|)
  }

  /** With nothing to convert every chunk is empty, so no chunk fails. */
  lemma NothingToConvertNoError(epsFiles: map<string, string>, chunks: seq<map<string, string>>, ncpu: nat,
                                gs: map<string, string> -> Option<string>)
    requires Chunked(epsFiles, chunks, ncpu) && |epsFiles| == 0
    ensures forall c | 0 <= c < ncpu :: |chunks[c]| == 0
    ensures AllConverted(chunks, gs)
  {
    forall c | 0 <= c < ncpu
      ensures |chunks[c]| == 0
    {
      ChunkSizeClosedForm(0, ncpu, c);
    }
  }

  /**
   * convertEPSParallel: split the input round robin into `ncpu` chunks,
   * convert every chunk with convertEPS and report a chunk error if there
   * is one.
   */
  method ConvertParallel(epsFiles: map<string, string>, ncpu: nat, gs: map<string, string> -> Option<string>)
    returns (chunks: seq<map<string, string>>, err: Option<string>)
    requires ncpu > 0
    ensures Chunked(epsFiles, chunks, ncpu)
    ensures err.None? <==> AllConverted(chunks, gs)
    ensures err.Some? ==> Failed(chunks, gs, err.value)
    ensures |epsFiles| == 0 ==> err.None?
  {
    chunks := Partition(epsFiles, ncpu);
    err := FirstError(chunks, gs);
    if |epsFiles| == 0 {
      NothingToConvertNoError(epsFiles, chunks, ncpu, gs);
    }
  }
}

=== FILE: image_compare.dfy ===
/**
 * ImageCompare of cmd/compare/main.go: the pixel comparator that scores a pair
 * of page rasters and paints the differing pixels into a fresh diff raster.
 *
 * An image is an origin-anchored 2-D array indexed [x, y]: Length0 is the
 * width (Bounds().Max.X) and Length1 the height (Bounds().Max.Y).  Reading a
 * point outside the array yields the zero colour, as image.RGBA.RGBAAt does.
 */
module ImageDiff {
  import opened Pixels
  import opened Wrappers

  type Image = array2<Color>

  function Max(a: int, b: int): int { if a < b then b else a }
  function Min(a: int, b: int): int { if a < b then a else b }

  /** RGBAAt: the pixel, or the zero colour outside the image. */
  function At(img: Image, x: int, y: int): Color
    reads img
  {
    if 0 <= x < img.Length0 && 0 <= y < img.Length1 then img[x, y] else Zero
  }

  /** The pixel, or opaque white outside the image: a page laid on a blank canvas. */
  function OnCanvas(img: Image, x: int, y: int): Color
    reads img
  {
    if 0 <= x < img.Length0 && 0 <= y < img.Length1 then img[x, y] else White
  }

  /**
   * The rectangles the comparator derives from the two bounds: the Max corner of
   * their Union (an empty rectangle is ignored by Union) and of their Intersect
   * (an empty intersection is the zero rectangle), and which image is wider
   * (maxXImg) and which is taller (maxYImg); on ties the second image is chosen.
   */
  datatype Geometry = Geometry(maxX: nat, maxY: nat, minX: nat, minY: nat, widerIsFirst: bool, tallerIsFirst: bool)

  function Layout(w1: nat, h1: nat, w2: nat, h2: nat): (g: Geometry)
    ensures g.minX <= g.maxX && g.minY <= g.maxY
    ensures (if g.tallerIsFirst then w1 else w2) <= g.maxX
    ensures w1 > 0 && h1 > 0 && w2 > 0 && h2 > 0 ==>
      g.maxX == Max(w1, w2) && g.maxY == Max(h1, h2) && g.minX == Min(w1, w2) && g.minY == Min(h1, h2)
    ensures g.minY > 0 ==> w1 > 0 && h1 > 0 && w2 > 0 && h2 > 0
    ensures g.widerIsFirst <==> w1 > w2
    ensures g.tallerIsFirst <==> h1 > h2
  {
    var empty1 := w1 == 0 || h1 == 0;
    var empty2 := w2 == 0 || h2 == 0;
    var ux := if empty1 then w2 else if empty2 then w1 else Max(w1, w2);
    var uy := if empty1 then h2 else if empty2 then h1 else Max(h1, h2);
    var disjoint := Min(w1, w2) == 0 || Min(h1, h2) == 0;
    Geometry(ux, uy, if disjoint then 0 else Min(w1, w2), if disjoint then 0 else Min(h1, h2), w1 > w2, h1 > h2)
  }

  function LayoutOf(img1: Image, img2: Image): Geometry {
    Layout(img1.Length0, img1.Length1, img2.Length0, img2.Length1)
  }

  /** maxXImg: the wider image, the second one on a tie. */
  function Wider(img1: Image, img2: Image): Image {
    if img1.Length0 > img2.Length0 then img1 else img2
  }

  /** maxYImg: the taller image, the second one on a tie. */
  function Taller(img1: Image, img2: Image): Image {
    if img1.Length1 > img2.Length1 then img1 else img2
  }

  /**
   * How a pair of pages is read.  LowerRowsFromWider is the scan as main.go
   * writes it: rows at or past the intersection height read the wider image.
   * LowerRowsFromTaller reads the taller image there instead.  WhiteCanvas is
   * the reference reading: every point of the union, each page padded with white.
   */
  datatype Reading = LowerRowsFromWider | LowerRowsFromTaller | WhiteCanvas

  /** The colours compared at one point, if that point is visited at all. */
  datatype Probe = Unvisited | Compared(p: Color, q: Color)

  function ProbeAt(img1: Image, img2: Image, reading: Reading, x: int, y: int): Probe
    reads img1, img2
  {
    var g := LayoutOf(img1, img2);
    if reading == WhiteCanvas then
      if 0 <= x < g.maxX && 0 <= y < g.maxY then Compared(OnCanvas(img1, x, y), OnCanvas(img2, x, y))
      else Unvisited
    else if 0 <= y < g.minY && 0 <= x < g.minX then Compared(At(img1, x, y), At(img2, x, y))
    else if 0 <= y < g.minY && g.minX <= x < g.maxX then Compared(At(Wider(img1, img2), x, y), White)
    else if g.minY <= y < g.maxY && 0 <= x < Taller(img1, img2).Length0 then
      var lower := if reading == LowerRowsFromWider then Wider(img1, img2) else Taller(img1, img2);
      Compared(At(lower, x, y), White)
    else Unvisited
  }

  /** The squared error a point adds to accumError. */
  function CellError(img1: Image, img2: Image, reading: Reading, x: int, y: int): nat
    reads img1, img2
  {
    match ProbeAt(img1, img2, reading, x, y)
    case Unvisited => 0
    case Compared(p, q) => SqDiffRGBA(p, q).0
  }

  /** The diff-raster pixel at a point: red with the mean distance as alpha, or untouched. */
  function CellMark(img1: Image, img2: Image, reading: Reading, x: int, y: int): Color
    reads img1, img2
  {
    match ProbeAt(img1, img2, reading, x, y)
    case Unvisited => Zero
    case Compared(p, q) =>
      var avg := SqDiffRGBA(p, q).1;
      if avg > 0 then Zero.(r := 0xff, a := avg) else Zero
  }

  /** The error of the first `n` points of row `y`. */
  function RowError(img1: Image, img2: Image, reading: Reading, y: int, n: int): nat
    reads img1, img2
    decreases n
  {
    if n <= 0 then 0 else RowError(img1, img2, reading, y, n - 1) + CellError(img1, img2, reading, n - 1, y)
  }

  /** The error of the first `rows` rows, each across the union's width. */
  function GridError(img1: Image, img2: Image, reading: Reading, rows: int): nat
    reads img1, img2
    decreases rows
  {
    if rows <= 0 then 0
    else GridError(img1, img2, reading, rows - 1) + RowError(img1, img2, reading, rows - 1, LayoutOf(img1, img2).maxX)
  }

  /** accumError for the whole union rectangle. */
  function TotalError(img1: Image, img2: Image, reading: Reading): nat
    reads img1, img2
  {
    GridError(img1, img2, reading, LayoutOf(img1, img2).maxY)
  }

  /** Points of a lower row past the taller image's width are never visited. */
  lemma {:induction false} RowTailUnvisited(img1: Image, img2: Image, reading: Reading, y: int, n: int)
    requires reading != WhiteCanvas
    requires LayoutOf(img1, img2).minY <= y
    requires Taller(img1, img2).Length0 <= n
    ensures RowError(img1, img2, reading, y, n) == RowError(img1, img2, reading, y, Taller(img1, img2).Length0)
    decreases n
  {
    if n > Taller(img1, img2).Length0 {
      RowTailUnvisited(img1, img2, reading, y, n - 1);
    }
  }

  /** The diff raster holds the marks of the points before (x, y) in scan order and zero elsewhere. */
  ghost predicate PaintedUpTo(dst: Image, img1: Image, img2: Image, reading: Reading, x: int, y: int)
    reads dst, img1, img2
  {
    forall i, j | 0 <= i < dst.Length0 && 0 <= j < dst.Length1 ::
      dst[i, j] == if j < y || (j == y && i < x) then CellMark(img1, img2, reading, i, j) else Zero
  }

  /** A visited point adds its squared error and, when the mean distance is positive, its red mark. */
  lemma VisitedPoint(img1: Image, img2: Image, reading: Reading, x: int, y: int, p: Color, q: Color)
    requires ProbeAt(img1, img2, reading, x, y) == Compared(p, q)
    ensures CellError(img1, img2, reading, x, y) == SqDiffRGBA(p, q).0
    ensures CellMark(img1, img2, reading, x, y) ==
      if SqDiffRGBA(p, q).1 > 0 then Zero.(r := 0xff, a := SqDiffRGBA(p, q).1) else Zero
  {
  }

  /**
   * The shape of every diff-raster pixel: untouched (all zero), or red with
   * green and blue zero and a positive alpha that is the mean channel
   * distance of the visited point; a marked point always carries error, and
   * an unmarked visited point may still carry some.
   */
  lemma MarkShape(img1: Image, img2: Image, reading: Reading, x: int, y: int)
    ensures CellMark(img1, img2, reading, x, y) == Zero ||
      (CellMark(img1, img2, reading, x, y).r == 0xff && CellMark(img1, img2, reading, x, y).g == 0 &&
       CellMark(img1, img2, reading, x, y).b == 0 && CellMark(img1, img2, reading, x, y).a > 0)
    ensures CellMark(img1, img2, reading, x, y) != Zero <==>
      ProbeAt(img1, img2, reading, x, y).Compared? &&
      SqDiffRGBA(ProbeAt(img1, img2, reading, x, y).p, ProbeAt(img1, img2, reading, x, y).q).1 > 0
    ensures CellMark(img1, img2, reading, x, y) != Zero ==>
      CellMark(img1, img2, reading, x, y).a ==
        SqDiffRGBA(ProbeAt(img1, img2, reading, x, y).p, ProbeAt(img1, img2, reading, x, y).q).1 &&
      CellError(img1, img2, reading, x, y) > 0
  {
    match ProbeAt(img1, img2, reading, x, y)
    case Unvisited =>
    case Compared(p, q) =>
      SqDiffRGBAMeaning(p, q);
  }

  /** Right of the intersection, above its height, the wider image meets white. */
  lemma StripProbe(img1: Image, img2: Image, reading: Reading, g: Geometry, x: int, y: int)
    requires reading != WhiteCanvas && g == LayoutOf(img1, img2)
    requires 0 <= y < g.minY && g.minX <= x < g.maxX
    ensures ProbeAt(img1, img2, reading, x, y) == Compared(At(Wider(img1, img2), x, y), White)
  {
  }

  /** At or past the intersection height, within the taller image's width, the chosen image meets white. */
  lemma LowerProbe(img1: Image, img2: Image, reading: Reading, g: Geometry, lower: Image, x: int, y: int)
    requires reading != WhiteCanvas && g == LayoutOf(img1, img2)
    requires lower == if reading == LowerRowsFromWider then Wider(img1, img2) else Taller(img1, img2)
    requires g.minY <= y < g.maxY && 0 <= x < Taller(img1, img2).Length0
    ensures ProbeAt(img1, img2, reading, x, y) == Compared(At(lower, x, y), White)
  {
  }

  /** Paints one visited point: red with alpha `avg` when `avg` is positive, untouched otherwise. */
  method PaintPoint(img1: Image, img2: Image, reading: Reading, dst: Image, x: nat, y: nat, avg: uint8)
    requires dst != img1 && dst != img2
    requires x < dst.Length0 && y < dst.Length1
    requires CellMark(img1, img2, reading, x, y) == if avg > 0 then Zero.(r := 0xff, a := avg) else Zero
    requires PaintedUpTo(dst, img1, img2, reading, x, y)
    modifies dst
    ensures PaintedUpTo(dst, img1, img2, reading, x + 1, y)
    ensures GridError(img1, img2, reading, y) == old(GridError(img1, img2, reading, y))
    ensures RowError(img1, img2, reading, y, x + 1) == old(RowError(img1, img2, reading, y, x + 1))
  {
    if avg > 0 {
      dst[x, y] := dst[x, y].(r := 0xff, a := avg);
    }
  }

  /**
   * The comparator's scan: rows above the intersection height cover the whole
   * union width (img1 against img2 inside the intersection, the wider image
   * against white right of it); the rows below cover the taller image's width
   * and compare the image chosen by `reading` against white.  Every point with
   * a nonzero mean distance gets R = 0xff and A = that mean in the zero-filled
   * diff raster.
   */
  method Scan(img1: Image, img2: Image, reading: Reading) returns (dst: Image, accumError: nat)
    requires reading != WhiteCanvas
    ensures fresh(dst)
    ensures dst.Length0 == LayoutOf(img1, img2).maxX && dst.Length1 == LayoutOf(img1, img2).maxY
    ensures accumError == TotalError(img1, img2, reading)
    ensures forall x, y | 0 <= x < dst.Length0 && 0 <= y < dst.Length1 :: dst[x, y] == CellMark(img1, img2, reading, x, y)
  {
    var g := LayoutOf(img1, img2);
    dst := new Color[g.maxX, g.maxY]((x, y) => Zero);
    accumError := ScanUpperRows(img1, img2, reading, g, dst);
    accumError := ScanLowerRows(img1, img2, reading, g, dst, accumError);
  }

  /** The rows above the intersection height. */
  method ScanUpperRows(img1: Image, img2: Image, reading: Reading, g: Geometry, dst: Image) returns (accumError: nat)
    requires reading != WhiteCanvas && dst != img1 && dst != img2
    requires g == LayoutOf(img1, img2)
    requires dst.Length0 == g.maxX && dst.Length1 == g.maxY
    requires PaintedUpTo(dst, img1, img2, reading, 0, 0)
    modifies dst
    ensures accumError == GridError(img1, img2, reading, g.minY)
    ensures PaintedUpTo(dst, img1, img2, reading, 0, g.minY)
  {
    var maxXImg := if img1.Length0 > img2.Length0 then img1 else img2;
    accumError := 0;
    var y := 0;
    while y < g.minY
      invariant 0 <= y <= g.minY
      invariant accumError == GridError(img1, img2, reading, y)
      invariant PaintedUpTo(dst, img1, img2, reading, 0, y)
    {
      accumError := ScanUpperRow(img1, img2, reading, g, dst, y, maxXImg, accumError);
      y := y + 1;
    }
  }

  /** One row above the intersection height: the intersection, then the strip right of it. */
  method ScanUpperRow(img1: Image, img2: Image, reading: Reading, g: Geometry, dst: Image, y: nat, maxXImg: Image, accumIn: nat)
    returns (accumError: nat)
    requires reading != WhiteCanvas && dst != img1 && dst != img2
    requires g == LayoutOf(img1, img2) && maxXImg == Wider(img1, img2)
    requires dst.Length0 == g.maxX && dst.Length1 == g.maxY
    requires y < g.minY
    requires accumIn == GridError(img1, img2, reading, y)
    requires PaintedUpTo(dst, img1, img2, reading, 0, y)
    modifies dst
    ensures accumError == GridError(img1, img2, reading, y + 1)
    ensures PaintedUpTo(dst, img1, img2, reading, 0, y + 1)
  {
    accumError := ScanIntersectionRow(img1, img2, reading, g, dst, y, accumIn);
    accumError := ScanRightStrip(img1, img2, reading, g, dst, y, maxXImg, accumError);
  }

  /** The rows at or past the intersection height. */
  method ScanLowerRows(img1: Image, img2: Image, reading: Reading, g: Geometry, dst: Image, accumIn: nat) returns (accumError: nat)
    requires reading != WhiteCanvas && dst != img1 && dst != img2
    requires g == LayoutOf(img1, img2)
    requires dst.Length0 == g.maxX && dst.Length1 == g.maxY
    requires accumIn == GridError(img1, img2, reading, g.minY)
    requires PaintedUpTo(dst, img1, img2, reading, 0, g.minY)
    modifies dst
    ensures accumError == GridError(img1, img2, reading, g.maxY)
    ensures PaintedUpTo(dst, img1, img2, reading, 0, g.maxY)
  {
    var maxYImg := if img1.Length1 > img2.Length1 then img1 else img2;
    var lower := if reading == LowerRowsFromWider then Wider(img1, img2) else maxYImg;
    accumError := accumIn;
    var y := g.minY;
    while y < g.maxY
      invariant g.minY <= y <= g.maxY
      invariant accumError == GridError(img1, img2, reading, y)
      invariant PaintedUpTo(dst, img1, img2, reading, 0, y)
    {
      accumError := ScanLowerRow(img1, img2, reading, g, dst, y, maxYImg, lower, accumError);
      y := y + 1;
    }
  }

  /** A row above the intersection height, inside the intersection: img1 against img2. */
  method ScanIntersectionRow(img1: Image, img2: Image, reading: Reading, g: Geometry, dst: Image, y: nat, accumIn: nat)
    returns (accumError: nat)
    requires reading != WhiteCanvas && dst != img1 && dst != img2
    requires g == LayoutOf(img1, img2)
    requires dst.Length0 == g.maxX && dst.Length1 == g.maxY
    requires y < g.minY
    requires accumIn == GridError(img1, img2, reading, y)
    requires PaintedUpTo(dst, img1, img2, reading, 0, y)
    modifies dst
    ensures accumError == GridError(img1, img2, reading, y) + RowError(img1, img2, reading, y, g.minX)
    ensures PaintedUpTo(dst, img1, img2, reading, g.minX, y)
  {
    accumError := accumIn;
    var x := 0;
    while x < g.minX
      invariant 0 <= x <= g.minX
      invariant accumError == GridError(img1, img2, reading, y) + RowError(img1, img2, reading, y, x)
      invariant PaintedUpTo(dst, img1, img2, reading, x, y)
    {
      var d := SqDiffRGBA(At(img1, x, y), At(img2, x, y));
      VisitedPoint(img1, img2, reading, x, y, At(img1, x, y), At(img2, x, y));
      accumError := accumError + d.0;
      PaintPoint(img1, img2, reading, dst, x, y, d.1);
      x := x + 1;
    }
  }

  /** A row above the intersection height, right of the intersection: the wider image against white. */
  method ScanRightStrip(img1: Image, img2: Image, reading: Reading, g: Geometry, dst: Image, y: nat, maxXImg: Image, accumIn: nat)
    returns (accumError: nat)
    requires reading != WhiteCanvas && dst != img1 && dst != img2
    requires g == LayoutOf(img1, img2) && maxXImg == Wider(img1, img2)
    requires dst.Length0 == g.maxX && dst.Length1 == g.maxY
    requires y < g.minY
    requires accumIn == GridError(img1, img2, reading, y) + RowError(img1, img2, reading, y, g.minX)
    requires PaintedUpTo(dst, img1, img2, reading, g.minX, y)
    modifies dst
    ensures accumError == GridError(img1, img2, reading, y + 1)
    ensures PaintedUpTo(dst, img1, img2, reading, 0, y + 1)
  {
    accumError := accumIn;
    var x := g.minX;
    while x < g.maxX
      invariant g.minX <= x <= g.maxX
      invariant accumError == GridError(img1, img2, reading, y) + RowError(img1, img2, reading, y, x)
      invariant PaintedUpTo(dst, img1, img2, reading, x, y)
    {
      accumError := StripCell(img1, img2, reading, g, dst, y, maxXImg, x, accumError);
      x := x + 1;
    }
    RowDone(dst, img1, img2, reading, y);
  }

  /** One point of the strip: the wider image at (x, y) against white. */
  method StripCell(img1: Image, img2: Image, reading: Reading, g: Geometry, dst: Image, y: nat, maxXImg: Image, x: nat, accumIn: nat)
    returns (accumError: nat)
    requires reading != WhiteCanvas && dst != img1 && dst != img2
    requires g == LayoutOf(img1, img2) && maxXImg == Wider(img1, img2)
    requires dst.Length0 == g.maxX && dst.Length1 == g.maxY
    requires y < g.minY && g.minX <= x < g.maxX
    requires accumIn == GridError(img1, img2, reading, y) + RowError(img1, img2, reading, y, x)
    requires PaintedUpTo(dst, img1, img2, reading, x, y)
    modifies dst
    ensures accumError == GridError(img1, img2, reading, y) + RowError(img1, img2, reading, y, x + 1)
    ensures PaintedUpTo(dst, img1, img2, reading, x + 1, y)
  {
    var d := SqDiffRGBA(At(maxXImg, x, y), White);
    StripProbe(img1, img2, reading, g, x, y);
    VisitedPoint(img1, img2, reading, x, y, At(maxXImg, x, y), White);
    accumError := accumIn + d.0;
    PaintPoint(img1, img2, reading, dst, x, y, d.1);
  }

  /** A row scanned across the whole union width is complete. */
  lemma RowDone(dst: Image, img1: Image, img2: Image, reading: Reading, y: int)
    requires dst.Length0 == LayoutOf(img1, img2).maxX
    requires PaintedUpTo(dst, img1, img2, reading, dst.Length0, y)
    ensures PaintedUpTo(dst, img1, img2, reading, 0, y + 1)
  {
  }

  /**
   * A row at or past the intersection height, across the taller image's width
   * (maxYImg): the image `lower` against white.
   */
  method ScanLowerRow(img1: Image, img2: Image, reading: Reading, g: Geometry, dst: Image, y: nat, maxYImg: Image, lower: Image, accumIn: nat)
    returns (accumError: nat)
    requires reading != WhiteCanvas && dst != img1 && dst != img2
    requires g == LayoutOf(img1, img2) && maxYImg == Taller(img1, img2)
    requires lower == if reading == LowerRowsFromWider then Wider(img1, img2) else maxYImg
    requires dst.Length0 == g.maxX && dst.Length1 == g.maxY
    requires g.minY <= y < g.maxY
    requires accumIn == GridError(img1, img2, reading, y)
    requires PaintedUpTo(dst, img1, img2, reading, 0, y)
    modifies dst
    ensures accumError == GridError(img1, img2, reading, y + 1)
    ensures PaintedUpTo(dst, img1, img2, reading, 0, y + 1)
  {
    accumError := accumIn;
    var x := 0;
    while x < maxYImg.Length0
      invariant 0 <= x <= maxYImg.Length0
      invariant accumError == GridError(img1, img2, reading, y) + RowError(img1, img2, reading, y, x)
      invariant PaintedUpTo(dst, img1, img2, reading, x, y)
    {
      accumError := LowerCell(img1, img2, reading, g, dst, y, lower, x, accumError);
      x := x + 1;
    }
    LowerRowDone(dst, img1, img2, reading, y);
  }

  /** Once a lower row is scanned across the taller image, the rest of it is untouched and adds nothing. */
  lemma LowerRowDone(dst: Image, img1: Image, img2: Image, reading: Reading, y: int)
    requires reading != WhiteCanvas && LayoutOf(img1, img2).minY <= y
    requires dst.Length0 == LayoutOf(img1, img2).maxX
    requires PaintedUpTo(dst, img1, img2, reading, Taller(img1, img2).Length0, y)
    ensures PaintedUpTo(dst, img1, img2, reading, 0, y + 1)
    ensures GridError(img1, img2, reading, y + 1) == GridError(img1, img2, reading, y) + RowError(img1, img2, reading, y, Taller(img1, img2).Length0)
  {
    RowTailUnvisited(img1, img2, reading, y, LayoutOf(img1, img2).maxX);
  }

  /** One point of such a row: `lower` at (x, y) against white. */
  method LowerCell(img1: Image, img2: Image, reading: Reading, g: Geometry, dst: Image, y: nat, lower: Image, x: nat, accumIn: nat)
    returns (accumError: nat)
    requires reading != WhiteCanvas && dst != img1 && dst != img2
    requires g == LayoutOf(img1, img2)
    requires lower == if reading == LowerRowsFromWider then Wider(img1, img2) else Taller(img1, img2)
    requires dst.Length0 == g.maxX && dst.Length1 == g.maxY
    requires g.minY <= y < g.maxY && x < Taller(img1, img2).Length0
    requires accumIn == GridError(img1, img2, reading, y) + RowError(img1, img2, reading, y, x)
    requires PaintedUpTo(dst, img1, img2, reading, x, y)
    modifies dst
    ensures accumError == GridError(img1, img2, reading, y) + RowError(img1, img2, reading, y, x + 1)
    ensures PaintedUpTo(dst, img1, img2, reading, x + 1, y)
  {
    var d := SqDiffRGBA(At(lower, x, y), White);
    LowerProbe(img1, img2, reading, g, lower, x, y);
    VisitedPoint(img1, img2, reading, x, y, At(lower, x, y), White);
    accumError := accumIn + d.0;
    PaintPoint(img1, img2, reading, dst, x, y, d.1);
  }

  /** ImageCompare with the lower rows read from the taller image (see the findings). */
  method ImageCompare(img1: Image, img2: Image) returns (dst: Image, accumError: nat)
    ensures fresh(dst)
    ensures dst.Length0 == LayoutOf(img1, img2).maxX && dst.Length1 == LayoutOf(img1, img2).maxY
    ensures accumError == TotalError(img1, img2, LowerRowsFromTaller)
    ensures forall x, y | 0 <= x < dst.Length0 && 0 <= y < dst.Length1 ::
      dst[x, y] == CellMark(img1, img2, LowerRowsFromTaller, x, y)
  {
    dst, accumError := Scan(img1, img2, LowerRowsFromTaller);
  }

  /** ImageCompare exactly as main.go writes it: the lower rows read the wider image. */
  method ImageCompareAsWritten(img1: Image, img2: Image) returns (dst: Image, accumError: nat)
    ensures fresh(dst)
    ensures dst.Length0 == LayoutOf(img1, img2).maxX && dst.Length1 == LayoutOf(img1, img2).maxY
    ensures accumError == TotalError(img1, img2, LowerRowsFromWider)
    ensures forall x, y | 0 <= x < dst.Length0 && 0 <= y < dst.Length1 ::
      dst[x, y] == CellMark(img1, img2, LowerRowsFromWider, x, y)
  {
    dst, accumError := Scan(img1, img2, LowerRowsFromWider);
  }

  // ---------------------------------------------------------------------------
  // Sums over the grid

  lemma {:induction false} RowCongruent(a1: Image, b1: Image, r1: Reading, a2: Image, b2: Image, r2: Reading, y: int, n: int)
    requires forall x | 0 <= x < n :: CellError(a1, b1, r1, x, y) == CellError(a2, b2, r2, x, y)
    ensures RowError(a1, b1, r1, y, n) == RowError(a2, b2, r2, y, n)
    decreases n
  {
    if n > 0 {
      RowCongruent(a1, b1, r1, a2, b2, r2, y, n - 1);
    }
  }

  /** Two readings that agree point by point over the union have the same accumError. */
  lemma {:induction false} GridCongruent(a1: Image, b1: Image, r1: Reading, a2: Image, b2: Image, r2: Reading, rows: int)
    requires LayoutOf(a1, b1).maxX == LayoutOf(a2, b2).maxX
    requires forall x, y | 0 <= x < LayoutOf(a1, b1).maxX && 0 <= y < rows ::
      CellError(a1, b1, r1, x, y) == CellError(a2, b2, r2, x, y)
    ensures GridError(a1, b1, r1, rows) == GridError(a2, b2, r2, rows)
    decreases rows
  {
    if rows > 0 {
      GridCongruent(a1, b1, r1, a2, b2, r2, rows - 1);
      RowCongruent(a1, b1, r1, a2, b2, r2, rows - 1, LayoutOf(a1, b1).maxX);
    }
  }

  lemma {:induction false} RowAtLeastCell(img1: Image, img2: Image, reading: Reading, x: int, y: int, n: int)
    requires 0 <= x < n
    ensures RowError(img1, img2, reading, y, n) >= CellError(img1, img2, reading, x, y)
    decreases n
  {
    if x < n - 1 {
      RowAtLeastCell(img1, img2, reading, x, y, n - 1);
    }
  }

  /** accumError is at least the error of any single point of the union. */
  lemma {:induction false} GridAtLeastCell(img1: Image, img2: Image, reading: Reading, x: int, y: int, rows: int)
    requires 0 <= x < LayoutOf(img1, img2).maxX && 0 <= y < rows
    ensures GridError(img1, img2, reading, rows) >= CellError(img1, img2, reading, x, y)
    decreases rows
  {
    if y < rows - 1 {
      GridAtLeastCell(img1, img2, reading, x, y, rows - 1);
    } else {
      RowAtLeastCell(img1, img2, reading, x, y, LayoutOf(img1, img2).maxX);
    }
  }

  lemma {:induction false} RowZero(img1: Image, img2: Image, reading: Reading, y: int, n: int)
    requires forall x | 0 <= x < n :: CellError(img1, img2, reading, x, y) == 0
    ensures RowError(img1, img2, reading, y, n) == 0
    decreases n
  {
    if n > 0 {
      RowZero(img1, img2, reading, y, n - 1);
    }
  }

  /** accumError is zero when no point of the union adds error. */
  lemma {:induction false} GridZero(img1: Image, img2: Image, reading: Reading, rows: int)
    requires forall x, y | 0 <= x < LayoutOf(img1, img2).maxX && 0 <= y < rows :: CellError(img1, img2, reading, x, y) == 0
    ensures GridError(img1, img2, reading, rows) == 0
    decreases rows
  {
    if rows > 0 {
      GridZero(img1, img2, reading, rows - 1);
      RowZero(img1, img2, reading, rows - 1, LayoutOf(img1, img2).maxX);
    }
  }

  // ---------------------------------------------------------------------------
  // Properties of the comparator

  /** Two images with the same bounds and the same pixels. */
  ghost predicate SamePage(img1: Image, img2: Image)
    reads img1, img2
  {
    img1.Length0 == img2.Length0 && img1.Length1 == img2.Length1 &&
    forall x, y | 0 <= x < img1.Length0 && 0 <= y < img1.Length1 :: img1[x, y] == img2[x, y]
  }

  /**
   * With equal bounds only the intersection is visited, under either scan:
   * the strips outside it are empty.
   */
  lemma SameBoundsOnlyIntersection(img1: Image, img2: Image, reading: Reading, x: int, y: int)
    requires reading != WhiteCanvas
    requires img1.Length0 == img2.Length0 && img1.Length1 == img2.Length1
    ensures ProbeAt(img1, img2, reading, x, y) ==
      if 0 <= y < LayoutOf(img1, img2).minY && 0 <= x < LayoutOf(img1, img2).minX
      then Compared(At(img1, x, y), At(img2, x, y)) else Unvisited
  {
  }

  /** Comparing a page with an exact copy adds no error and marks no pixel, under every reading. */
  lemma SamePageNoDifference(img1: Image, img2: Image, reading: Reading)
    requires SamePage(img1, img2)
    ensures TotalError(img1, img2, reading) == 0
    ensures forall x, y :: CellMark(img1, img2, reading, x, y) == Zero
  {
    forall x, y
      ensures CellError(img1, img2, reading, x, y) == 0 && CellMark(img1, img2, reading, x, y) == Zero
    {
      if reading != WhiteCanvas {
        SameBoundsOnlyIntersection(img1, img2, reading, x, y);
      }
    }
    GridZero(img1, img2, reading, LayoutOf(img1, img2).maxY);
  }

  lemma SwapCell(img1: Image, img2: Image, reading: Reading, x: int, y: int)
    requires img1.Length0 == img2.Length0 && img1.Length1 == img2.Length1
    ensures CellError(img1, img2, reading, x, y) == CellError(img2, img1, reading, x, y)
    ensures CellMark(img1, img2, reading, x, y) == CellMark(img2, img1, reading, x, y)
  {
    if reading != WhiteCanvas {
      SameBoundsOnlyIntersection(img1, img2, reading, x, y);
      SameBoundsOnlyIntersection(img2, img1, reading, x, y);
      SqDiffRGBASymmetric(At(img1, x, y), At(img2, x, y));
    } else {
      SqDiffRGBASymmetric(OnCanvas(img1, x, y), OnCanvas(img2, x, y));
    }
  }

  /** Swapping two pages with equal bounds changes neither the error nor the diff raster. */
  lemma SwapSameBounds(img1: Image, img2: Image, reading: Reading)
    requires img1.Length0 == img2.Length0 && img1.Length1 == img2.Length1
    ensures TotalError(img1, img2, reading) == TotalError(img2, img1, reading)
    ensures forall x, y :: CellMark(img1, img2, reading, x, y) == CellMark(img2, img1, reading, x, y)
  {
    forall x, y
      ensures CellError(img1, img2, reading, x, y) == CellError(img2, img1, reading, x, y)
      ensures CellMark(img1, img2, reading, x, y) == CellMark(img2, img1, reading, x, y)
    {
      SwapCell(img1, img2, reading, x, y);
    }
    GridCongruent(img1, img2, reading, img2, img1, reading, LayoutOf(img1, img2).maxY);
  }

  /**
   * For two non-empty pages, reading the lower rows from the taller image visits
   * exactly what the white-canvas reading compares: at every point of the union
   * both give the same error and the same mark.
   */
  lemma TallerReadingIsWhiteCanvas(img1: Image, img2: Image, x: int, y: int)
    requires img1.Length0 > 0 && img1.Length1 > 0 && img2.Length0 > 0 && img2.Length1 > 0
    requires 0 <= x < LayoutOf(img1, img2).maxX && 0 <= y < LayoutOf(img1, img2).maxY
    ensures CellError(img1, img2, LowerRowsFromTaller, x, y) == CellError(img1, img2, WhiteCanvas, x, y)
    ensures CellMark(img1, img2, LowerRowsFromTaller, x, y) == CellMark(img1, img2, WhiteCanvas, x, y)
  {
  }

  /** The corrected comparator computes the white-canvas error of the whole union. */
  lemma ImageCompareIsWhiteCanvas(img1: Image, img2: Image)
    requires img1.Length0 > 0 && img1.Length1 > 0 && img2.Length0 > 0 && img2.Length1 > 0
    ensures TotalError(img1, img2, LowerRowsFromTaller) == TotalError(img1, img2, WhiteCanvas)
  {
    var g := LayoutOf(img1, img2);
    forall x, y | 0 <= x < g.maxX && 0 <= y < g.maxY
      ensures CellError(img1, img2, LowerRowsFromTaller, x, y) == CellError(img1, img2, WhiteCanvas, x, y)
    {
      TallerReadingIsWhiteCanvas(img1, img2, x, y);
    }
    GridCongruent(img1, img2, LowerRowsFromTaller, img1, img2, WhiteCanvas, g.maxY);
  }

  ghost predicate AllWhite(img: Image)
    reads img
  {
    forall x, y | 0 <= x < img.Length0 && 0 <= y < img.Length1 :: img[x, y] == White
  }

  /**
   * The scan as written charges full black-against-white error in the rows
   * below the intersection whenever the first page is wider and the second
   * taller: two blank pages of those shapes compare as different, while the
   * corrected scan finds no difference.
   */
  lemma AsWrittenChargesBlankRows(img1: Image, img2: Image)
    requires img1.Length0 > img2.Length0 > 0 && img2.Length1 > img1.Length1 > 0
    requires AllWhite(img1) && AllWhite(img2)
    ensures CellError(img1, img2, LowerRowsFromWider, 0, img1.Length1) == 3 * 0xff * 0xff
    ensures TotalError(img1, img2, LowerRowsFromWider) >= 3 * 0xff * 0xff
    ensures TotalError(img1, img2, LowerRowsFromTaller) == 0
  {
    var g := LayoutOf(img1, img2);
    ZeroAgainstWhite(At(img1, 0, img1.Length1));
    GridAtLeastCell(img1, img2, LowerRowsFromWider, 0, img1.Length1, g.maxY);
    ImageCompareIsWhiteCanvas(img1, img2);
    GridZero(img1, img2, WhiteCanvas, g.maxY);
  }

  // ---------------------------------------------------------------------------
  // compareOne

  /**
   * compareOne after decoding: run the comparator as main.go writes it and
   * hand back the diff raster for writing only when the distance is
   * positive.  The distance sqrt(accumError)/area is positive exactly when
   * accumError is (an empty intersection makes it +Inf or NaN, and NaN > 0
   * is false).
   */
  method CompareOne(img1: Image, img2: Image) returns (accumError: nat, diff: Option<Image>)
    ensures accumError == TotalError(img1, img2, LowerRowsFromWider)
    ensures diff.Some? <==> accumError > 0
    ensures diff.Some? ==>
      diff.value.Length0 == LayoutOf(img1, img2).maxX && diff.value.Length1 == LayoutOf(img1, img2).maxY &&
      forall x, y | 0 <= x < diff.value.Length0 && 0 <= y < diff.value.Length1 ::
        diff.value[x, y] == CellMark(img1, img2, LowerRowsFromWider, x, y)
    ensures SamePage(img1, img2) ==> diff.None?
  {
    var dst;
    dst, accumError := ImageCompareAsWritten(img1, img2);
    if accumError > 0 {
      diff := Some(dst);
    } else {
      diff := None;
    }
    if SamePage(img1, img2) {
      SamePageNoDifference(img1, img2, LowerRowsFromWider);
    }
  }

  /**
   * compareOne on the corrected comparator.  For decoded pages (a PNG is
   * never empty) the diff is written exactly when the pages differ laid on a
   * white canvas, so two blank pages never get one.
   */
  method CompareOneCorrected(img1: Image, img2: Image) returns (accumError: nat, diff: Option<Image>)
    ensures accumError == TotalError(img1, img2, LowerRowsFromTaller)
    ensures diff.Some? <==> accumError > 0
    ensures diff.Some? ==>
      diff.value.Length0 == LayoutOf(img1, img2).maxX && diff.value.Length1 == LayoutOf(img1, img2).maxY &&
      forall x, y | 0 <= x < diff.value.Length0 && 0 <= y < diff.value.Length1 ::
        diff.value[x, y] == CellMark(img1, img2, LowerRowsFromTaller, x, y)
    ensures NonEmpty(img1) && NonEmpty(img2) ==> accumError == TotalError(img1, img2, WhiteCanvas)
    ensures NonEmpty(img1) && NonEmpty(img2) && AllWhite(img1) && AllWhite(img2) ==> diff.None?
  {
    var dst;
    dst, accumError := ImageCompare(img1, img2);
    if accumError > 0 {
      diff := Some(dst);
    } else {
      diff := None;
    }
    if NonEmpty(img1) && NonEmpty(img2) {
      ImageCompareIsWhiteCanvas(img1, img2);
      if AllWhite(img1) && AllWhite(img2) {
        BlankPagesNoDifference(img1, img2);
      }
    }
  }

  predicate NonEmpty(img: Image) {
    img.Length0 > 0 && img.Length1 > 0
  }

  /** Two blank pages laid on a white canvas do not differ anywhere. */
  lemma BlankPagesNoDifference(img1: Image, img2: Image)
    requires AllWhite(img1) && AllWhite(img2)
    ensures TotalError(img1, img2, WhiteCanvas) == 0
  {
    GridZero(img1, img2, WhiteCanvas, LayoutOf(img1, img2).maxY);
  }
}

=== FILE: lily_driver.dfy ===
/**
 * test-lily.py, the Python CI driver: the options object that parse fills
 * from the getopt pairs, the defaults main fills in, and what test_one
 * derives for each platform.
 *
 * The platform branch of parse adds a platform only for "all": the add for
 * a single platform sits after the error call in the branch for an unknown
 * one, so a valid single platform is never recorded, and with no platform
 * recorded main falls back to fedora-guile2.
 */
module LilyDriver {
  import opened Wrappers
  import opened Text
  import opened Naming
  import CiDriver

  const AllPlatforms: set<string> := {"fedora-guile2", "fedora", "ubuntu"}
  const AllStages: set<string> := {"doc", "build", "check"}
  const AllModes: set<string> := {"full", "incremental", "separate"}

  /** Why parse or test_one ends the program: --help (status 0) or an error (status 1). */
  datatype Exit =
    | Help
    | BadMode(mode: string)
    | BadPlatform(platform: string)
    | BadStage(stage: string)
    | BadArgs
    | NoPatchsets

  /** The fields of an Options object. */
  datatype OptState = OptState(platforms: set<string>, stage: string, mode: string)

  /** One option of the parse loop: the new fields, or the exit it causes. */
  function Step(st: OptState, k: string, v: string): (r: Result<OptState, Exit>)
    ensures r.Ok? ==> r.value.platforms == st.platforms || r.value.platforms == st.platforms + AllPlatforms
    ensures r.Ok? ==> r.value.mode == st.mode || r.value.mode in AllModes
    ensures r.Ok? ==> r.value.stage == st.stage || r.value.stage in AllStages
    ensures k == "--help" ==> r == Err(Help)
  {
    if k == "--mode" then
      var v' := if v == "incr" then "incremental" else v;
      if v' !in AllModes then Err(BadMode(v')) else Ok(st.(mode := v'))
    else if k == "--platform" then
      var v' := if v == "guile2" then "fedora-guile2" else v;
      if v' == "all" then Ok(st.(platforms := st.platforms + AllPlatforms))
      else if v' !in AllPlatforms then Err(BadPlatform(v'))
      else Ok(st)
    else if k == "--stage" then
      if v !in AllStages then Err(BadStage(v)) else Ok(st.(stage := v))
    else if k == "--help" then Err(Help)
    else Ok(st)
  }

  /** The parse loop over the options from `from` on. */
  function ParseFrom(st: OptState, opts: seq<(string, string)>, from: nat): Result<OptState, Exit>
    requires from <= |opts|
    decreases |opts| - from
  {
    if from == |opts| then Ok(st)
    else match Step(st, opts[from].0, opts[from].1)
      case Err(e) => Err(e)
      case Ok(next) => ParseFrom(next, opts, from + 1)
  }

  /** main's defaults: fedora-guile2, stage check and incremental mode, each where nothing was given. */
  function Defaulted(st: OptState): OptState {
    OptState(
      if st.platforms == {} then {"fedora-guile2"} else st.platforms,
      if st.stage == "" then "check" else st.stage,
      if st.mode == "" then "incremental" else st.mode)
  }

  /** Options: the platforms to test, the stage and the mode. */
  class Options {
    var platforms: set<string>
    var stage: string
    var mode: string

    function State(): OptState
      reads this
    {
      OptState(platforms, stage, mode)
    }

    constructor ()
      ensures platforms == {} && stage == "" && mode == ""
    {
      platforms := {};
      stage := "";
      mode := "";
    }

    /**
     * parse: the option loop over getopt's (name, value) pairs; it stops at
     * the first option that ends the program.
     */
    method Parse(opts: seq<(string, string)>) returns (exit: Option<Exit>)
      modifies this
      ensures var r := ParseFrom(old(State()), opts, 0);
        (r.Ok? ==> exit.None? && State() == r.value) && (r.Err? ==> exit == Some(r.error))
    {
      var i := 0;
      while i < |opts|
        invariant 0 <= i <= |opts|
        invariant ParseFrom(old(State()), opts, 0) == ParseFrom(State(), opts, i)
      {
        var (k, v) := opts[i];
        if k == "--mode" {
          if v == "incr" {
            v := "incremental";
          }
          if v !in AllModes {
            return Some(BadMode(v));
          }
          mode := v;
        } else if k == "--platform" {
          if v == "guile2" {
            v := "fedora-guile2";
          }
          if v == "all" {
            platforms := platforms + AllPlatforms;
          } else if v !in AllPlatforms {
            return Some(BadPlatform(v));
          }
        } else if k == "--stage" {
          if v !in AllStages {
            return Some(BadStage(v));
          }
          stage := v;
        } else if k == "--help" {
          return Some(Help);
        }
        i := i + 1;
      }
      return None;
    }

    /** The defaults of main, set in place. */
    method ApplyDefaults()
      modifies this
      ensures State() == Defaulted(old(State()))
    {
      if platforms == {} {
        platforms := platforms + {"fedora-guile2"};
      }
      if stage == "" {
        stage := "check";
      }
      if mode == "" {
        mode := "incremental";
      }
    }
  }

  /**
   * What parsing leaves: the platforms grow by all three platforms or not at
   * all, and a mode or stage is either the earlier one or a valid one.
   */
  lemma {:induction false} ParseFromMeaning(st: OptState, opts: seq<(string, string)>, from: nat)
    requires from <= |opts|
    ensures ParseFrom(st, opts, from).Ok? ==>
      var r := ParseFrom(st, opts, from).value;
      (r.platforms == st.platforms || r.platforms == st.platforms + AllPlatforms) &&
      (r.mode == st.mode || r.mode in AllModes) &&
      (r.stage == st.stage || r.stage in AllStages)
    decreases |opts| - from
  {
    if from < |opts| {
      match Step(st, opts[from].0, opts[from].1)
      case Err(_) =>
      case Ok(next) =>
        ParseFromMeaning(next, opts, from + 1);
        assert next.platforms == st.platforms || next.platforms == st.platforms + AllPlatforms;
    }
  }

  /**
   * A single valid platform is never recorded: after parsing from scratch
   * the platforms are none or all three, so with the defaults applied a run
   * tests fedora-guile2 alone unless "all" was given.
   */
  lemma SinglePlatformIgnored(opts: seq<(string, string)>)
    requires ParseFrom(OptState({}, "", ""), opts, 0).Ok?
    ensures var st := Defaulted(ParseFrom(OptState({}, "", ""), opts, 0).value);
      st.platforms == {"fedora-guile2"} || st.platforms == AllPlatforms
  {
    ParseFromMeaning(OptState({}, "", ""), opts, 0);
  }

  /** --platform=ubuntu ends up testing fedora-guile2. */
  lemma UbuntuTestsGuile2()
    ensures var r := ParseFrom(OptState({}, "", ""), [("--platform", "ubuntu")], 0);
      r.Ok? && Defaulted(r.value).platforms == {"fedora-guile2"}
  {
    var st := OptState({}, "", "");
    assert "ubuntu" != "guile2" && "ubuntu" != "all" && "ubuntu" in AllPlatforms;
    assert Step(st, "--platform", "ubuntu") == Ok(st);
    assert ParseFrom(st, [("--platform", "ubuntu")], 1) == Ok(st);
  }

  /** --mode=incr selects incremental mode. */
  lemma IncrAlias(st: OptState)
    ensures Step(st, "--mode", "incr") == Ok(st.(mode := "incremental"))
  {
    assert "incremental" in AllModes;
  }

  /** The defaults leave every field set, and a field that was set as it was. */
  lemma DefaultsMeaning(st: OptState)
    ensures Defaulted(st).platforms != {} && Defaulted(st).stage != "" && Defaulted(st).mode != ""
    ensures st.platforms != {} ==> Defaulted(st).platforms == st.platforms
    ensures st.stage != "" ==> Defaulted(st).stage == st.stage
    ensures st.mode != "" ==> Defaulted(st).mode == st.mode
  {
    assert "fedora-guile2" in Defaulted(st).platforms || st.platforms != {};
  }

  /**
   * What test_one derives for one platform.  It needs exactly the two
   * arguments URL and BRANCH.  `localPath` is the absolute path of the URL
   * when it exists on disk, which then replaces it.  The URL "rietveld"
   * takes BRANCH as a change number and tests the branch of the change's
   * last patchset (`patchsets` as fetched; none is an error) from the
   * /rietveld mount.
   */
  function TestOnePy(st: OptState, platform: string, args: seq<string>, localPath: Option<string>, patchsets: seq<int>): (r: Result<TestRun, Exit>)
    ensures r.Err? <==> |args| != 2 || ((if localPath.Some? then localPath.value else args[0]) == "rietveld" && |patchsets| == 0)
    ensures r.Ok? ==> (r.value.containerURL == "/rietveld" <==> (if localPath.Some? then localPath.value else args[0]) == "rietveld")
    ensures r.Ok? ==> ':' !in r.value.resultName && '/' !in r.value.resultName && ' ' !in r.value.resultName
    ensures r.Ok? ==> r.value.seedImage == SeedImage(st.mode, platform) && r.value.driverScript == DriverScript(st.mode)
    ensures r.Ok? ==>
      var url := if localPath.Some? then localPath.value else args[0];
      if url == "rietveld" then
        r.value.branch == IssueName(args[1], patchsets[|patchsets| - 1]) &&
        r.value.resultName == ResultNamePy("rietveld", r.value.branch)
      else
        r.value.containerURL == "/local" && r.value.branch == args[1] &&
        r.value.resultName == ResultNamePy(url, args[1])
  {
    var seed := SeedImage(st.mode, platform);
    if |args| != 2 then Err(BadArgs)
    else
      var url := if localPath.Some? then localPath.value else args[0];
      var branch := args[1];
      if url == "rietveld" then
        if |patchsets| == 0 then Err(NoPatchsets)
        else
          var issue := IssueName(branch, patchsets[|patchsets| - 1]);
          Ok(TestRun(seed, DriverScript(st.mode), ResultNamePy(url, issue), "/rietveld", issue))
      else Ok(TestRun(seed, DriverScript(st.mode), ResultNamePy(url, branch), "/local", branch))
  }

  /**
   * For a branch fetched from a URL (not a rietveld change) the Python and
   * the Go driver agree on everything they derive, as long as the URL and
   * branch hold no newline and the URL is not the lilypond checkout itself.
   */
  lemma DriversAgree(mode: string, platform: string, url: string, branch: string, local: Option<string>)
    requires url != "rietveld" && url != "lilypond" && (local.Some? ==> local.value != "rietveld")
    requires '\n' !in url && '\n' !in branch && (local.Some? ==> '\n' !in local.value)
    ensures var r := TestOnePy(OptState({}, "", mode), platform, [url, branch], local, []);
      r.Ok? && r.value == CiDriver.TestOne(platform, mode, url, branch, local)
  {
    var url' := if local.Some? then local.value else url;
    ResultNamesAgree(url', branch);
  }

  /**
   * A rietveld run of test_one tests the branch issue<change>_<last
   * patchset> from the /rietveld mount, and files the results under
   * rietveld_<branch> when the change number holds no separator.
   */
  lemma RietveldRunPy(mode: string, platform: string, change: string, patchsets: seq<int>)
    requires |patchsets| > 0 && Plain(change)
    ensures var r := TestOnePy(OptState({}, "", mode), platform, ["rietveld", change], None, patchsets);
      var issue := IssueName(change, patchsets[|patchsets| - 1]);
      r.Ok? && r.value.containerURL == "/rietveld" && r.value.branch == issue &&
      r.value.resultName == "rietveld_" + issue
  {
    var issue := IssueName(change, patchsets[|patchsets| - 1]);
    RietveldRunValue(mode, platform, change, patchsets);
    IssueChars(change, patchsets[|patchsets| - 1]);
    PlainResultName("rietveld", issue);
  }

  lemma RietveldRunValue(mode: string, platform: string, change: string, patchsets: seq<int>)
    requires |patchsets| > 0
    ensures var issue := IssueName(change, patchsets[|patchsets| - 1]);
      TestOnePy(OptState({}, "", mode), platform, ["rietveld", change], None, patchsets) ==
      Ok(TestRun(SeedImage(mode, platform), DriverScript(mode), ResultNamePy("rietveld", issue), "/rietveld", issue))
  {
  }

  /** After "issue", a change number without '_' and the patchset split apart at the '_'. */
  lemma IssueSplit(change: string, patchset: int)
    requires '_' !in change
    ensures var s := IssueName(change, patchset);
      StartsWith(s, "issue") && Split(s[5..], '_') == [change, IntToString(patchset)]
  {
    var n := IntToString(patchset);
    IntToStringNoUnderscore(patchset);
    assert Join([change, n], '_') == change + "_" + n by {
      assert Join([n], '_') == n;
    }
    assert IssueName(change, patchset)[5..] == change + "_" + n;
    SplitJoin([change, n], '_');
  }

  /** The issue branch of a plain change number holds no separator and no newline. */
  lemma IssueChars(change: string, patchset: int)
    requires Plain(change)
    ensures Plain(IssueName(change, patchset))
  {
    IntToStringDigits(patchset);
  }

  /** No character of `s` is a separator the result name replaces, or a newline. */
  ghost predicate Plain(s: string) {
    forall c | c in s :: c !in Separators && c != '\n'
  }

  /** A URL and branch free of separators and newlines are filed under url_branch unchanged. */
  lemma PlainResultName(url: string, branch: string)
    requires Plain(url) && Plain(branch)
    ensures ResultNamePy(url, branch) == url + "_" + branch
  {
    var s := url + "_" + branch;
    assert forall i | 0 <= i < |s| :: s[i] !in Separators && s[i] != '\n';
    GoStripOneLine(s);
    StripsAgree(s);
    assert ReplaceChars(PyStrip(s), Separators, '-') == s;
  }
}

=== FILE: naming.dfy ===
/**
 * The names both CI drivers (test.go and test-lily.py) derive for a test
 * run: the docker seed image, the driver script, the rietveld issue branch
 * and the result directory name.
 *
 * The result name strips a prefix with a regular expression whose '.' does
 * not match a newline.  test.go anchors it ("^.*:"), so only the first line
 * loses its prefix; test-lily.py does not (".*:"), so every line does.
 */
module Naming {
  import opened Wrappers
  import opened Text

  /**
   * What a driver passes to docker for one platform: the seed image, the
   * script, the result name, the repository URL inside the container and the
   * branch to test.
   */
  datatype TestRun = TestRun(seedImage: string, driverScript: string, resultName: string, containerURL: string, branch: string)

  /** The seed image for a platform: lilypond-seed-<platform> in incremental mode, lilypond-base-<platform> otherwise. */
  function SeedImage(mode: string, platform: string): string {
    (if mode == "incremental" then "lilypond-seed-" else "lilypond-base-") + platform
  }

  /** The image kind is read off the prefix, and the platform closes the name. */
  lemma SeedImageNames(mode: string, platform: string)
    ensures StartsWith(SeedImage(mode, platform), "lilypond-seed-") <==> mode == "incremental"
    ensures StartsWith(SeedImage(mode, platform), "lilypond-base-") <==> mode != "incremental"
    ensures EndsWith(SeedImage(mode, platform), platform)
  {
    var s := SeedImage(mode, platform);
    assert s[9] == if mode == "incremental" then 's' else 'b';
    assert "lilypond-seed-"[9] == 's' && "lilypond-base-"[9] == 'b';
    assert s[|s| - |platform|..] == platform;
  }

  /** The driver script run inside the container: test-<mode>.sh. */
  function DriverScript(mode: string): (r: string)
    ensures |r| == |mode| + 8 && r[..5] == "test-" && r[|r| - 3..] == ".sh" && r[5..|r| - 3] == mode
  {
    "test-" + mode + ".sh"
  }

  /** Different modes run different scripts. */
  lemma DriverScriptInjective(a: string, b: string)
    requires DriverScript(a) == DriverScript(b)
    ensures a == b
  {
    var s := DriverScript(a);
    assert a == s[5..|s| - 3];
  }

  /** issue<change>_<patchset>, the branch a rietveld change is applied on. */
  function IssueName(change: string, patchset: int): string {
    "issue" + change + "_" + IntToString(patchset)
  }

  lemma {:induction false} NatToStringNoUnderscore(n: nat)
    ensures '_' !in NatToString(n) && '-' !in NatToString(n)
  {
    var s := NatToString(n);
    assert forall i | 0 <= i < |s| :: IsDigit(s[i]);
  }

  lemma IntToStringNoUnderscore(i: int)
    ensures '_' !in IntToString(i)
  {
    if i < 0 {
      NatToStringNoUnderscore(-i);
      assert IntToString(i) == "-" + NatToString(-i);
    } else {
      NatToStringNoUnderscore(i);
    }
  }

  /** %d prints only digits and a leading '-'. */
  lemma IntToStringDigits(i: int)
    ensures forall c | c in IntToString(i) :: IsDigit(c) || c == '-'
  {
    var s := IntToString(i);
    if i < 0 {
      assert s == "-" + NatToString(-i);
      assert forall j | 1 <= j < |s| :: s[j] == NatToString(-i)[j - 1];
    }
  }

  /**
   * The branch name of a numbered change determines the change and the
   * patchset: after "issue", splitting at '_' gives back the two numbers.
   */
  lemma IssueRoundTrip(change: int, patchset: int)
    requires Int64Min <= change <= Int64Max && Int64Min <= patchset <= Int64Max
    ensures var s := IssueName(IntToString(change), patchset);
      StartsWith(s, "issue") &&
      Split(s[5..], '_') == [IntToString(change), IntToString(patchset)] &&
      Atoi(Split(s[5..], '_')[0]) == Some(change) && Atoi(Split(s[5..], '_')[1]) == Some(patchset)
  {
    var a, b := IntToString(change), IntToString(patchset);
    var s := IssueName(a, patchset);
    IntToStringNoUnderscore(change);
    IntToStringNoUnderscore(patchset);
    assert Join([a, b], '_') == a + "_" + b by {
      assert Join([b], '_') == b;
    }
    assert s[5..] == a + "_" + b;
    SplitJoin([a, b], '_');
    AtoiIntToString(change);
    AtoiIntToString(patchset);
  }

  // ---------------------------------------------------------------------------
  // The result name

  /** The first newline at or after `from`, or the end of `s`. */
  function LineEnd(s: string, from: nat): (e: nat)
    requires from <= |s|
    ensures from <= e <= |s| && (e < |s| ==> s[e] == '\n')
    ensures forall j | from <= j < e :: s[j] != '\n'
    decreases |s| - from
  {
    if from == |s| || s[from] == '\n' then from else LineEnd(s, from + 1)
  }

  /** The last ':' before index `e`, if any. */
  function LastColon(s: string, e: nat): (c: Option<nat>)
    requires e <= |s|
    ensures c.Some? ==> c.value < e && s[c.value] == ':'
    ensures c.Some? ==> forall j | c.value < j < e :: s[j] != ':'
    ensures c.None? ==> forall j | 0 <= j < e :: s[j] != ':'
    decreases e
  {
    if e == 0 then None else if s[e - 1] == ':' then Some(e - 1) else LastColon(s, e - 1)
  }

  /** The line s[..e] without its prefix through the last ':'. */
  function StripLine(s: string, e: nat): string
    requires e <= |s|
  {
    match LastColon(s, e)
    case None => s[..e]
    case Some(c) => s[c + 1..e]
  }

  /** test.go's "^.*:" removal: the first line loses its prefix through its last ':'. */
  function GoStrip(s: string): (r: string)
    ensures |r| <= |s| && r == s[|s| - |r|..]
  {
    var e := LineEnd(s, 0);
    StripLine(s, e) + s[e..]
  }

  /** test-lily.py's ".*:" removal: every line loses its prefix through its last ':'. */
  function PyStrip(s: string): (r: string)
    ensures |r| <= |s|
    decreases |s|
  {
    var e := LineEnd(s, 0);
    if e == |s| then StripLine(s, e) else StripLine(s, e) + "\n" + PyStrip(s[e + 1..])
  }

  /** The characters the result name replaces with '-'. */
  const Separators: set<char> := {':', '/', ' '}

  /** test.go's result name for a URL and branch. */
  function ResultName(url: string, branch: string): (name: string)
    ensures ':' !in name && '/' !in name && ' ' !in name
  {
    ReplaceChars(GoStrip(url + "_" + branch), Separators, '-')
  }

  /** test-lily.py's result name for a URL and branch. */
  function ResultNamePy(url: string, branch: string): (name: string)
    ensures ':' !in name && '/' !in name && ' ' !in name
  {
    ReplaceChars(PyStrip(url + "_" + branch), Separators, '-')
  }

  /**
   * On one line the removal keeps exactly what follows the last ':', or the
   * whole line when it has none.
   */
  lemma GoStripOneLine(s: string)
    requires '\n' !in s
    ensures ':' !in s ==> GoStrip(s) == s
    ensures ':' in s ==> exists c | 0 <= c < |s| :: s[c] == ':' && GoStrip(s) == s[c + 1..]
    ensures ':' !in GoStrip(s)
    ensures EndsWith(s, GoStrip(s))
  {
    var e := LineEnd(s, 0);
    assert e == |s|;
    assert s[e..] == [];
    match LastColon(s, e)
    case None =>
      assert s[..e] == s;
    case Some(c) =>
      assert s[c + 1..] == s[c + 1..e] + s[e..];
  }

  /** On input without a newline the two drivers strip alike. */
  lemma StripsAgree(s: string)
    requires '\n' !in s
    ensures PyStrip(s) == GoStrip(s)
  {
    var e := LineEnd(s, 0);
    assert e == |s|;
    assert s[e..] == [];
  }

  /** So for a URL and branch without a newline both drivers file results under the same name. */
  lemma ResultNamesAgree(url: string, branch: string)
    requires '\n' !in url && '\n' !in branch
    ensures ResultName(url, branch) == ResultNamePy(url, branch)
  {
    StripsAgree(url + "_" + branch);
  }

  /** With a newline they part: test.go keeps a later line's prefix, which test-lily.py drops. */
  lemma ResultNamesDiffer()
    ensures ResultName("a\nb:c", "d") != ResultNamePy("a\nb:c", "d")
  {
    var s := "a\nb:c" + "_" + "d";
    assert LineEnd(s, 0) == 1;
    assert LastColon(s, 1) == None;
    assert |GoStrip(s)| == 7;
    var t := s[2..];
    assert LineEnd(t, 0) == 5;
    assert LastColon(t, 5) == Some(1);
    assert |PyStrip(t)| == 3;
    assert |PyStrip(s)| == 5;
  }
}

=== FILE: pairing.dfy ===
/**
 * Page pairing of cmd/compare: which directory entries are page images, the
 * name a page is filed under, and the table compareDir builds from the two
 * directory listings (one slot per side, a `.png` path preferred).
 *
 * A directory is given by its listing, the entry names in the order ReadDir
 * returns them.  Entry names hold no '/', so filepath.Base leaves them alone.
 */
module Pairing {
  import opened Wrappers
  import opened Text

  // ---------------------------------------------------------------------------
  // digitRE: -[0-9][0-9]*.(eps|png)$

  /**
   * The pattern occurs at the end of `s`: a '-', one or more digits, any one
   * character other than a newline (the '.' is not escaped), then "eps" or
   * "png" closing the name.
   */
  predicate DigitRE(s: string) {
    var k := |s| - 4;
    |s| >= 4 && (s[k + 1..] == "eps" || s[k + 1..] == "png") && s[k] != '\n' &&
    exists j | 0 <= j && j + 1 < k :: s[j] == '-' && AllDigits(s[j + 1..k])
  }

  /** strings.HasSuffix(p, ".png"), spelled out character by character. */
  predicate PngPath(p: string) {
    |p| >= 4 && p[|p| - 4] == '.' && ThreeLetters(p, |p| - 3, 'p', 'n', 'g')
  }

  lemma PngPathSuffix(p: string)
    ensures PngPath(p) <==> EndsWith(p, ".png")
  {
    if |p| >= 4 {
      assert EndsWith(p, ".png") ==> p[|p| - 4..][0] == '.' && p[|p| - 4..][1] == 'p' && p[|p| - 4..][2] == 'n' && p[|p| - 4..][3] == 'g';
    }
  }

  /** The start of the run of digits that ends just before index k. */
  function RunStart(s: string, k: nat): (m: nat)
    requires k <= |s|
    ensures m <= k
    decreases k
  {
    if k > 0 && IsDigit(s[k - 1]) then RunStart(s, k - 1) else k
  }

  /** The run RunStart finds is all digits and cannot be extended to the left. */
  lemma {:induction false} RunStartMeaning(s: string, k: nat)
    requires k <= |s|
    ensures AllDigits(s[RunStart(s, k)..k])
    ensures RunStart(s, k) == 0 || !IsDigit(s[RunStart(s, k) - 1])
    decreases k
  {
    if k > 0 && IsDigit(s[k - 1]) {
      RunStartMeaning(s, k - 1);
      var m := RunStart(s, k);
      assert s[m..k] == s[m..k - 1] + [s[k - 1]];
    }
  }

  /** A digit run ending at k and preceded by a non-digit starts where RunStart says. */
  lemma {:induction false} RunStartAt(s: string, j: nat, k: nat)
    requires j < k <= |s| && !IsDigit(s[j]) && AllDigits(s[j + 1..k])
    ensures RunStart(s, k) == j + 1
    decreases k
  {
    if k > j + 1 {
      assert IsDigit(s[j + 1..k][k - 1 - (j + 1)]);
      assert s[j + 1..k - 1] == s[j + 1..k][..k - 1 - (j + 1)];
      RunStartAt(s, j, k - 1);
    }
  }

  /**
   * digitRE.FindString(s) != "": the match, if any, is anchored at the end,
   * so the digits are the maximal run before the wildcard character.
   */
  function DigitREFinds(s: string): bool {
    if |s| < 4 then false
    else
      var k := |s| - 4;
      var m := RunStart(s, k);
      (ThreeLetters(s, k + 1, 'e', 'p', 's') || ThreeLetters(s, k + 1, 'p', 'n', 'g')) &&
      s[k] != '\n' && 1 <= m < k && s[m - 1] == '-'
  }

  /** s[i..i + 3] spells c0 c1 c2. */
  predicate ThreeLetters(s: string, i: nat, c0: char, c1: char, c2: char)
    requires i + 3 <= |s|
  {
    s[i] == c0 && s[i + 1] == c1 && s[i + 2] == c2
  }

  /** The backward scan finds the pattern exactly when it occurs at the end. */
  lemma DigitREFindsMatches(s: string)
    ensures DigitREFinds(s) <==> DigitRE(s)
  {
    if DigitRE(s) {
      var k := |s| - 4;
      var j :| 0 <= j && j + 1 < k && s[j] == '-' && AllDigits(s[j + 1..k]);
      RunStartAt(s, j, k);
    }
    if DigitREFinds(s) {
      RunStartMeaning(s, |s| - 4);
    }
  }

  /**
   * Every name ending in '-', one or more digits, any character but a newline
   * and "eps" or "png" is a page; the character need not be a dot, so
   * "x-12eps" is a page too.
   */
  lemma PageName(prefix: string, digits: string, c: char, ext: string)
    requires |digits| >= 1 && AllDigits(digits) && c != '\n'
    requires ext == "eps" || ext == "png"
    ensures DigitREFinds(prefix + "-" + digits + [c] + ext)
  {
    DigitREFindsMatches(prefix + "-" + digits + [c] + ext);
    var s := prefix + "-" + digits + [c] + ext;
    var k := |s| - 4;
    assert s[k + 1..] == ext;
    assert s[k] == c;
    assert s[|prefix|] == '-';
    assert s[|prefix| + 1..k] == digits;
  }

  /** Without a digit right before the wildcard character there is no page. */
  lemma NoDigitNoPage(s: string)
    requires |s| >= 5 && !IsDigit(s[|s| - 5])
    ensures !DigitREFinds(s)
  {
    DigitREFindsMatches(s);
    var k := |s| - 4;
    forall j | 0 <= j && j + 1 < k
      ensures s[j] != '-' || !AllDigits(s[j + 1..k])
    {
      assert s[j + 1..k][k - 1 - (j + 1)] == s[k - 1];
    }
  }

  // ---------------------------------------------------------------------------
  // filepath.Ext and the name a page is filed under

  /** filepath.Ext: the suffix of the last path element from its last '.', or "". */
  function Ext(path: string): string {
    ExtScan(path, |path|)
  }

  /** The scan of filepath.Ext, from index i down. */
  function ExtScan(path: string, i: nat): string
    requires i <= |path|
    decreases i
  {
    if i == 0 then ""
    else if path[i - 1] == '/' then ""
    else if path[i - 1] == '.' then path[i - 1..]
    else ExtScan(path, i - 1)
  }

  /**
   * What Ext returns: a suffix of the path that is empty exactly when the
   * last path element has no '.', and otherwise starts with that element's
   * last '.'.
   */
  lemma ExtMeaning(path: string)
    ensures Ext(path) == "" || (Ext(path)[0] == '.' && '.' !in Ext(path)[1..] && '/' !in Ext(path))
    ensures EndsWith(path, Ext(path))
    ensures Ext(path) == "" ==> forall j | 0 <= j < |path| :: path[j] == '.' ==> '/' in path[j + 1..]
  {
    ExtScanMeaning(path, |path|);
  }

  lemma {:induction false} ExtScanMeaning(path: string, i: nat)
    requires i <= |path|
    requires '.' !in path[i..] && '/' !in path[i..]
    ensures ExtScan(path, i) == "" || (ExtScan(path, i)[0] == '.' && '.' !in ExtScan(path, i)[1..] && '/' !in ExtScan(path, i))
    ensures EndsWith(path, ExtScan(path, i))
    ensures ExtScan(path, i) == "" ==> forall j | 0 <= j < |path| :: path[j] == '.' ==> '/' in path[j + 1..]
    decreases i
  {
    if i > 0 && path[i - 1] != '/' && path[i - 1] != '.' {
      assert path[i - 1..] == [path[i - 1]] + path[i..];
      ExtScanMeaning(path, i - 1);
    }
  }

  /** The name a page is filed under: the entry name without its extension. */
  function Stem(name: string): string {
    ExtMeaning(name);
    name[..|name| - |Ext(name)|]
  }

  /** The stem and the extension make up the name. */
  lemma StemExt(name: string)
    ensures Stem(name) + Ext(name) == name
  {
    ExtMeaning(name);
  }

  /** The stem of `base.ext` is `base`: "page-12.eps" and "page-12.png" are filed together. */
  lemma StemOfDotted(base: string, ext: string)
    requires '.' !in ext && '/' !in ext
    ensures Ext(base + "." + ext) == "." + ext
    ensures Stem(base + "." + ext) == base
  {
    var name := base + "." + ext;
    ExtMeaning(name);
    assert name[|base|] == '.' && name[|base| + 1..] == ext;
  }

  // ---------------------------------------------------------------------------
  // compareDir: the table of pages by name

  /** fileResult: a page, its distance, its input on each side, its diff output and its comparison error. */
  datatype FileResult = FileResult(name: string, dist: real, in0: string, in1: string, out: string, err: Option<string>)
  {
    /** In[i]. */
    function In(i: nat): string
      requires i < 2
    {
      if i == 0 then in0 else in1
    }

    /** This entry with In[i] replaced by `path`. */
    function WithIn(i: nat, path: string): (fr: FileResult)
      requires i < 2
      ensures fr.In(i) == path && fr.In(1 - i) == In(1 - i)
      ensures fr.name == name && fr.dist == dist && fr.out == out && fr.err == err
    {
      if i == 0 then this.(in0 := path) else this.(in1 := path)
    }
  }

  /** The entry compareDir creates for a name seen for the first time. */
  function NewEntry(name: string): FileResult {
    FileResult(name, 0.0, "", "", "", None)
  }

  /**
   * filepath.Join of a clean directory and an entry name: the name alone
   * under the empty directory and under ".", no doubled separator under the
   * root.
   */
  function JoinPath(dir: string, name: string): string {
    if dir == "" || dir == "." then name
    else if dir[|dir| - 1] == '/' then dir + name
    else dir + "/" + name
  }

  /**
   * A joined path ends with the entry name; under "." or the empty directory
   * it is the name, otherwise the directory and one separator come first.
   */
  lemma JoinPathEnds(dir: string, name: string)
    ensures EndsWith(JoinPath(dir, name), name)
    ensures dir == "" || dir == "." ==> JoinPath(dir, name) == name
    ensures dir != "" && dir != "." ==>
      JoinPath(dir, name) == dir + "/" + name || (dir[|dir| - 1] == '/' && JoinPath(dir, name) == dir + name)
  {
    var path := JoinPath(dir, name);
    assert path[|path| - |name|..] == name;
  }

  /** The current directory adds nothing: "." joined with "a-1.png" is "a-1.png". */
  lemma JoinPathCurrentDir()
    ensures JoinPath(".", "a-1.png") == "a-1.png" && JoinPath("out", "a-1.png") == "out/a-1.png"
  {
  }

  /** The '.png' test on a joined path is the test on the entry name. */
  lemma JoinPathPng(dir: string, name: string)
    requires |name| >= 4
    ensures PngPath(JoinPath(dir, name)) <==> PngPath(name)
  {
    var path := JoinPath(dir, name);
    JoinPathEnds(dir, name);
    assert path[|path| - |name|..] == name;
    var tail := path[|path| - |name|..];
    assert path[|path| - 4] == tail[|name| - 4] && path[|path| - 3] == tail[|name| - 3];
    assert path[|path| - 2] == tail[|name| - 2] && path[|path| - 1] == tail[|name| - 1];
  }

  /** The names of the pages among the first n entries of a listing. */
  function Stems(names: seq<string>, n: nat): set<string>
    requires n <= |names|
  {
    if n == 0 then {}
    else Stems(names, n - 1) + if DigitREFinds(names[n - 1]) then {Stem(names[n - 1])} else {}
  }

  /**
   * In[side] of the entry `key` after the first n entries of the listing of
   * `dir`: every page filed under `key` overwrites the slot unless it already
   * holds a path ending in ".png".
   */
  function Slot(dir: string, names: seq<string>, key: string, n: nat): string
    requires n <= |names|
  {
    if n == 0 then ""
    else
      var prev := Slot(dir, names, key, n - 1);
      var name := names[n - 1];
      if DigitREFinds(name) && Stem(name) == key && !PngPath(prev) then JoinPath(dir, name) else prev
  }

  /** A name no page of the first n entries is filed under has an empty slot. */
  lemma {:induction false} SlotOutsideStems(dir: string, names: seq<string>, key: string, n: nat)
    requires n <= |names| && key !in Stems(names, n)
    ensures Slot(dir, names, key, n) == ""
    decreases n
  {
    if n > 0 {
      SlotOutsideStems(dir, names, key, n - 1);
    }
  }

  /** The entry a table started from, or a new one. */
  function Base(table0: map<string, FileResult>, k: string): FileResult {
    if k in table0 then table0[k] else NewEntry(k)
  }

  /**
   * One entry of a listing: a page creates the entry under its stem when
   * there is none yet, and takes side `side` unless that already holds a
   * path ending in ".png"; any other name is skipped.
   */
  function Record(table: map<string, FileResult>, dir: string, side: nat, name: string): map<string, FileResult>
    requires side < 2
  {
    if !DigitREFinds(name) then table
    else
      var key := Stem(name);
      var fr := if key in table then table[key] else NewEntry(key);
      table[key := if PngPath(fr.In(side)) then fr else fr.WithIn(side, JoinPath(dir, name))]
  }

  /** The table after the first n entries of the listing of `dir`. */
  function Fill(table0: map<string, FileResult>, dir: string, names: seq<string>, side: nat, n: nat): map<string, FileResult>
    requires side < 2 && n <= |names|
  {
    if n == 0 then table0 else Record(Fill(table0, dir, names, side, n - 1), dir, side, names[n - 1])
  }

  /** The loop over one directory listing, filling side `side` of the table. */
  method Collect(dir: string, names: seq<string>, side: nat, table0: map<string, FileResult>)
    returns (table: map<string, FileResult>)
    requires side < 2
    ensures table == Fill(table0, dir, names, side, |names|)
  {
    table := table0;
    var j := 0;
    while j < |names|
      invariant 0 <= j <= |names|
      invariant table == Fill(table0, dir, names, side, j)
    {
      table := RecordEntry(table, dir, side, names[j]);
      j := j + 1;
    }
  }

  /** The body of the loop for one directory entry. */
  method RecordEntry(table: map<string, FileResult>, dir: string, side: nat, name: string)
    returns (next: map<string, FileResult>)
    requires side < 2
    ensures next == Record(table, dir, side, name)
  {
    next := table;
    if DigitREFinds(name) {
      var key := Stem(name);
      var fr := if key in table then table[key] else NewEntry(key);
      if !PngPath(fr.In(side)) {
        fr := fr.WithIn(side, JoinPath(dir, name));
      }
      next := table[key := fr];
    }
  }

  /** One entry adds at most the stem of a page to the names in the table. */
  lemma RecordKeys(table: map<string, FileResult>, dir: string, side: nat, name: string)
    requires side < 2
    ensures Record(table, dir, side, name).Keys == table.Keys + if DigitREFinds(name) then {Stem(name)} else {}
  {
  }

  /** The names in the table after n entries: those it started with and the stems of the pages. */
  lemma {:induction false} FillKeys(table0: map<string, FileResult>, dir: string, names: seq<string>, side: nat, n: nat)
    requires side < 2 && n <= |names|
    ensures Fill(table0, dir, names, side, n).Keys == table0.Keys + Stems(names, n)
    decreases n
  {
    if n > 0 {
      FillKeys(table0, dir, names, side, n - 1);
      RecordKeys(Fill(table0, dir, names, side, n - 1), dir, side, names[n - 1]);
    }
  }

  /**
   * What the loop leaves: an entry for the stem of every page and for every
   * name already there, each holding on side `side` the slot the listing
   * leaves, everything else as it was.
   */
  lemma {:induction false} FillMeaning(table0: map<string, FileResult>, dir: string, names: seq<string>, side: nat, n: nat)
    requires side < 2 && n <= |names|
    requires forall k | k in table0 :: table0[k].In(side) == ""
    ensures Fill(table0, dir, names, side, n).Keys == table0.Keys + Stems(names, n)
    ensures forall k | k in Fill(table0, dir, names, side, n) ::
      Fill(table0, dir, names, side, n)[k] == Base(table0, k).WithIn(side, Slot(dir, names, k, n))
    decreases n
  {
    FillKeys(table0, dir, names, side, n);
    if n > 0 {
      FillMeaning(table0, dir, names, side, n - 1);
      var t := Fill(table0, dir, names, side, n - 1);
      var name := names[n - 1];
      forall k | k in Fill(table0, dir, names, side, n)
        ensures Fill(table0, dir, names, side, n)[k] == Base(table0, k).WithIn(side, Slot(dir, names, k, n))
      {
        FillStepAt(table0, dir, names, side, n, k);
      }
    }
  }

  /** The entry under one name after entry n - 1 of the listing. */
  lemma FillStepAt(table0: map<string, FileResult>, dir: string, names: seq<string>, side: nat, n: nat, k: string)
    requires side < 2 && 0 < n <= |names|
    requires forall k | k in table0 :: table0[k].In(side) == ""
    requires Fill(table0, dir, names, side, n - 1).Keys == table0.Keys + Stems(names, n - 1)
    requires forall k | k in Fill(table0, dir, names, side, n - 1) ::
      Fill(table0, dir, names, side, n - 1)[k] == Base(table0, k).WithIn(side, Slot(dir, names, k, n - 1))
    requires k in Fill(table0, dir, names, side, n)
    ensures Fill(table0, dir, names, side, n)[k] == Base(table0, k).WithIn(side, Slot(dir, names, k, n))
  {
    var t := Fill(table0, dir, names, side, n - 1);
    var name := names[n - 1];
    assert Fill(table0, dir, names, side, n) == Record(t, dir, side, name);
    if DigitREFinds(name) && k == Stem(name) {
      if k !in t {
        assert k !in Stems(names, n - 1);
        SlotOutsideStems(dir, names, k, n - 1);
      }
      var prev := Slot(dir, names, k, n - 1);
      var fr := if k in t then t[k] else NewEntry(k);
      assert fr == Base(table0, k).WithIn(side, prev);
      assert fr.In(side) == prev;
      WithInTwice(Base(table0, k), side, prev, Slot(dir, names, k, n));
    } else {
      assert Slot(dir, names, k, n) == Slot(dir, names, k, n - 1);
    }
  }

  lemma WithInTwice(fr: FileResult, side: nat, a: string, b: string)
    requires side < 2
    ensures fr.WithIn(side, a).WithIn(side, b) == fr.WithIn(side, b)
  {
  }

  /**
   * compareDir on two directories: a ReadDir failure (a directory missing
   * from `listing`) ends it with that directory, the first one checked first;
   * otherwise every page of either side has an entry under its stem, holding
   * on each side the slot its listing leaves.
   */
  method CompareDirTable(in1: string, in2: string, listing: map<string, seq<string>>)
    returns (r: Result<map<string, FileResult>, string>)
    ensures r.Err? <==> in1 !in listing || in2 !in listing
    ensures r.Err? ==> r.error == if in1 !in listing then in1 else in2
    ensures r.Ok? ==> r.value.Keys == Stems(listing[in1], |listing[in1]|) + Stems(listing[in2], |listing[in2]|)
    ensures r.Ok? ==> forall k | k in r.value ::
      r.value[k] == FileResult(k, 0.0, Slot(in1, listing[in1], k, |listing[in1]|), Slot(in2, listing[in2], k, |listing[in2]|), "", None)
  {
    if in1 !in listing {
      return Err(in1);
    }
    var side0 := Collect(in1, listing[in1], 0, map[]);
    if in2 !in listing {
      return Err(in2);
    }
    FillMeaning(map[], in1, listing[in1], 0, |listing[in1]|);
    var names1, names2 := listing[in1], listing[in2];
    var table := Collect(in2, names2, 1, side0);
    FillMeaning(side0, in2, names2, 1, |names2|);
    forall k | k in table
      ensures table[k] == FileResult(k, 0.0, Slot(in1, names1, k, |names1|), Slot(in2, names2, k, |names2|), "", None)
    {
      if k !in side0 {
        SlotOutsideStems(in1, names1, k, |names1|);
      }
    }
    return Ok(table);
  }

  // ---------------------------------------------------------------------------
  // What a slot holds

  /** A name is in the table exactly when some page of the listing is filed under it. */
  lemma {:induction false} StemsMembers(names: seq<string>, n: nat, k: string)
    requires n <= |names|
    ensures k in Stems(names, n) <==> exists j | 0 <= j < n :: DigitREFinds(names[j]) && Stem(names[j]) == k
    decreases n
  {
    if n > 0 {
      StemsMembers(names, n - 1, k);
      if k in Stems(names, n) && k !in Stems(names, n - 1) {
        assert DigitREFinds(names[n - 1]) && Stem(names[n - 1]) == k;
      }
    }
  }

  /** Once a slot holds a path ending in ".png", later entries leave it alone. */
  lemma {:induction false} PngSticks(dir: string, names: seq<string>, k: string, n: nat, m: nat)
    requires n <= m <= |names| && PngPath(Slot(dir, names, k, n))
    ensures Slot(dir, names, k, m) == Slot(dir, names, k, n)
    decreases m
  {
    if m > n {
      PngSticks(dir, names, k, n, m - 1);
    }
  }

  /** A page whose file ends in ".png" and is filed under k. */
  predicate PngPage(name: string, k: string) {
    DigitREFinds(name) && Stem(name) == k && PngPath(name)
  }

  /** Without a ".png" page filed under k, the slot never holds a ".png" path. */
  lemma {:induction false} SlotNotPng(dir: string, names: seq<string>, k: string, n: nat)
    requires n <= |names|
    requires forall i | 0 <= i < n :: !PngPage(names[i], k)
    ensures !PngPath(Slot(dir, names, k, n))
    decreases n
  {
    if n > 0 {
      SlotNotPng(dir, names, k, n - 1);
      var name := names[n - 1];
      if DigitREFinds(name) && Stem(name) == k {
        assert !PngPage(name, k);
        JoinPathPng(dir, name);
      }
    }
  }

  /** The first ".png" page filed under k fills the slot for good. */
  lemma FirstPngWins(dir: string, names: seq<string>, k: string, n: nat, j: nat)
    requires j < n <= |names|
    requires PngPage(names[j], k)
    requires forall i | 0 <= i < j :: !PngPage(names[i], k)
    ensures Slot(dir, names, k, n) == JoinPath(dir, names[j])
  {
    SlotNotPng(dir, names, k, j);
    JoinPathPng(dir, names[j]);
    PngSticks(dir, names, k, j + 1, n);
  }

  /** Without a ".png" page filed under k, the last page filed under k fills the slot. */
  lemma {:induction false} LastPageWins(dir: string, names: seq<string>, k: string, n: nat, j: nat)
    requires j < n <= |names|
    requires forall i | 0 <= i < n :: !PngPage(names[i], k)
    requires DigitREFinds(names[j]) && Stem(names[j]) == k
    requires forall i | j < i < n :: !(DigitREFinds(names[i]) && Stem(names[i]) == k)
    ensures Slot(dir, names, k, n) == JoinPath(dir, names[j])
    decreases n
  {
    if n == j + 1 {
      SlotNotPng(dir, names, k, j);
    } else {
      LastPageWins(dir, names, k, n - 1, j);
    }
  }
}

=== FILE: pixels.dfy ===
/**
 * Per-channel colour differences of the page comparator (cmd/compare/main.go).
 * Channels are bytes; the Go code widens them to uint32 before squaring, and
 * the bounds below show that none of its arithmetic can wrap.
 */
module Pixels {
  type uint8 = x: int | 0 <= x < 0x100
  type uint64 = x: int | 0 <= x < 0x1_0000_0000_0000_0000

  /** color.RGBA: four 8-bit channels. */
  datatype Color = Color(r: uint8, g: uint8, b: uint8, a: uint8)

  /** The zero colour: what RGBAAt yields outside an image, and every fresh pixel. */
  const Zero: Color := Color(0, 0, 0, 0)

  /** Opaque white, the canvas the smaller page is laid on. */
  const White: Color := Color(0xff, 0xff, 0xff, 0xff)

  /** absdiff: the distance between two bytes. */
  function AbsDiff(a: uint8, b: uint8): (d: nat)
    ensures d <= 0xff
    ensures d == 0 <==> a == b
    ensures a + d == b || b + d == a
  {
    if a > b then a - b else b - a
  }

  lemma AbsDiffSymmetric(a: uint8, b: uint8)
    ensures AbsDiff(a, b) == AbsDiff(b, a)
  {
  }

  /** sqDiffUInt8: the squared distance of two bytes, and the distance itself. */
  function SqDiffUInt8(x: uint8, y: uint8): (r: (nat, nat))
    ensures r.1 == AbsDiff(x, y)
    ensures r.0 == r.1 * r.1 && r.0 <= 0xff * 0xff
    ensures r.0 == 0 <==> x == y
  {
    var d := AbsDiff(x, y);
    SquareOfByte(d);
    (d * d, d)
  }

  lemma SquareOfByte(d: nat)
    requires d <= 0xff
    ensures d * d <= 0xff * 0xff
    ensures d * d == 0 <==> d == 0
  {
    var e: nat := 0xff - d;
    assert 0xff * 0xff == d * d + 2 * d * e + e * e;
  }

  /**
   * sqDiffRGBA: the sum of the squared red, green and blue distances, and the
   * truncated mean of the three distances; alpha takes no part.
   */
  function SqDiffRGBA(p: Color, q: Color): (r: (uint64, uint8))
    ensures r.0 <= 3 * 0xff * 0xff
    ensures r.0 == 0 <==> p.r == q.r && p.g == q.g && p.b == q.b
  {
    var r := AbsDiff(p.r, q.r);
    var g := AbsDiff(p.g, q.g);
    var b := AbsDiff(p.b, q.b);
    SumOfSquaresOfBytes(r, g, b);
    (r * r + g * g + b * b, (r + g + b) / 3)
  }

  lemma SumOfSquaresOfBytes(r: nat, g: nat, b: nat)
    requires r <= 0xff && g <= 0xff && b <= 0xff
    ensures r * r + g * g + b * b <= 3 * 0xff * 0xff
    ensures r * r + g * g + b * b == 0 <==> r == 0 && g == 0 && b == 0
  {
    SquareOfByte(r);
    SquareOfByte(g);
    SquareOfByte(b);
  }

  /**
   * What sqDiffRGBA computes: the squared error is the sum of the channels'
   * sqDiffUInt8 and cannot wrap a uint32; it is zero exactly when red, green
   * and blue agree; the second result is the floor of the mean distance, and a
   * positive mean implies a positive squared error.
   */
  lemma SqDiffRGBAMeaning(p: Color, q: Color)
    ensures SqDiffRGBA(p, q).0 == SqDiffUInt8(p.r, q.r).0 + SqDiffUInt8(p.g, q.g).0 + SqDiffUInt8(p.b, q.b).0
    ensures SqDiffRGBA(p, q).0 <= 3 * 0xff * 0xff < 0x1_0000_0000
    ensures SqDiffRGBA(p, q).0 == 0 <==> p.r == q.r && p.g == q.g && p.b == q.b
    ensures 3 * SqDiffRGBA(p, q).1 <= AbsDiff(p.r, q.r) + AbsDiff(p.g, q.g) + AbsDiff(p.b, q.b) < 3 * SqDiffRGBA(p, q).1 + 3
    ensures SqDiffRGBA(p, q).1 > 0 ==> SqDiffRGBA(p, q).0 > 0
  {
    SumOfSquaresOfBytes(AbsDiff(p.r, q.r), AbsDiff(p.g, q.g), AbsDiff(p.b, q.b));
  }

  /** Alpha never changes either result. */
  lemma SqDiffRGBAIgnoresAlpha(p: Color, q: Color, pa: uint8, qa: uint8)
    ensures SqDiffRGBA(p.(a := pa), q.(a := qa)) == SqDiffRGBA(p, q)
  {
  }

  /** Both results are symmetric in the two colours. */
  lemma SqDiffRGBASymmetric(p: Color, q: Color)
    ensures SqDiffRGBA(p, q) == SqDiffRGBA(q, p)
  {
  }

  /**
   * A colour pair can carry squared error while its mean distance truncates to
   * zero: total channel distance 1 or 2.
   */
  lemma ErrorWithoutMark(p: Color, q: Color)
    requires 1 <= AbsDiff(p.r, q.r) + AbsDiff(p.g, q.g) + AbsDiff(p.b, q.b) <= 2
    ensures SqDiffRGBA(p, q).0 > 0 && SqDiffRGBA(p, q).1 == 0
  {
    SqDiffRGBAMeaning(p, q);
  }

  /** Black against white is the largest difference there is. */
  lemma ZeroAgainstWhite(p: Color)
    requires p.r == 0 && p.g == 0 && p.b == 0
    ensures SqDiffRGBA(p, White) == (3 * 0xff * 0xff, 0xff)
  {
  }
}

=== FILE: ranking.dfy ===
/**
 * The ranking step of Trim in cmd/compare/main.go: the compared pages sorted
 * by distance, largest first, then cut at the first page with distance 0 or
 * once the index passes `max`.
 */
module Ranking {
  import opened Pairing

  /** Largest distance first. */
  ghost predicate SortedDesc(s: seq<FileResult>) {
    forall i, j | 0 <= i < j < |s| :: s[i].dist >= s[j].dist
  }

  /**
   * sort.Slice by Dist, descending: a permutation of the input in which no
   * page comes before one with a larger distance.  sort.Slice is not stable,
   * so pages of equal distance may come out in any order.
   */
  method SortByDist(s: seq<FileResult>) returns (t: seq<FileResult>)
    ensures multiset(t) == multiset(s)
    ensures SortedDesc(t)
  {
    t := [];
    var i := 0;
    while i < |s|
      invariant 0 <= i <= |s|
      invariant multiset(t) == multiset(s[..i])
      invariant SortedDesc(t)
    {
      t := InsertByDist(t, s[i]);
      assert s[..i + 1] == s[..i] + [s[i]];
      i := i + 1;
    }
    assert s[..|s|] == s;
  }

  /** Inserts `x` after every page whose distance is at least its own. */
  method InsertByDist(t: seq<FileResult>, x: FileResult) returns (u: seq<FileResult>)
    requires SortedDesc(t)
    ensures multiset(u) == multiset(t) + multiset{x}
    ensures SortedDesc(u)
  {
    var k := 0;
    while k < |t| && t[k].dist >= x.dist
      invariant 0 <= k <= |t|
      invariant forall j | 0 <= j < k :: t[j].dist >= x.dist
    {
      k := k + 1;
    }
    u := t[..k] + [x] + t[k..];
    assert t == t[..k] + t[k..];
    InsertSorted(t, k, x);
  }

  /** Placing `x` after exactly the pages at least as distant keeps the list sorted. */
  lemma InsertSorted(t: seq<FileResult>, k: nat, x: FileResult)
    requires SortedDesc(t) && k <= |t|
    requires forall j | 0 <= j < k :: t[j].dist >= x.dist
    requires k < |t| ==> x.dist > t[k].dist
    ensures SortedDesc(t[..k] + [x] + t[k..])
  {
    var u := t[..k] + [x] + t[k..];
    assert forall i | 0 <= i < |u| :: u[i] == if i < k then t[i] else if i == k then x else t[i - 1];
    forall i, j | 0 <= i < j < |u|
      ensures u[i].dist >= u[j].dist
    {
      if j > k && k < |t| {
        assert t[k].dist >= t[j - 1].dist;
      }
    }
  }

  /**
   * The cut of Trim: the first index whose page has distance 0, or the
   * first index past `max` when `max` is positive, or the whole list.
   */
  method Cut(sorted: seq<FileResult>, max: int) returns (kept: seq<FileResult>)
    ensures kept <= sorted
    ensures forall i | 0 <= i < |kept| :: kept[i].dist != 0.0
    ensures max > 0 ==> |kept| <= max + 1
    ensures |kept| < |sorted| ==> sorted[|kept|].dist == 0.0 || (max > 0 && |kept| == max + 1)
  {
    kept := sorted;
    var i := 0;
    while i < |sorted|
      invariant 0 <= i <= |sorted|
      invariant forall j | 0 <= j < i :: sorted[j].dist != 0.0
      invariant max > 0 ==> i <= max + 1
    {
      if sorted[i].dist == 0.0 || (max > 0 && i > max) {
        kept := sorted[..i];
        return;
      }
      i := i + 1;
    }
  }

  /**
   * Of a sorted list the cut keeps the pages with the largest distances: a
   * positive-distance page is dropped only when `max` is positive and
   * max + 1 pages at least as distant were kept.
   */
  lemma CutKeepsTop(sorted: seq<FileResult>, max: int, kept: seq<FileResult>, j: nat)
    requires SortedDesc(sorted)
    requires kept <= sorted
    requires |kept| < |sorted| ==> sorted[|kept|].dist == 0.0 || (max > 0 && |kept| == max + 1)
    requires |kept| <= j < |sorted| && sorted[j].dist > 0.0
    ensures max > 0 && |kept| == max + 1
    ensures forall i | 0 <= i < |kept| :: kept[i].dist >= sorted[j].dist
  {
    assert sorted[|kept|].dist >= sorted[j].dist;
    forall i | 0 <= i < |kept|
      ensures kept[i].dist >= sorted[j].dist
    {
      assert kept[i] == sorted[i];
    }
  }
}

=== FILE: scheduler.dfy ===
/**
 * compareResult of cmd/compare/main.go: the table of pages by name that
 * compareDir builds, then renderPNG (EPS inputs converted to PNG under the
 * output directory, one side after the other), comparePNG (every page with
 * both sides compared, its diff image named after it) and Trim (the pages
 * ranked by distance, largest first).
 *
 * The goroutine pools run their jobs one after another here, and a range
 * over a map visits its keys in an order the model leaves open.
 */
module Scheduler {
  import opened Wrappers
  import opened Text
  import opened Pairing
  import Eps
  import Ranking

  // ---------------------------------------------------------------------------
  // renderPNG

  /** strings.HasSuffix(p, ".eps"), spelled out character by character. */
  predicate EpsPath(p: string) {
    |p| >= 4 && p[|p| - 4] == '.' && ThreeLetters(p, |p| - 3, 'e', 'p', 's')
  }

  lemma EpsPathSuffix(p: string)
    ensures EpsPath(p) <==> EndsWith(p, ".eps")
  {
    if |p| >= 4 {
      assert EndsWith(p, ".eps") ==> p[|p| - 4..][0] == '.' && p[|p| - 4..][1] == 'e' && p[|p| - 4..][2] == 'p' && p[|p| - 4..][3] == 's';
    }
  }

  /** The PNG renderPNG writes for side `i` of a page: <outDir>/<name>.<i>.png. */
  function RenderName(outDir: string, name: string, i: nat): string {
    JoinPath(outDir, name + "." + NatToString(i) + ".png")
  }

  /** A path joined from a name ending in ".png" is a PNG path, so never an EPS path. */
  lemma JoinPngIsPng(dir: string, stem: string)
    ensures PngPath(JoinPath(dir, stem + ".png")) && !EpsPath(JoinPath(dir, stem + ".png"))
  {
    var tail := stem + ".png";
    var p := JoinPath(dir, tail);
    JoinPathEnds(dir, tail);
    assert p[|p| - |tail|..] == tail;
    assert p[|p| - 4] == tail[|tail| - 4] == '.';
    assert p[|p| - 3] == tail[|tail| - 3] == 'p';
    assert p[|p| - 2] == tail[|tail| - 2] == 'n';
    assert p[|p| - 1] == tail[|tail| - 1] == 'g';
  }

  /** The rendered name is a PNG path. */
  lemma RenderNameIsPng(outDir: string, name: string, i: nat)
    ensures PngPath(RenderName(outDir, name, i)) && !EpsPath(RenderName(outDir, name, i))
  {
    JoinPngIsPng(outDir, name + "." + NatToString(i));
  }

  /** One entry after side `i` is rendered: an EPS input is replaced by its PNG name. */
  function Rendered(fr: FileResult, outDir: string, i: nat): FileResult
    requires i < 2
  {
    if EpsPath(fr.In(i)) then fr.WithIn(i, RenderName(outDir, fr.name, i)) else fr
  }

  /** The table after side `i` is rendered. */
  function RenamedSide(byName: map<string, FileResult>, outDir: string, i: nat): map<string, FileResult>
    requires i < 2
  {
    map k | k in byName :: Rendered(byName[k], outDir, i)
  }

  /** The table after the first `n` sides are rendered. */
  function RenamedUpTo(byName: map<string, FileResult>, outDir: string, n: nat): map<string, FileResult>
    requires n <= 2
  {
    if n == 0 then byName else RenamedSide(RenamedUpTo(byName, outDir, n - 1), outDir, n - 1)
  }

  /**
   * fnMap of side `i`: its keys are exactly the EPS inputs of that side, and
   * each maps to the PNG name of a page that has it as input.
   */
  ghost predicate FnMapOf(fnMap: map<string, string>, byName: map<string, FileResult>, outDir: string, i: nat)
    requires i < 2
  {
    (forall k | k in byName && EpsPath(byName[k].In(i)) :: byName[k].In(i) in fnMap) &&
    (forall p | p in fnMap :: exists k | k in byName ::
       byName[k].In(i) == p && EpsPath(p) && fnMap[p] == RenderName(outDir, byName[k].name, i))
  }

  /**
   * The renaming loop of renderPNG for side `i`: every EPS input of that side
   * is replaced by its PNG name and recorded in the conversion map.
   */
  method RenameSide(byName: map<string, FileResult>, outDir: string, i: nat)
    returns (renamed: map<string, FileResult>, fnMap: map<string, string>)
    requires i < 2
    ensures renamed == RenamedSide(byName, outDir, i)
    ensures FnMapOf(fnMap, byName, outDir, i)
  {
    renamed := byName;
    fnMap := map[];
    ghost var owner: map<string, string> := map[];
    var todo := byName.Keys;
    while todo != {}
      invariant Renaming(byName, outDir, i, todo, renamed, fnMap, owner)
      decreases todo
    {
      todo, renamed, fnMap, owner := RenameOne(byName, outDir, i, todo, renamed, fnMap, owner);
    }
    RenamingDone(byName, outDir, i, renamed, fnMap, owner);
  }

  /**
   * The state of the renaming loop: the entries of the keys still `todo`
   * are untouched, the others are rendered, and every recorded EPS input has
   * an `owner` whose entry it is the input of.
   */
  ghost predicate Renaming(byName: map<string, FileResult>, outDir: string, i: nat, todo: set<string>,
                           renamed: map<string, FileResult>, fnMap: map<string, string>, owner: map<string, string>)
    requires i < 2
  {
    todo <= byName.Keys && renamed.Keys == byName.Keys &&
    (forall k | k in renamed :: renamed[k] == if k in todo then byName[k] else Rendered(byName[k], outDir, i)) &&
    owner.Keys == fnMap.Keys &&
    (forall p | p in fnMap ::
      (owner[p] in byName && byName[owner[p]].In(i) == p && EpsPath(p) && fnMap[p] == RenderName(outDir, byName[owner[p]].name, i))) &&
    (forall k | k in byName && k !in todo && EpsPath(byName[k].In(i)) :: byName[k].In(i) in fnMap)
  }

  /** One turn of the renaming loop: some key still to do is renamed when its input is EPS. */
  method RenameOne(byName: map<string, FileResult>, outDir: string, i: nat, todo: set<string>,
                   renamed: map<string, FileResult>, fnMap: map<string, string>, ghost owner: map<string, string>)
    returns (todo': set<string>, renamed': map<string, FileResult>, fnMap': map<string, string>, ghost owner': map<string, string>)
    requires i < 2 && todo != {} && Renaming(byName, outDir, i, todo, renamed, fnMap, owner)
    ensures todo' < todo && Renaming(byName, outDir, i, todo', renamed', fnMap', owner')
  {
    var k :| k in todo;
    var v := renamed[k];
    renamed', fnMap', owner' := renamed, fnMap, owner;
    if EpsPath(v.In(i)) {
      var newname := RenderName(outDir, v.name, i);
      fnMap' := fnMap[v.In(i) := newname];
      owner' := owner[v.In(i) := k];
      renamed' := renamed[k := v.WithIn(i, newname)];
    }
    todo' := todo - {k};
  }

  /** When nothing is left to do, the table is the rendered side and the map is that side's conversion map. */
  lemma RenamingDone(byName: map<string, FileResult>, outDir: string, i: nat,
                     renamed: map<string, FileResult>, fnMap: map<string, string>, owner: map<string, string>)
    requires i < 2 && Renaming(byName, outDir, i, {}, renamed, fnMap, owner)
    ensures renamed == RenamedSide(byName, outDir, i)
    ensures FnMapOf(fnMap, byName, outDir, i)
  {
    forall p | p in fnMap
      ensures exists k | k in byName :: byName[k].In(i) == p && EpsPath(p) && fnMap[p] == RenderName(outDir, byName[k].name, i)
    {
      var k := owner[p];
      assert byName[k].In(i) == p;
    }
  }

  /**
   * After both sides are rendered no input is an EPS path any more; an input
   * that was one is now <outDir>/<name>.<side>.png, every other input is as
   * compareDir left it, and nothing else in the entry changes.
   */
  lemma RenderedBothSides(byName: map<string, FileResult>, outDir: string, k: string, i: nat)
    requires k in byName && i < 2
    ensures k in RenamedUpTo(byName, outDir, 2)
    ensures var fr := RenamedUpTo(byName, outDir, 2)[k];
      !EpsPath(fr.In(i)) &&
      fr.In(i) == (if EpsPath(byName[k].In(i)) then RenderName(outDir, byName[k].name, i) else byName[k].In(i)) &&
      fr.name == byName[k].name && fr.dist == byName[k].dist && fr.out == byName[k].out && fr.err == byName[k].err
  {
    assert RenamedUpTo(byName, outDir, 0) == byName;
    var mid := RenamedUpTo(byName, outDir, 1);
    assert mid == RenamedSide(byName, outDir, 0);
    RenamedSideAt(byName, outDir, 0, k);
    assert RenamedUpTo(byName, outDir, 2) == RenamedSide(mid, outDir, 1);
    RenamedSideAt(mid, outDir, 1, k);
    RenderedTwice(byName[k], outDir, i);
  }

  /** One entry through both sides: side `i`'s input is rendered once, and the other side's pass leaves it alone. */
  lemma RenderedTwice(a: FileResult, outDir: string, i: nat)
    requires i < 2
    ensures var c := Rendered(Rendered(a, outDir, 0), outDir, 1);
      !EpsPath(c.In(i)) &&
      c.In(i) == (if EpsPath(a.In(i)) then RenderName(outDir, a.name, i) else a.In(i)) &&
      c.name == a.name && c.dist == a.dist && c.out == a.out && c.err == a.err
  {
    var b := Rendered(a, outDir, 0);
    RenderedOnce(a, outDir, 0);
    RenderedOnce(b, outDir, 1);
    var c := Rendered(b, outDir, 1);
    if i == 0 {
      assert c.In(0) == b.In(0);
    } else {
      assert b.In(1) == a.In(1) && b.name == a.name;
    }
  }

  /** Rendering side `i` of one entry: that input is no EPS path afterwards, and nothing else changes. */
  lemma RenderedOnce(fr: FileResult, outDir: string, i: nat)
    requires i < 2
    ensures var r := Rendered(fr, outDir, i);
      !EpsPath(r.In(i)) &&
      r.In(i) == (if EpsPath(fr.In(i)) then RenderName(outDir, fr.name, i) else fr.In(i)) &&
      r.In(1 - i) == fr.In(1 - i) &&
      r.name == fr.name && r.dist == fr.dist && r.out == fr.out && r.err == fr.err
  {
    if EpsPath(fr.In(i)) {
      RenderNameIsPng(outDir, fr.name, i);
    }
  }

  /** The entry of `k` after side `i` is rendered. */
  lemma RenamedSideAt(byName: map<string, FileResult>, outDir: string, i: nat, k: string)
    requires k in byName && i < 2
    ensures k in RenamedSide(byName, outDir, i) && RenamedSide(byName, outDir, i)[k] == Rendered(byName[k], outDir, i)
  {
  }

  /** One side of renderPNG: rename its EPS inputs, then convert them with `ncpu` workers. */
  method RenderSide(byName: map<string, FileResult>, outDir: string, i: nat, ncpu: nat, convert: map<string, string> -> Option<string>)
    returns (renamed: map<string, FileResult>, err: Option<string>, ghost fnMap: map<string, string>, ghost parts: seq<map<string, string>>)
    requires i < 2 && ncpu > 0
    ensures renamed == RenamedSide(byName, outDir, i)
    ensures FnMapOf(fnMap, byName, outDir, i) && Eps.Chunked(fnMap, parts, ncpu)
    ensures err.None? <==> Eps.AllConverted(parts, convert)
    ensures err.Some? ==> Eps.Failed(parts, convert, err.value)
  {
    var m;
    renamed, m := RenameSide(byName, outDir, i);
    var e;
    parts, e := Eps.ConvertParallel(m, ncpu, convert);
    fnMap, err := m, e;
  }

  /**
   * Side `s` of every recorded side had its conversion map built from the
   * table as the earlier sides left it, and chunked for `ncpu` workers.
   */
  ghost predicate SidesDone(byName0: map<string, FileResult>, outDir: string, ncpu: nat,
                            fnMaps: seq<map<string, string>>, chunks: seq<seq<map<string, string>>>) {
    |fnMaps| <= 2 && |chunks| == |fnMaps| &&
    forall s | 0 <= s < |fnMaps| ::
      FnMapOf(fnMaps[s], RenamedUpTo(byName0, outDir, s), outDir, s) && Eps.Chunked(fnMaps[s], chunks[s], ncpu)
  }

  /** Recording one more side keeps SidesDone. */
  lemma SidesDoneStep(byName0: map<string, FileResult>, outDir: string, ncpu: nat,
                      fnMaps: seq<map<string, string>>, chunks: seq<seq<map<string, string>>>,
                      fnMap: map<string, string>, parts: seq<map<string, string>>)
    requires SidesDone(byName0, outDir, ncpu, fnMaps, chunks) && |fnMaps| < 2
    requires FnMapOf(fnMap, RenamedUpTo(byName0, outDir, |fnMaps|), outDir, |fnMaps|) && Eps.Chunked(fnMap, parts, ncpu)
    ensures SidesDone(byName0, outDir, ncpu, fnMaps + [fnMap], chunks + [parts])
  {
    var fs, cs := fnMaps + [fnMap], chunks + [parts];
    forall s | 0 <= s < |fs|
      ensures FnMapOf(fs[s], RenamedUpTo(byName0, outDir, s), outDir, s) && Eps.Chunked(fs[s], cs[s], ncpu)
    {
      if s < |fnMaps| {
        assert fs[s] == fnMaps[s] && cs[s] == chunks[s];
      }
    }
  }

  /**
   * The side loop of renderPNG on the table: side 0 and then side 1, each
   * renamed and converted; a failed conversion stops it.
   */
  method RenderSides(byName0: map<string, FileResult>, outDir: string, ncpu: nat, convert: map<string, string> -> Option<string>)
    returns (byName: map<string, FileResult>, err: Option<string>, ghost fnMaps: seq<map<string, string>>, ghost chunks: seq<seq<map<string, string>>>)
    requires ncpu > 0
    ensures 1 <= |fnMaps| <= 2 && |chunks| == |fnMaps|
    ensures byName == RenamedUpTo(byName0, outDir, |fnMaps|)
    ensures SidesDone(byName0, outDir, ncpu, fnMaps, chunks)
    ensures forall s | 0 <= s < |fnMaps| - 1 :: Eps.AllConverted(chunks[s], convert)
    ensures err.None? <==> |fnMaps| == 2 && Eps.AllConverted(chunks[1], convert)
    ensures err.Some? ==> Eps.Failed(chunks[|chunks| - 1], convert, err.value)
  {
    byName := byName0;
    fnMaps, chunks := [], [];
    var i := 0;
    while i < 2
      invariant 0 <= i <= 2 && |fnMaps| == |chunks| == i
      invariant byName == RenamedUpTo(byName0, outDir, i)
      invariant SidesDone(byName0, outDir, ncpu, fnMaps, chunks)
      invariant forall s | 0 <= s < i :: Eps.AllConverted(chunks[s], convert)
    {
      var renamed, e, fnMap, parts := RenderNext(byName0, byName, outDir, i, ncpu, convert, fnMaps, chunks);
      EarlierSidesConverted(chunks, parts, convert);
      byName := renamed;
      fnMaps, chunks := fnMaps + [fnMap], chunks + [parts];
      if e.Some? {
        return byName, e, fnMaps, chunks;
      }
      i := i + 1;
    }
    return byName, None, fnMaps, chunks;
  }

  /** Recording side `parts` after sides that all converted keeps them converted. */
  lemma EarlierSidesConverted(chunks: seq<seq<map<string, string>>>, parts: seq<map<string, string>>,
                              convert: map<string, string> -> Option<string>)
    requires forall s | 0 <= s < |chunks| :: Eps.AllConverted(chunks[s], convert)
    ensures (chunks + [parts])[|chunks|] == parts
    ensures forall s | 0 <= s < |chunks| :: Eps.AllConverted((chunks + [parts])[s], convert)
  {
  }

  /** Side `i` of the side loop, with the sides before it done. */
  method RenderNext(byName0: map<string, FileResult>, byName: map<string, FileResult>, outDir: string, i: nat, ncpu: nat,
                    convert: map<string, string> -> Option<string>, ghost fnMaps: seq<map<string, string>>, ghost chunks: seq<seq<map<string, string>>>)
    returns (renamed: map<string, FileResult>, err: Option<string>, ghost fnMap: map<string, string>, ghost parts: seq<map<string, string>>)
    requires i < 2 && ncpu > 0 && |fnMaps| == i
    requires byName == RenamedUpTo(byName0, outDir, i) && SidesDone(byName0, outDir, ncpu, fnMaps, chunks)
    ensures renamed == RenamedUpTo(byName0, outDir, i + 1)
    ensures SidesDone(byName0, outDir, ncpu, fnMaps + [fnMap], chunks + [parts])
    ensures err.None? <==> Eps.AllConverted(parts, convert)
    ensures err.Some? ==> Eps.Failed(parts, convert, err.value)
  {
    renamed, err, fnMap, parts := RenderSide(byName, outDir, i, ncpu, convert);
    SidesDoneStep(byName0, outDir, ncpu, fnMaps, chunks, fnMap, parts);
  }

  /** No input of the table, on either side, is an EPS file. */
  ghost predicate NoEps(byName: map<string, FileResult>) {
    forall k | k in byName :: !EpsPath(byName[k].in0) && !EpsPath(byName[k].in1)
  }

  /**
   * A side without EPS inputs has nothing to convert: its conversion map is
   * empty, so every worker gets an empty chunk, for which convertEPS reports
   * no error.
   */
  lemma NothingToConvert(fnMap: map<string, string>, byName: map<string, FileResult>, outDir: string, i: nat,
                         parts: seq<map<string, string>>, ncpu: nat, convert: map<string, string> -> Option<string>)
    requires i < 2 && FnMapOf(fnMap, byName, outDir, i) && Eps.Chunked(fnMap, parts, ncpu)
    requires forall k | k in byName :: !EpsPath(byName[k].In(i))
    ensures fnMap == map[] && Eps.AllConverted(parts, convert)
  {
    assert forall p | p in fnMap :: false;
    Eps.NothingToConvertNoError(fnMap, parts, ncpu, convert);
  }

  /**
   * renderPNG on a table with no EPS input, as a PNG-only comparison has:
   * neither side renames anything and no conversion fails.
   */
  lemma NothingToRender(byName0: map<string, FileResult>, outDir: string, ncpu: nat,
                        fnMaps: seq<map<string, string>>, chunks: seq<seq<map<string, string>>>,
                        convert: map<string, string> -> Option<string>)
    requires NoEps(byName0)
    requires SidesDone(byName0, outDir, ncpu, fnMaps, chunks)
    ensures RenamedUpTo(byName0, outDir, 1) == byName0 && RenamedUpTo(byName0, outDir, 2) == byName0
    ensures forall s | 0 <= s < |fnMaps| :: Eps.AllConverted(chunks[s], convert)
  {
    NoEpsUnrenamed(byName0, outDir, 0);
    assert RenamedUpTo(byName0, outDir, 1) == byName0;
    NoEpsUnrenamed(byName0, outDir, 1);
    assert RenamedUpTo(byName0, outDir, 2) == byName0;
    forall s | 0 <= s < |fnMaps|
      ensures Eps.AllConverted(chunks[s], convert)
    {
      assert RenamedUpTo(byName0, outDir, s) == byName0;
      NothingToConvert(fnMaps[s], byName0, outDir, s, chunks[s], ncpu, convert);
    }
  }

  /** Rendering a side of a table without EPS inputs leaves it as it is. */
  lemma NoEpsUnrenamed(byName: map<string, FileResult>, outDir: string, i: nat)
    requires i < 2 && NoEps(byName)
    ensures RenamedSide(byName, outDir, i) == byName
  {
    forall k | k in byName
      ensures Rendered(byName[k], outDir, i) == byName[k]
    {
      assert !EpsPath(byName[k].In(i));
    }
  }

  // ---------------------------------------------------------------------------
  // comparePNG

  /** What compareOne leaves behind: the distance when it set one, and its error. */
  datatype Outcome = Outcome(dist: Option<real>, err: Option<string>)

  /** The diff image comparePNG names for a page: <outDir>/<name>.diff.png. */
  function DiffName(outDir: string, name: string): string {
    JoinPath(outDir, name + ".diff.png")
  }

  /** The diff image is a PNG path, so renderPNG would never take it for an EPS input. */
  lemma DiffNameIsPng(outDir: string, name: string)
    ensures PngPath(DiffName(outDir, name)) && !EpsPath(DiffName(outDir, name))
  {
    JoinPngIsPng(outDir, name + ".diff");
    assert name + ".diff" + ".png" == name + ".diff.png";
  }

  /** A page is scheduled for comparison when it has an input on both sides. */
  predicate Scheduled(fr: FileResult) {
    fr.in0 != "" && fr.in1 != ""
  }

  /**
   * One entry after comparePNG: a scheduled page gets its diff name, then
   * compareOne on its two inputs sets its error and, when it got that far,
   * its distance; an unscheduled page is left alone.
   */
  function Compared(fr: FileResult, outDir: string, compare: (string, string, string) -> Outcome): FileResult {
    if Scheduled(fr) then
      var out := DiffName(outDir, fr.name);
      var o := compare(fr.in0, fr.in1, out);
      fr.(out := out, dist := if o.dist.Some? then o.dist.value else fr.dist, err := o.err)
    else fr
  }

  function ComparedAll(byName: map<string, FileResult>, outDir: string, compare: (string, string, string) -> Outcome): map<string, FileResult> {
    map k | k in byName :: Compared(byName[k], outDir, compare)
  }

  /** The scheduling loop and the workers, one page at a time. */
  method CompareAll(byName: map<string, FileResult>, outDir: string, compare: (string, string, string) -> Outcome)
    returns (compared: map<string, FileResult>)
    ensures compared == ComparedAll(byName, outDir, compare)
  {
    compared := byName;
    var todo := byName.Keys;
    while todo != {}
      invariant todo <= byName.Keys && compared.Keys == byName.Keys
      invariant forall k | k in compared :: compared[k] == if k in todo then byName[k] else Compared(byName[k], outDir, compare)
      decreases todo
    {
      var k :| k in todo;
      var v := compared[k];
      if v.in0 != "" && v.in1 != "" {
        var out := DiffName(outDir, v.name);
        var o := compare(v.in0, v.in1, out);
        compared := compared[k := v.(out := out, dist := if o.dist.Some? then o.dist.value else v.dist, err := o.err)];
      }
      todo := todo - {k};
    }
  }

  /**
   * What comparePNG does to one page: the inputs and name stay; a page with
   * both inputs gets a PNG diff name under the output directory and
   * compareOne's error, any other page keeps its diff name and error.
   */
  lemma ComparedMeaning(fr: FileResult, outDir: string, compare: (string, string, string) -> Outcome)
    ensures var c := Compared(fr, outDir, compare);
      c.name == fr.name && c.in0 == fr.in0 && c.in1 == fr.in1 &&
      (Scheduled(fr) ==> c.out == DiffName(outDir, fr.name) && PngPath(c.out) &&
                         c.err == compare(fr.in0, fr.in1, c.out).err) &&
      (!Scheduled(fr) ==> c == fr)
  {
    if Scheduled(fr) {
      assert fr.name + ".diff.png" == (fr.name + ".diff") + ".png";
      JoinPngIsPng(outDir, fr.name + ".diff");
    }
  }

  /** The closing loop of comparePNG: the error of some page, if any page has one. */
  method FirstFailure(byName: map<string, FileResult>) returns (err: Option<string>)
    ensures err.Some? <==> exists k | k in byName :: byName[k].err.Some?
    ensures err.Some? ==> exists k | k in byName :: byName[k].err == err
  {
    var todo := byName.Keys;
    while todo != {}
      invariant todo <= byName.Keys
      invariant forall k | k in byName && k !in todo :: byName[k].err.None?
      decreases todo
    {
      var k :| k in todo;
      if byName[k].err.Some? {
        return byName[k].err;
      }
      todo := todo - {k};
    }
    return None;
  }

  // ---------------------------------------------------------------------------
  // Trim

  /** The range over byName that Trim starts from: every entry once, in some order. */
  method ListValues(byName: map<string, FileResult>) returns (vs: seq<FileResult>, ghost order: seq<string>)
    ensures |vs| == |order| == |byName|
    ensures forall j | 0 <= j < |order| :: order[j] in byName && vs[j] == byName[order[j]]
    ensures forall k | k in byName :: k in order
    ensures forall x | x in vs :: x in byName.Values
    ensures forall k | k in byName :: byName[k] in vs
  {
    vs, order := [], [];
    var todo := byName.Keys;
    while todo != {}
      invariant todo <= byName.Keys
      invariant |vs| == |order|
      invariant forall j | 0 <= j < |order| :: order[j] in byName && order[j] !in todo && vs[j] == byName[order[j]]
      invariant forall k | k in byName :: k in todo || k in order
      invariant forall i, j | 0 <= i < j < |order| :: order[i] != order[j]
      invariant |order| + |todo| == |byName|
      decreases todo
    {
      var k :| k in todo;
      vs, order := vs + [byName[k]], order + [k];
      todo := todo - {k};
    }
    DistinctKeys(order, byName.Keys);
    ValuesListed(byName, vs, order);
  }

  /** A listing of every key's value, in key order, holds exactly the table's values. */
  lemma ValuesListed(byName: map<string, FileResult>, vs: seq<FileResult>, order: seq<string>)
    requires |vs| == |order|
    requires forall j | 0 <= j < |order| :: order[j] in byName && vs[j] == byName[order[j]]
    requires forall k | k in byName :: k in order
    ensures forall x | x in vs :: x in byName.Values
    ensures forall k | k in byName :: byName[k] in vs
  {
    forall k | k in byName
      ensures byName[k] in vs
    {
      var j :| 0 <= j < |order| && order[j] == k;
      assert vs[j] == byName[k];
    }
  }

  /** Two lists with the same multiset have the same members. */
  lemma SameMembers(a: seq<FileResult>, b: seq<FileResult>)
    requires multiset(a) == multiset(b)
    ensures forall x | x in a :: x in b
    ensures forall x | x in b :: x in a
  {
    assert forall x | x in a :: x in multiset(b);
    assert forall x | x in b :: x in multiset(a);
  }

  /** A duplicate-free listing of a set's members has as many entries as the set. */
  lemma {:induction false} DistinctKeys(order: seq<string>, keys: set<string>)
    requires forall i, j | 0 <= i < j < |order| :: order[i] != order[j]
    requires forall j | 0 <= j < |order| :: order[j] in keys
    requires forall k | k in keys :: k in order
    ensures |order| == |keys|
    decreases |order|
  {
    if |order| > 0 {
      var last := order[|order| - 1];
      var rest := order[..|order| - 1];
      forall k | k in keys - {last}
        ensures k in rest
      {
        var j :| 0 <= j < |order| && order[j] == k;
      }
      DistinctKeys(rest, keys - {last});
    } else {
      assert keys == {};
    }
  }

  // ---------------------------------------------------------------------------
  // The result object

  class CompareResult {
    /** byName: one entry per page name. */
    var byName: map<string, FileResult>
    /** dirs: the two input directories. */
    const dirs: (string, string)
    /** Results: the ranked pages Trim leaves. */
    var results: seq<FileResult>

    constructor (table: map<string, FileResult>, in1: string, in2: string)
      ensures byName == table && dirs == (in1, in2) && results == []
    {
      byName := table;
      dirs := (in1, in2);
      results := [];
    }

    /**
     * renderPNG: for side 0 and then side 1, rename the EPS inputs and
     * convert them with `ncpu` workers; a failed conversion stops it, so the
     * second side is neither renamed nor converted after a failure on the
     * first.
     */
    method RenderPNG(outDir: string, ncpu: nat, convert: map<string, string> -> Option<string>)
      returns (err: Option<string>, ghost fnMaps: seq<map<string, string>>, ghost chunks: seq<seq<map<string, string>>>)
      requires ncpu > 0
      modifies this
      ensures results == old(results)
      ensures 1 <= |fnMaps| <= 2 && |chunks| == |fnMaps|
      ensures byName == RenamedUpTo(old(byName), outDir, |fnMaps|)
      ensures SidesDone(old(byName), outDir, ncpu, fnMaps, chunks)
      ensures forall s | 0 <= s < |fnMaps| - 1 :: Eps.AllConverted(chunks[s], convert)
      ensures err.None? <==> |fnMaps| == 2 && Eps.AllConverted(chunks[1], convert)
      ensures err.Some? ==> Eps.Failed(chunks[|chunks| - 1], convert, err.value)
      ensures NoEps(old(byName)) ==> err.None? && byName == old(byName)
    {
      ghost var byName0 := byName;
      byName, err, fnMaps, chunks := RenderSides(byName, outDir, ncpu, convert);
      if NoEps(byName0) {
        NothingToRender(byName0, outDir, ncpu, fnMaps, chunks, convert);
      }
    }

    /**
     * comparePNG: every page with both inputs is compared into its diff
     * image; the result is the error of some page, if any page has one.
     */
    method ComparePNG(outDir: string, compare: (string, string, string) -> Outcome) returns (err: Option<string>)
      modifies this
      ensures results == old(results)
      ensures byName == ComparedAll(old(byName), outDir, compare)
      ensures err.Some? <==> exists k | k in byName :: byName[k].err.Some?
      ensures err.Some? ==> exists k | k in byName :: byName[k].err == err
    {
      byName := CompareAll(byName, outDir, compare);
      err := FirstFailure(byName);
    }

    /**
     * Trim: the pages ranked by distance, largest first, then cut at the
     * first page with distance 0, or at index max + 1 when max is positive.
     * `ranked` is the sorted list before the cut.
     */
    method Trim(max: int) returns (ghost ranked: seq<FileResult>)
      modifies this
      ensures byName == old(byName)
      ensures |ranked| == |byName| && Ranking.SortedDesc(ranked)
      ensures forall x | x in ranked :: x in byName.Values
      ensures forall k | k in byName :: byName[k] in ranked
      ensures results <= ranked
      ensures forall i | 0 <= i < |results| :: results[i].dist != 0.0
      ensures max > 0 ==> |results| <= max + 1
      ensures forall k | k in byName && byName[k].dist > 0.0 && byName[k] !in results ::
        max > 0 && |results| == max + 1 && forall r | r in results :: r.dist >= byName[k].dist
    {
      var vs, order := ListValues(byName);
      var sorted := Ranking.SortByDist(vs);
      var kept := Ranking.Cut(sorted, max);
      results := kept;
      ranked := sorted;
      SameMembers(sorted, vs);
      forall k | k in byName && byName[k].dist > 0.0 && byName[k] !in results
        ensures max > 0 && |results| == max + 1 && forall r | r in results :: r.dist >= byName[k].dist
      {
        var j :| 0 <= j < |ranked| && ranked[j] == byName[k];
        assert j >= |results|;
        Ranking.CutKeepsTop(sorted, max, kept, j);
      }
    }
  }

  /**
   * compareDir: the table of both directories' pages as a fresh result, or
   * the directory that could not be read.
   */
  method CompareDir(in1: string, in2: string, listing: map<string, seq<string>>)
    returns (r: Result<CompareResult, string>)
    ensures r.Err? <==> in1 !in listing || in2 !in listing
    ensures r.Err? ==> r.error == if in1 !in listing then in1 else in2
    ensures r.Ok? ==> fresh(r.value) && r.value.dirs == (in1, in2) && r.value.results == []
    ensures r.Ok? ==> r.value.byName.Keys == Stems(listing[in1], |listing[in1]|) + Stems(listing[in2], |listing[in2]|)
    ensures r.Ok? ==> forall k | k in r.value.byName ::
      r.value.byName[k] == FileResult(k, 0.0, Slot(in1, listing[in1], k, |listing[in1]|), Slot(in2, listing[in2], k, |listing[in2]|), "", None)
  {
    var table := CompareDirTable(in1, in2, listing);
    if table.Err? {
      return Err(table.error);
    }
    var res := new CompareResult(table.value, in1, in2);
    return Ok(res);
  }
}

=== FILE: summed_area.dfy ===
/**
 * The summed-area table of cmd/compare: a signed (real-valued) raster written
 * point by point with Set, and the integral image built from it whose Val
 * reads inclusive 2-D prefix sums.  Both rasters are origin anchored and
 * indexed [x, y]; Val reads 0 at a negative coordinate and clamps a coordinate
 * past the raster to its last column or row.
 */
module SummedArea {
  /** A sample of the raster, or 0 outside it. */
  function Sample(a: array2<real>, x: int, y: int): real
    reads a
  {
    if 0 <= x < a.Length0 && 0 <= y < a.Length1 then a[x, y] else 0.0
  }

  /** The sum of the samples of column `x` at rows 0..y. */
  function ColumnSum(a: array2<real>, x: int, y: int): real
    reads a
    decreases y
  {
    if y < 0 then 0.0 else ColumnSum(a, x, y - 1) + Sample(a, x, y)
  }

  /** The sum of every sample whose coordinates are both at most (x, y). */
  function PrefixSum(a: array2<real>, x: int, y: int): real
    reads a
    decreases x
  {
    if x < 0 || y < 0 then 0.0 else PrefixSum(a, x - 1, y) + ColumnSum(a, x, y)
  }

  /** The recurrence the table is filled by: one sample plus the left and upper sums minus their overlap. */
  lemma PrefixSumStep(a: array2<real>, x: int, y: int)
    requires 0 <= x && 0 <= y
    ensures PrefixSum(a, x, y) == Sample(a, x, y) + PrefixSum(a, x - 1, y) + PrefixSum(a, x, y - 1) - PrefixSum(a, x - 1, y - 1)
  {
    assert PrefixSum(a, x, y) == PrefixSum(a, x - 1, y) + ColumnSum(a, x, y);
    assert ColumnSum(a, x, y) == ColumnSum(a, x, y - 1) + Sample(a, x, y);
    if y > 0 {
      assert PrefixSum(a, x, y - 1) == PrefixSum(a, x - 1, y - 1) + ColumnSum(a, x, y - 1);
    }
  }

  /** A column right of the raster (or left of it) sums to 0. */
  lemma {:induction false} ColumnOutside(a: array2<real>, x: int, y: int)
    requires x < 0 || a.Length0 <= x
    ensures ColumnSum(a, x, y) == 0.0
    decreases y
  {
    if y >= 0 {
      ColumnOutside(a, x, y - 1);
    }
  }

  /** Rows below the raster add nothing to a column sum. */
  lemma {:induction false} ColumnClamp(a: array2<real>, x: int, y: int)
    requires 0 < a.Length1 && a.Length1 - 1 <= y
    ensures ColumnSum(a, x, y) == ColumnSum(a, x, a.Length1 - 1)
    decreases y
  {
    if y > a.Length1 - 1 {
      ColumnClamp(a, x, y - 1);
    }
  }

  /** Columns right of the raster add nothing to a prefix sum. */
  lemma {:induction false} PrefixClampX(a: array2<real>, x: int, y: int)
    requires 0 < a.Length0 && a.Length0 - 1 <= x
    ensures PrefixSum(a, x, y) == PrefixSum(a, a.Length0 - 1, y)
    decreases x
  {
    if x > a.Length0 - 1 && y >= 0 {
      ColumnOutside(a, x, y);
      PrefixClampX(a, x - 1, y);
    }
  }

  /** Rows below the raster add nothing to a prefix sum. */
  lemma {:induction false} PrefixClampY(a: array2<real>, x: int, y: int)
    requires 0 < a.Length1 && a.Length1 - 1 <= y
    ensures PrefixSum(a, x, y) == PrefixSum(a, x, a.Length1 - 1)
    decreases x
  {
    if x >= 0 {
      ColumnClamp(a, x, y);
      PrefixClampY(a, x - 1, y);
    }
  }

  /** A raster with no samples has every prefix sum 0. */
  lemma {:induction false} PrefixEmpty(a: array2<real>, x: int, y: int)
    requires a.Length0 == 0 || a.Length1 == 0
    ensures PrefixSum(a, x, y) == 0.0
    decreases x
  {
    if x >= 0 && y >= 0 {
      PrefixEmpty(a, x - 1, y);
      ColumnEmpty(a, x, y);
    }
  }

  lemma {:induction false} ColumnEmpty(a: array2<real>, x: int, y: int)
    requires a.Length0 == 0 || a.Length1 == 0
    ensures ColumnSum(a, x, y) == 0.0
    decreases y
  {
    if y >= 0 {
      ColumnEmpty(a, x, y - 1);
    }
  }

  /** signedImage: a real-valued raster, zero when created. */
  class SignedImage {
    const pix: array2<real>

    constructor (width: nat, height: nat)
      ensures fresh(pix) && pix.Length0 == width && pix.Length1 == height
      ensures forall x, y | 0 <= x < width && 0 <= y < height :: pix[x, y] == 0.0
    {
      pix := new real[width, height]((x, y) => 0.0);
    }

    /** Set: stores `v` at (x, y) when that point lies in the raster; nothing else changes. */
    method Set(x: int, y: int, v: real)
      modifies pix
      ensures forall i, j | 0 <= i < pix.Length0 && 0 <= j < pix.Length1 ::
        pix[i, j] == if i == x && j == y then v else old(pix[i, j])
    {
      if 0 <= x < pix.Length0 && 0 <= y < pix.Length1 {
        pix[x, y] := v;
      }
    }
  }

  /** Every point before (x, y) in row-major order holds its prefix sum. */
  ghost predicate FilledUpTo(s: array2<real>, src: array2<real>, x: int, y: int)
    reads s, src
  {
    forall i, j | 0 <= i < s.Length0 && 0 <= j < s.Length1 && (j < y || (j == y && i < x)) ::
      s[i, j] == PrefixSum(src, i, j)
  }

  /** Stores one entry of the table; the prefix sums of the source are untouched. */
  method FillPoint(s: array2<real>, src: array2<real>, x: nat, y: nat, v: real)
    requires s != src && x < s.Length0 && y < s.Length1
    requires v == PrefixSum(src, x, y)
    requires FilledUpTo(s, src, x, y)
    modifies s
    ensures FilledUpTo(s, src, x + 1, y)
  {
    s[x, y] := v;
  }

  /**
   * newIntegralImage's table: filled row by row, each entry from the sample,
   * the entry to its left, the entry above and the one diagonally up-left.
   */
  method BuildSums(src: array2<real>) returns (s: array2<real>)
    ensures fresh(s) && s.Length0 == src.Length0 && s.Length1 == src.Length1
    ensures forall x, y | 0 <= x < s.Length0 && 0 <= y < s.Length1 :: s[x, y] == PrefixSum(src, x, y)
  {
    s := new real[src.Length0, src.Length1]((x, y) => 0.0);
    var y := 0;
    while y < src.Length1
      invariant 0 <= y <= src.Length1
      invariant FilledUpTo(s, src, 0, y)
    {
      var x := 0;
      while x < src.Length0
        invariant 0 <= x <= src.Length0
        invariant FilledUpTo(s, src, x, y)
      {
        var left := if x > 0 then s[x - 1, y] else 0.0;
        var up := if y > 0 then s[x, y - 1] else 0.0;
        var diag := if x > 0 && y > 0 then s[x - 1, y - 1] else 0.0;
        PrefixSumStep(src, x, y);
        FillPoint(s, src, x, y, src[x, y] + left + up - diag);
        x := x + 1;
      }
      y := y + 1;
    }
  }

  /** integralImage: the table of inclusive prefix sums of a signed image. */
  class IntegralImage {
    const sums: array2<real>

    constructor (src: SignedImage)
      ensures fresh(sums) && sums.Length0 == src.pix.Length0 && sums.Length1 == src.pix.Length1
      ensures forall x, y | 0 <= x < sums.Length0 && 0 <= y < sums.Length1 :: sums[x, y] == PrefixSum(src.pix, x, y)
    {
      var table := BuildSums(src.pix);
      sums := table;
    }

    /** Val: 0 at a negative coordinate, otherwise the entry at the point clamped into the table. */
    function Val(x: int, y: int): (r: real)
      reads sums
    {
      if x < 0 || y < 0 || sums.Length0 == 0 || sums.Length1 == 0 then 0.0
      else sums[if x < sums.Length0 then x else sums.Length0 - 1, if y < sums.Length1 then y else sums.Length1 - 1]
    }
  }

  /**
   * Once built from `src`, Val at every point, inside the raster or not, is the
   * inclusive prefix sum of `src` there: clamping agrees with treating the
   * samples outside the raster as 0.
   */
  lemma ValIsPrefixSum(ii: IntegralImage, src: array2<real>, x: int, y: int)
    requires ii.sums.Length0 == src.Length0 && ii.sums.Length1 == src.Length1
    requires forall i, j | 0 <= i < src.Length0 && 0 <= j < src.Length1 :: ii.sums[i, j] == PrefixSum(src, i, j)
    ensures ii.Val(x, y) == PrefixSum(src, x, y)
  {
    if x >= 0 && y >= 0 {
      if src.Length0 == 0 || src.Length1 == 0 {
        PrefixEmpty(src, x, y);
      } else {
        var cx := if x < src.Length0 then x else src.Length0 - 1;
        if x >= src.Length0 {
          PrefixClampX(src, x, y);
        }
        assert PrefixSum(src, x, y) == PrefixSum(src, cx, y);
        if y >= src.Length1 {
          PrefixClampY(src, cx, y);
        }
      }
    }
  }

  /**
   * TestSumImage: a 2x2 signed image holding 1 2 / 3 4 (row by row), its
   * integral image, and Val at the seven points the test reads.
   */
  method SumImageScenario() returns (grid: seq<real>, vals: seq<real>)
    ensures grid == [1.0, 2.0, 3.0, 4.0]
    ensures vals == [1.0, 0.0, 3.0, 10.0, 10.0, 10.0, 4.0]
  {
    var img := new SignedImage(2, 2);
    img.Set(0, 0, 1.0);
    img.Set(1, 0, 2.0);
    img.Set(0, 1, 3.0);
    img.Set(1, 1, 4.0);
    grid := [img.pix[0, 0], img.pix[1, 0], img.pix[0, 1], img.pix[1, 1]];
    var ii := new IntegralImage(img);
    var a := img.pix;
    assert ColumnSum(a, 0, 1) == 4.0 by {
      assert ColumnSum(a, 0, 0) == 1.0;
    }
    assert ColumnSum(a, 1, 1) == 6.0 by {
      assert ColumnSum(a, 1, 0) == 2.0;
    }
    assert PrefixSum(a, 1, 0) == 3.0 by {
      assert PrefixSum(a, 0, 0) == 1.0;
    }
    assert PrefixSum(a, 1, 1) == 10.0 by {
      assert PrefixSum(a, 0, 1) == 4.0;
    }
    vals := [ii.Val(0, 0), ii.Val(-1, 0), ii.Val(2, 0), ii.Val(1, 1), ii.Val(2, 1), ii.Val(2, 2), ii.Val(0, 2)];
  }
}

=== FILE: text.dfy ===
/**
 * The string primitives of Go's `strings` and `strconv` packages (and of
 * Python's `str` methods) that the tools rely on, over `string = seq<char>`.
 */
module Text {
  import opened Wrappers

  const Int64Min: int := -0x8000_0000_0000_0000
  const Int64Max: int := 0x7fff_ffff_ffff_ffff

  predicate StartsWith(s: string, prefix: string) {
    prefix <= s
  }

  predicate EndsWith(s: string, suffix: string) {
    |suffix| <= |s| && s[|s| - |suffix|..] == suffix
  }

  /** `pat` occurs in `s` starting at index `j`. */
  predicate OccursAt(s: string, pat: string, j: int) {
    0 <= j && j + |pat| <= |s| && s[j..j + |pat|] == pat
  }

  /** strings.Index: the first index at which `pat` occurs in `s`, or None (Go's -1). */
  function IndexOf(s: string, pat: string): (r: Option<nat>)
    ensures r.Some? ==> OccursAt(s, pat, r.value)
    ensures r.Some? ==> forall j | 0 <= j < r.value :: !OccursAt(s, pat, j)
    ensures r.None? ==> forall j | 0 <= j <= |s| :: !OccursAt(s, pat, j)
  {
    IndexFrom(s, pat, 0)
  }

  function IndexFrom(s: string, pat: string, from: nat): (r: Option<nat>)
    ensures r.Some? ==> from <= r.value && OccursAt(s, pat, r.value)
    ensures r.Some? ==> forall j | from <= j < r.value :: !OccursAt(s, pat, j)
    ensures r.None? ==> forall j | from <= j <= |s| :: !OccursAt(s, pat, j)
    decreases |s| - from
  {
    if from + |pat| > |s| then None
    else if s[from..from + |pat|] == pat then Some(from)
    else IndexFrom(s, pat, from + 1)
  }

  /** An occurrence with none before it is the one strings.Index reports. */
  lemma IndexOfAt(s: string, pat: string, p: nat)
    requires OccursAt(s, pat, p)
    requires forall j | 0 <= j < p :: !OccursAt(s, pat, j)
    ensures IndexOf(s, pat) == Some(p)
  {
  }

  /** `pat` cannot occur where its first character does not. */
  lemma NotOccursAtMismatch(s: string, pat: string, j: int)
    requires 0 <= j < |s| && |pat| > 0 && s[j] != pat[0]
    ensures !OccursAt(s, pat, j)
  {
  }

  /** strings.Split with a one-character separator: never empty; "" splits to [""]. */
  function Split(s: string, sep: char): (parts: seq<string>)
    ensures |parts| >= 1
    ensures forall i | 0 <= i < |parts| :: sep !in parts[i]
    decreases |s|
  {
    if |s| == 0 then [""]
    else
      var rest := Split(s[1..], sep);
      if s[0] == sep then [""] + rest
      else [[s[0]] + rest[0]] + rest[1..]
  }

  /** strings.Join with a one-character separator; the empty list joins to "". */
  function Join(parts: seq<string>, sep: char): string
  {
    if |parts| == 0 then ""
    else if |parts| == 1 then parts[0]
    else parts[0] + [sep] + Join(parts[1..], sep)
  }

  /** Joining the pieces of a split gives the string back. */
  lemma {:induction false} JoinSplit(s: string, sep: char)
    ensures Join(Split(s, sep), sep) == s
    decreases |s|
  {
    if |s| > 0 {
      var rest := Split(s[1..], sep);
      JoinSplit(s[1..], sep);
      if s[0] == sep {
        assert Split(s, sep) == [""] + rest;
        assert s == [sep] + s[1..];
      } else {
        var parts := Split(s, sep);
        assert parts == [[s[0]] + rest[0]] + rest[1..];
        if |rest| == 1 {
          assert s == [s[0]] + s[1..];
        } else {
          assert parts[1..] == rest[1..];
          assert Join(rest, sep) == rest[0] + [sep] + Join(rest[1..], sep);
          assert s == [s[0]] + s[1..];
        }
      }
    }
  }

  /** Splitting `p + t`, where `p` holds no separator, glues `p` onto the first piece of `t`. */
  lemma {:induction false} SplitPrefix(p: string, t: string, sep: char)
    requires sep !in p
    ensures Split(p + t, sep) == [p + Split(t, sep)[0]] + Split(t, sep)[1..]
    decreases |p|
  {
    if |p| > 0 {
      SplitPrefix(p[1..], t, sep);
      assert (p + t)[1..] == p[1..] + t;
      assert (p + t)[0] == p[0];
      assert [p[0]] + (p[1..] + Split(t, sep)[0]) == p + Split(t, sep)[0];
    } else {
      var q := Split(t, sep);
      assert p + t == t && p + q[0] == q[0];
      assert [q[0]] + q[1..] == q;
    }
  }

  /** Splitting a join gives the pieces back when no piece holds the separator. */
  lemma {:induction false} SplitJoin(parts: seq<string>, sep: char)
    requires |parts| >= 1
    requires forall i | 0 <= i < |parts| :: sep !in parts[i]
    ensures Split(Join(parts, sep), sep) == parts
    decreases |parts|
  {
    if |parts| == 1 {
      SplitPrefix(parts[0], "", sep);
      assert Split("", sep) == [""];
      assert parts[0] + "" == parts[0];
    } else {
      var tail := [sep] + Join(parts[1..], sep);
      SplitJoin(parts[1..], sep);
      SplitPrefix(parts[0], tail, sep);
      assert tail[1..] == Join(parts[1..], sep);
      assert Split(tail, sep) == [""] + parts[1..];
      assert Join(parts, sep) == parts[0] + tail;
      assert parts[0] + "" == parts[0];
      assert [parts[0]] + parts[1..] == parts;
    }
  }

  /** Replaces every character of `bad` with `repl`, as a regexp character-class substitution does. */
  function ReplaceChars(s: string, bad: set<char>, repl: char): (r: string)
    ensures |r| == |s|
    ensures forall i | 0 <= i < |s| :: s[i] !in bad ==> r[i] == s[i]
    ensures repl !in bad ==> forall i | 0 <= i < |r| :: r[i] !in bad
  {
    seq(|s|, i requires 0 <= i < |s| => if s[i] in bad then repl else s[i])
  }

  predicate IsDigit(c: char) {
    '0' <= c <= '9'
  }

  predicate AllDigits(s: string) {
    forall i | 0 <= i < |s| :: IsDigit(s[i])
  }

  /** The value of a string of decimal digits, most significant first. */
  function DigitsValue(s: string): nat
    requires AllDigits(s)
    decreases |s|
  {
    if |s| == 0 then 0 else DigitsValue(s[..|s| - 1]) * 10 + (s[|s| - 1] as int - '0' as int)
  }

  /** fmt's %d of a natural number. */
  function NatToString(n: nat): (s: string)
    ensures |s| >= 1 && AllDigits(s)
    decreases n
  {
    if n < 10 then [('0' as int + n) as char]
    else NatToString(n / 10) + [('0' as int + n % 10) as char]
  }

  /** fmt's %d of an integer: a leading '-' for negative values. */
  function IntToString(i: int): (s: string)
    ensures |s| >= 1
  {
    if i < 0 then "-" + NatToString(-i) else NatToString(i)
  }

  lemma {:induction false} NatToStringValue(n: nat)
    ensures DigitsValue(NatToString(n)) == n
    decreases n
  {
    if n >= 10 {
      NatToStringValue(n / 10);
      var s := NatToString(n);
      assert s[..|s| - 1] == NatToString(n / 10);
    }
  }

  /**
   * strconv.Atoi on a 64-bit platform: an optional '+' or '-', then one or more
   * ASCII digits and nothing else, with the value inside the int64 range.
   */
  function Atoi(s: string): (r: Option<int>)
    ensures r.Some? ==> Int64Min <= r.value <= Int64Max
    ensures r.Some? ==> |s| >= 1 && (IsDigit(s[0]) || s[0] == '+' || s[0] == '-')
    ensures r.Some? ==> ' ' !in s && '\n' !in s
    ensures r.Some? <==>
      (|s| >= 1 && AllDigits(s) && DigitsValue(s) <= Int64Max) ||
      (|s| >= 2 && s[0] == '+' && AllDigits(s[1..]) && DigitsValue(s[1..]) <= Int64Max) ||
      (|s| >= 2 && s[0] == '-' && AllDigits(s[1..]) && DigitsValue(s[1..]) <= -Int64Min)
    ensures r.Some? ==>
      r.value == if s[0] == '-' then -(DigitsValue(s[1..]) as int) else if s[0] == '+' then DigitsValue(s[1..]) else DigitsValue(s)
  {
    if |s| == 0 then None
    else
      var digits := if s[0] == '-' || s[0] == '+' then s[1..] else s;
      if |digits| == 0 || !AllDigits(digits) then None
      else
        var magnitude: int := DigitsValue(digits);
        var v := if s[0] == '-' then -magnitude else magnitude;
        if Int64Min <= v <= Int64Max then Some(v) else None
  }

  /** Leading zeros and a '+' are accepted; an empty string, a lone sign and a trailing space are not. */
  lemma AtoiExamples()
    ensures Atoi("01") == Some(1) && Atoi("+5") == Some(5) && Atoi("-0") == Some(0)
    ensures Atoi("") == None && Atoi("-") == None && Atoi("1 ") == None
  {
    assert AllDigits("01") && DigitsValue("01") == 1 by {
      assert "01"[..1] == "0";
    }
    assert "+5"[1..] == "5" && "-0"[1..] == "0" && "-"[1..] == "";
    assert !IsDigit("1 "[1]);
  }

  /** Atoi reads back what %d prints, for every int64. */
  lemma AtoiIntToString(i: int)
    requires Int64Min <= i <= Int64Max
    ensures Atoi(IntToString(i)) == Some(i)
  {
    var s := IntToString(i);
    if i < 0 {
      NatToStringValue(-i);
      assert s[1..] == NatToString(-i);
    } else {
      NatToStringValue(i);
    }
  }
}

=== FILE: wrappers.dfy ===
/** Optional values and results with an error, used wherever the source returns `error`. */
module Wrappers {
  datatype Option<+T> = None | Some(value: T)

  datatype Result<+T, +E> = Ok(value: T) | Err(error: E)
}
